=== FILE: README.md ===
# pry-ops: access-log statistics, collection wrappers, the service DSL and autoloading, in Dafny

This project models the computational core of pry-ops, a Pry-based
operations console written in Ruby, and proves properties of the model.

- **Access log** (`PryOps::Util::AccessLog`). A log is a list of entries.
  It is filled by parsing log lines with one regular expression. From it
  the code computes:
  - the byte totals;
  - groupings by hour and by day;
  - the sorted `[hour, bytes]`, `[hour, count]` and `[day, count]` tables;
  - the `top` table of the largest contributors by an attribute.

  The entry getters `request_type`, `request_uri`, `request_path`,
  `query_string` and `http_version` are modelled as the regular
  expressions they are; `bytes` is the sum it computes.
  - Files: `log_line.dfy`, `access_log.dfy`, `log_samples.dfy`.
  - The line pattern is a hand-written backtracking matcher (`log_line.dfy`).
    It is tried in the order the regular-expression engine tries it.
    `log_shape.dfy` states, position by position, how a matching line is laid
    out. `log_text.dfy` proves that the matcher accepts exactly those layouts.
- **Enumerable filter** (`PryOps::Util::EnumerableFilter`). `select`,
  `reject` and `group_by` return new instances of the collection class
  instead of arrays.
  - File: `enumerable_filter.dfy`.
  - Ruby's own `Enumerable` behaviour that these rely on is in
    `enumerables.dfy`: `select`, `reject`, `group_by` as an
    insertion-ordered hash, `sort` and `reduce(:+)`. `first(n)` is
    modelled where `top` uses it, in `AccessLogs.AccessLog.Top`
    (`access_log.dfy`): the first `n` sorted rows, or the ArgumentError
    `NegativeLimit` for a negative `n`.
- **Service DSL** (`PryOps::ObjectManager`, `PryOps::Context`,
  `PryOps::DSL#context`). This covers:
  - the scope stack;
  - the service table with its refusal to redefine;
  - nested contexts, whose scope is restored on every exit;
  - the coercion of a context name;
  - the dotted context name.
  - File: `dsl_definition.dfy`.
- **Autoload** (`PryOps::Util::Autoload#autoload_all_files_relative_to`).
  This covers:
  - the lib-directory pattern;
  - the names declared by `module`/`class` lines;
  - the CamelCase to snake_case conversion;
  - the choice of the first matching constant name;
  - the loop over the globbed files, with directory listing and file
    reading passed in as functions.
  - File: `autoload.dfy`.
  - Ruby's `String#split` and `Array#join` are in `ruby_strings.dfy`.
  - `Option` and `Result` (nil and raised exceptions) are in
    `wrappers.dfy`.

Where the code raises, the model returns an error value, so a raise is an
outcome of the operation.

In these places the code behaves as follows, and so does the model:
- **Parsing stops at the first bad line.** A line that does not match
  raises "unrecognized input line", and `parse` stops there. The log keeps
  its old entries; failures are not collected.
- **Totals over no entries are nil**, not 0, because of `reduce(:+)`
  without a seed.
- **A missing bytes-received count raises.** `Entry#bytes` adds it, so
  `nil + x` raises. It does not fall back to `bytes_sent`.
- **The status is any run of digits**, not a three-digit code.
- **The sample line's source IP is `-`.** The regular expression captures
  the first field, which is `-`, not `127.0.0.1`.
- **`top` keeps entries whose attribute is nil.** They form a group of
  their own.

## Model

| member | source | states |
|---|---|---|
| `Enumerables.Select` | lib/pry-ops/util/enumerable_filter.rb:19-21 | `select` returns no more elements than it is given, each satisfying the block |
| `Enumerables.Reject` | lib/pry-ops/util/enumerable_filter.rb:23-25 | `reject` returns no more elements than it is given, each failing the block |
| `Enumerables.SelectMembers` | lib/pry-ops/util/enumerable_filter.rb:19-25 | an element is in the `select` result iff it is in the collection and the block holds of it; in the `reject` result iff it is in the collection and the block fails |
| `Enumerables.SelectRejectPartition` | lib/pry-ops/util/enumerable_filter.rb:19-25 | `select` and `reject` with the same block split the collection: their lengths add up and their multisets add up to the collection's |
| `Enumerables.SelectAppend` | lib/pry-ops/util/enumerable_filter.rb:19-21 | selection keeps order: selecting from `a + b` is selecting from `a` followed by selecting from `b` |
| `Enumerables.GroupBy` | lib/pry-ops/util/enumerable_filter.rb:27-28 | `group_by` has at most one group per element |
| `Enumerables.GroupByIsGrouping` | lib/pry-ops/util/access_log.rb:143-150 | `group_by`: the keys are distinct, each group is exactly the entries with its key in their original order and is not empty, and every entry's key is a key of the hash |
| `Enumerables.GroupBySizes` | lib/pry-ops/util/access_log.rb:170-176 | the sizes of the groups add up to the number of entries |
| `Enumerables.GroupByKeyOrder` | lib/pry-ops/util/enumerable_filter.rb:27-28 | the keys of the hash `group_by` returns come in the order in which they first occur among the elements |
| `Enumerables.GroupBySum` | lib/pry-ops/util/access_log.rb:156-162 | summing a quantity group by group gives the sum over all entries |
| `Enumerables.SortBy` | lib/pry-ops/util/access_log.rb:159-161 | `sort` keeps the number of elements |
| `Enumerables.SortByPermutes` | lib/pry-ops/util/access_log.rb:159-161 | `sort` returns a permutation of its input |
| `Enumerables.SortBySorted` | lib/pry-ops/util/access_log.rb:159-161 | with a total preorder, the result of `sort` is ordered |
| `Enumerables.SortBySum` | lib/pry-ops/util/access_log.rb:156-162 | sorting does not change the sum of a quantity over the rows |
| `Enumerables.PermutationKeepsDistinct` | lib/pry-ops/util/access_log.rb:159-161 | rows with distinct keys still have distinct keys after a permutation |
| `Enumerables.KeyLeTotal` | lib/pry-ops/util/access_log.rb:159-161 | ordering rows by a comparator (`a[0] <=> b[0]`) on their keys is a total preorder |
| `Enumerables.IntCompare` | lib/pry-ops/util/access_log.rb:160 | `<=>` on integers is negative, zero or positive as the first is smaller, equal or larger |
| `Enumerables.StringCompareOrders` | lib/pry-ops/util/access_log.rb:187-189 | `<=>` on strings is a comparator: zero exactly on equal strings, antisymmetric in sign, transitive |
| `Enumerables.ReducePlus` | lib/pry-ops/util/access_log.rb:128-130 | `reduce(:+)` without a seed is nil exactly for no elements or a single nil one, a number exactly when there are elements and none is nil, and then the sum |
| `Enumerables.ReducePlusClosedForm` | lib/pry-ops/util/access_log.rb:128-130 | `reduce(:+)` without a seed: nil for no elements, the element itself for one, and for more the sum, raising when any of them is nil |
| `LogLine.FirstLineMatch` | lib/pry-ops/util/access_log.rb:101 | `=~` with `^`: the match is at the first line start where the pattern matches, and no earlier line start matches |
| `LogLine.SingleLineMatch` | lib/pry-ops/util/access_log.rb:101 | on a string without a newline, `^` matches only at the start |
| `LogLine.MatchLogAt` | lib/pry-ops/util/access_log.rb:101 | a match of the log pattern gives a source IP of digits and dots or `-`, the text of the line where it starts and followed by a space; a non-empty bracket-free time; a non-empty request; and a well-formed tail of numbers and quoted strings |
| `LogLine.MatchLogLine` | lib/pry-ops/util/access_log.rb:101 | `line =~ pattern`: the captures are those of a line start where the pattern matches, and no capture means it matches at no line start |
| `LogLine.TailAt` | lib/pry-ops/util/access_log.rb:101 | the part after the request: status, optional serve time, optional bytes received and bytes sent are digit runs; referer non-empty; no quote in referer or user agent |
| `LogLine.OptionalNumbers` | lib/pry-ops/util/access_log.rb:101 | `(?: (\d+))?(?: (\d+))?`: the groups already decided are kept in order (the first is serve time, the second bytes received), each a digit run, and the status is kept |
| `LogLine.RequestLoopTail` | lib/pry-ops/util/access_log.rb:101 | the request repetition is left only where the rest of the line matches, and what it yields is that rest |
| `LogText.MatchLogAtSound` | lib/pry-ops/util/access_log.rb:101 | what the matcher accepts at a position is laid out there as the pattern says. The layout is the source IP, a space, a gap without a newline, ` [`, the time, `] "`, the request, `" `, the status, the optional numbers each after a space, bytes sent, and the quoted referer and user agent. Every capture fits its group |
| `LogText.MatchLogAtComplete` | lib/pry-ops/util/access_log.rb:101 | every such layout whose captures fit their groups is accepted at that position |
| `LogText.LineRecognized` | lib/pry-ops/util/access_log.rb:101-117 | a line is accepted, and so does not raise "unrecognized input line", exactly when at some line start it is laid out as the pattern says with fitting captures; the captures returned are laid out at such a line start |
| `LogText.TailAtSound` | lib/pry-ops/util/access_log.rb:101 | what is accepted after the request is laid out as `" (\d+)`, the optional numbers, bytes sent, referer and user agent |
| `LogText.TailAtComplete` | lib/pry-ops/util/access_log.rb:101 | every such layout with well-formed fields is accepted after the request |
| `LogText.AfterBracketSound` | lib/pry-ops/util/access_log.rb:101 | what is accepted after `[` is the time up to `]`, then `] "`, the request and the tail, each the text of the line |
| `LogText.AfterBracketComplete` | lib/pry-ops/util/access_log.rb:101 | every such layout with a bracket-free time and a request whose quotes are escaped is accepted after `[` |
| `LogText.RequestLoopComplete` | lib/pry-ops/util/access_log.rb:101 | the request repetition reaches the closing quote at which the rest of the line matches, as long as every quote before it is escaped |
| `LogText.GapSearchSound` | lib/pry-ops/util/access_log.rb:101 | `.*` gives back characters until ` [` and the bracket part match, and the match lies inside the searched stretch |
| `LogText.GapSearchComplete` | lib/pry-ops/util/access_log.rb:101 | the search finds a match when some position in its stretch has one |
| `LogLine.RequestQuotesEscaped` | lib/pry-ops/util/access_log.rb:101 | every double quote inside a captured request is escaped with a backslash |
| `LogLine.BytesReceivedNeedsServeTime` | lib/pry-ops/util/access_log.rb:101 | the optional groups fill left to right: a bytes-received count is captured only together with a serve time |
| `LogLine.AfterBytesReceivedOnlyPosition` | lib/pry-ops/util/access_log.rb:101 | whether the rest of the line after the optional numbers matches depends only on where it starts |
| `LogLine.ParseLine` | lib/pry-ops/util/access_log.rb:99-118 | a line that does not match raises "unrecognized input line"; a matching line whose time text, first colon made a space, does not parse raises the date error; on success the entry carries the captured source IP, request, referer and user agent; status and bytes sent are `to_i` of their captures; serve time and bytes received are `to_i` of the first and second optional numbers and nil exactly when their groups are; the timestamp is the parsed time text |
| `LogLine.SubFirstColon` | lib/pry-ops/util/access_log.rb:114 | `sub(/:/, ' ')` keeps the length, turns the first colon into a space and keeps every other character |
| `LogLine.DecimalValue` | lib/pry-ops/util/access_log.rb:108-111 | `to_i` of no digits is 0 |
| `LogLine.DecimalValueOfDecimal` | lib/pry-ops/util/access_log.rb:108-111 | `to_i` reads back every number from its decimal digits |
| `LogLine.SubFirstColonSplits` | lib/pry-ops/util/access_log.rb:114 | `sub(/:/, ' ')` replaces the first colon, and only it, with a space |
| `LogLine.Entry.Bytes` | lib/pry-ops/util/access_log.rb:85-87 | `bytes` is bytes received plus bytes sent, and raises exactly when bytes received is nil |
| `LogLine.Entry.RequestType` | lib/pry-ops/util/access_log.rb:65-67 | a request type is a non-empty word without spaces |
| `LogLine.Entry.RequestUri` | lib/pry-ops/util/access_log.rb:69-71 | a request URI is a non-empty word without spaces; RequestUriIsSecondWord places it |
| `LogLine.Entry.RequestPath` | lib/pry-ops/util/access_log.rb:73-75 | a request path is non-empty and holds neither a space nor a question mark |
| `LogLine.Entry.QueryString` | lib/pry-ops/util/access_log.rb:77-79 | a query string starts with `?`, has something after it and no space, and is followed by a space in the request |
| `LogLine.Entry.HttpVersion` | lib/pry-ops/util/access_log.rb:81-83 | an HTTP version is a non-empty word without spaces; HttpVersionAfterUri places it |
| `LogLine.Entry.QueryStringFromFirstMark` | lib/pry-ops/util/access_log.rb:77-79 | the query as evidently intended: it starts at the first `?` of the URI |
| `LogLine.SingleLineGetters` | lib/pry-ops/util/access_log.rb:65-83 | on a one-line request, each getter is its pattern matched at the start of the request |
| `LogLine.UriIsSecondWord` | lib/pry-ops/util/access_log.rb:69-71 | `^[^ ]+ ([^ ]+) ` at the start of the request gives the text between the first and the second space. It is nil when the first word is empty, the second word is empty, or no space follows the second word |
| `LogLine.RequestUriIsSecondWord` | lib/pry-ops/util/access_log.rb:69-71 | on a one-line request, `request_uri` is the second word, present exactly when both words are non-empty and a space follows the second |
| `LogLine.VersionAfterUri` | lib/pry-ops/util/access_log.rb:69-83 | the version pattern fails wherever the URI pattern fails. Otherwise it gives the text after the space that ends the URI, up to the next space or the end of the request, and nil when that text is empty |
| `LogLine.HttpVersionAfterUri` | lib/pry-ops/util/access_log.rb:81-83 | on a one-line request, `http_version` is nil without a `request_uri`, and otherwise the third word, nil when it is empty |
| `LogLine.RequestTypeIsFirstWord` | lib/pry-ops/util/access_log.rb:65-67 | the request type is the text before the first space, present exactly when that text is not empty and a space follows it |
| `LogLine.PathAndQueryFromFirstMark` | lib/pry-ops/util/access_log.rb:73-79 | the path is the URI up to its first `?` (nil when the URI starts with one), and the path followed by the first-mark query is the URI |
| `LogSamples.SampleMatch` | lib/pry-ops/util/access_log.rb:101-103 | the sample line quoted beside the pattern matches, with source IP `-`, the bracketed time, the request, status `200`, no serve time, no bytes received and `26841` bytes sent |
| `LogSamples.SampleEntry` | lib/pry-ops/util/access_log.rb:103-114 | the sample line parses to the entry with status 200, bytes sent 26841 and no serve time or bytes received |
| `LogSamples.TrailingMarkQuery` | lib/pry-ops/util/access_log.rb:77-79 | on `GET /a?b? HTTP/1.1` the query pattern gives `?b?`: the greedy URI word gives back characters only until `\?[^ ]+ ` fits, so a final `?` with nothing after it does not start the query |
| `LogSamples.QueryStringTakesLastMark` | lib/pry-ops/util/access_log.rb:77-79 | on `GET /a?b?c HTTP/1.1` the query string is `?c` and path plus query is not the URI, while the first-mark query is `?b?c` |
| `AccessLogs.ParseLines` | lib/pry-ops/util/access_log.rb:98-121 | on success there is one entry per line |
| `AccessLogs.ParseLinesOutcome` | lib/pry-ops/util/access_log.rb:95-125 | parsing yields one entry per line in line order, or the error of the first line that raises |
| `AccessLogs.ParseLinesKeepsError` | lib/pry-ops/util/access_log.rb:98-121 | once a line raises, the lines after it are not read |
| `AccessLogs.AccessLog.constructor` | lib/pry-ops/util/access_log.rb:28-31 | a log built from entries holds exactly those entries |
| `AccessLogs.AccessLog.FromLines` | lib/pry-ops/util/access_log.rb:23-28 | a log built from text holds the entries of every line, and there is no log when a line raises |
| `AccessLogs.AccessLog.Parse` | lib/pry-ops/util/access_log.rb:95-125 | `parse` appends the new entries to the log and returns them, or raises the first line's error and leaves the log unchanged |
| `AccessLogs.TotalBytes` | lib/pry-ops/util/access_log.rb:128-130 | the total of `bytes`: nil with no entries, raises iff some entry lacks bytes received, otherwise the sum of every entry's bytes |
| `AccessLogs.AccessLog.Bytes` | lib/pry-ops/util/access_log.rb:128-130 | `bytes` of the log: nil iff the log is empty, raises iff an entry lacks bytes received, otherwise the sum of the entries' bytes |
| `AccessLogs.AccessLog.BytesReceived` | lib/pry-ops/util/access_log.rb:133-135 | `bytes_received` of the log: nil for no entries or a single nil one, a number iff there are entries and none is nil, then the sum |
| `AccessLogs.AccessLog.BytesSent` | lib/pry-ops/util/access_log.rb:138-140 | `bytes_sent` of the log: nil iff empty, never raises, otherwise the sum of bytes sent |
| `AccessLogs.AccessLog.GroupByHour` | lib/pry-ops/util/access_log.rb:143-145 | the entries grouped by hour, as `group_by` groups them |
| `AccessLogs.AccessLog.GroupByDay` | lib/pry-ops/util/access_log.rb:148-150 | the entries grouped by day, as `group_by` groups them |
| `AccessLogs.CountRows` | lib/pry-ops/util/access_log.rb:171-172 | one `[key, size]` row per group; the counts add up to the group sizes |
| `AccessLogs.ByteRows` | lib/pry-ops/util/access_log.rb:157-158 | one `[key, bytes]` row per group, nil (raising) iff some group has an entry without bytes received; the values add up over the groups |
| `AccessLogs.SortedTable` | lib/pry-ops/util/access_log.rb:159-161 | sorting the rows of a grouping by key gives a table with keys strictly ascending, one row per key that occurs, each row's value computed from its key's group |
| `AccessLogs.HourCompareOrders` | lib/pry-ops/util/access_log.rb:160 | `<=>` on hours is a comparator |
| `AccessLogs.AccessLog.BytesPerHour` | lib/pry-ops/util/access_log.rb:156-162 | `[hour, bytes]` rows with hours strictly ascending, one per hour present, each the bytes of that hour; raises iff an entry lacks bytes received; the rows add up to the total bytes |
| `AccessLogs.AccessLog.RequestsPerHour` | lib/pry-ops/util/access_log.rb:170-176 | `[hour, count]` rows with hours strictly ascending, one per hour present, each the number of entries of that hour; counts add up to the number of entries |
| `AccessLogs.AccessLog.RequestsPerDay` | lib/pry-ops/util/access_log.rb:184-190 | `[day, count]` rows in ascending string order of the day, one per day present; counts add up to the number of entries |
| `AccessLogs.TopRows` | lib/pry-ops/util/access_log.rb:216-217 | one `[bytes, count, key]` row per group, nil (raising) iff some group has an entry without bytes received |
| `AccessLogs.SortedTopRows` | lib/pry-ops/util/access_log.rb:214-219 | the rows sorted by descending bytes form a table of distinct keys, each row the bytes and size of its group, covering every key |
| `AccessLogs.TopFirstRows` | lib/pry-ops/util/access_log.rb:214-220 | the first `n` sorted rows are a table of the largest groups: no group left out has more bytes than a row kept |
| `AccessLogs.AccessLog.Top` | lib/pry-ops/util/access_log.rb:207-221 | at most `limit` rows in descending bytes, distinct keys, each row the bytes and size of its group, no group left out larger than a row kept, every key present when fewer rows than the limit; raises when an entry lacks bytes received or the limit is negative |
| `EnumerableFilter.Collection.constructor` | lib/pry-ops/util/enumerable_filter.rb:15-16 | a collection built from an array holds its elements |
| `EnumerableFilter.Collection.Select` | lib/pry-ops/util/enumerable_filter.rb:19-21 | `select` returns a new collection of the elements satisfying the block, in order |
| `EnumerableFilter.Collection.Reject` | lib/pry-ops/util/enumerable_filter.rb:23-25 | `reject` returns a new collection of the elements failing the block, in order |
| `EnumerableFilter.Collection.GroupBy` | lib/pry-ops/util/enumerable_filter.rb:27-33 | `group_by` returns the grouping of the elements with every group wrapped in its own new collection |
| `DslDefinition.Context.constructor` | lib/pry-ops/dsl_definition.rb:5-8 | a context keeps its object manager and a copy of the scope |
| `DslDefinition.Context.Name` | lib/pry-ops/dsl_definition.rb:10-12 | split at the dots, the context's name gives its scope back when no scope part holds a dot; a one-part scope is its own name |
| `DslDefinition.DottedNamesCollide` | lib/pry-ops/dsl_definition.rb:10-12 | a dot inside a scope part makes two different scopes share one name |
| `DslDefinition.ContextName` | lib/pry-ops/dsl_definition.rb:98-103 | symbols and strings are accepted as they are, an object with `to_str` exactly when it converts, and then under the string `to_str` returned, and anything else raises ArgumentError |
| `DslDefinition.BlockObservesExtensions` | lib/pry-ops/dsl_definition.rb:46-53 | every scope seen inside a block extends the scope the block started in |
| `DslDefinition.StepObservesExtensions` | lib/pry-ops/dsl_definition.rb:46-53 | the same for one statement of a block, nested contexts included |
| `DslDefinition.TopLevelNameSpace` | spec/dsl_spec.rb:11-17 | inside `context :test` the current scope is `["test"]` |
| `DslDefinition.NestedNameSpaces` | spec/dsl_spec.rb:19-28 | inside `context "sub.context"` nested in `context :test` the scope joined with dots is `test.sub.context` |
| `DslDefinition.RunBlock` | lib/pry-ops/dsl_definition.rb:46-53 | a block raises exactly when one of its statements raises, and when it does not raise none of them does |
| `DslDefinition.InternResult` | lib/pry-ops/dsl_definition.rb:35-44 | `intern` raises "cannot be redefined" exactly when arguments are given for a name already present; otherwise it returns the stored instance, or for a new name one built from the class, name and arguments |
| `DslDefinition.InternTable` | lib/pry-ops/dsl_definition.rb:42-43 | the table after `intern` has the old names plus the new one, keeps every old entry, and maps a new name to the instance built for it |
| `DslDefinition.InternStores` | lib/pry-ops/dsl_definition.rb:35-44 | after `intern` the name maps to the existing instance, or to a new one built from the class, name and arguments |
| `DslDefinition.InternRefusesRedefinition` | lib/pry-ops/dsl_definition.rb:36-40 | `intern` raises exactly when arguments are given for a name already present, and then changes nothing |
| `DslDefinition.InternKeepsOthers` | lib/pry-ops/dsl_definition.rb:42-43 | `intern` leaves every other name's entry alone |
| `DslDefinition.InternIdempotent` | lib/pry-ops/dsl_definition.rb:42-43 | interning the same name again without arguments returns the stored instance and changes nothing |
| `DslDefinition.ObjectManager.constructor` | lib/pry-ops/dsl_definition.rb:18-22 | a new object manager has an empty scope and no services |
| `DslDefinition.ObjectManager.Services` | lib/pry-ops/dsl_definition.rb:24-26 | `services` lists the stored instances in the order their names were first interned, one per name, and every stored instance is among them |
| `DslDefinition.ObjectManager.CurrentScope` | lib/pry-ops/dsl_definition.rb:55-57 | `current_scope` is a copy of the scope |
| `DslDefinition.ObjectManager.Intern` | lib/pry-ops/dsl_definition.rb:35-44 | `intern` on the service table: the result and the new table, with a new name added at the end of the insertion order |
| `DslDefinition.ObjectManager.InContext` | lib/pry-ops/dsl_definition.rb:46-53 | the block runs with the name pushed on the scope; afterwards the scope is restored whether the block returned or raised, and the context returned holds the extended scope |
| `DslDefinition.ObjectManager.RunSteps` | lib/pry-ops/dsl_definition.rb:49 | running a block's statements: what they see and raise, with the scope and services as before |
| `DslDefinition.ObjectManager.RunOne` | lib/pry-ops/dsl_definition.rb:49 | running one statement of a block, with the scope and services as before |
| `DslDefinition.DslContext` | lib/pry-ops/dsl_definition.rb:98-105 | `context(name)` coerces the name (raising ArgumentError with nothing run when it cannot), then runs the block in the nested context and restores the scope |
| `RubyStrings.RubySplit` | lib/pry-ops/util/autoload.rb:50 | Ruby's `split` is the untrimmed split with its trailing empty pieces dropped: a prefix of it, ending in a non-empty piece, with only empty pieces after it |
| `RubyStrings.JoinSplit` | lib/pry-ops/util/autoload.rb:50 | joining the untrimmed pieces of `split` (before Ruby drops the trailing empty strings) with the separator gives back the string |
| `RubyStrings.SplitJoin` | lib/pry-ops/dsl_definition.rb:11 | splitting a dot-joined list at the dots gives the list back when no part holds a dot |
| `RubyStrings.SplitPiecesFree` | lib/pry-ops/util/autoload.rb:50 | no piece of a split holds the separator |
| `Autoload.FirstLibLine` | lib/pry-ops/util/autoload.rb:39 | the lib pattern matches on the first line where it can, and on no line before it |
| `Autoload.LibPath` | lib/pry-ops/util/autoload.rb:39-44 | the pattern is tried line by line: the groups come from a line of the base path where it matches; when it matches on no line, the call raises "can't find lib directory" with that path |
| `Autoload.LibLineParts` | lib/pry-ops/util/autoload.rb:39-41 | on a match the lib directory ends in `/lib`, the relative path is not empty, the line is lib directory, slash, relative path, one character and `rb`, and no longer lib directory works |
| `Autoload.LibPathOfFile` | lib/pry-ops/util/autoload.rb:39-41 | `<dir>/lib/<rel>.rb` on one line gives lib directory `<dir>/lib` and relative path `<rel>` when `/<rel>` holds no `/lib/` |
| `Autoload.AnyCharBeforeRb` | lib/pry-ops/util/autoload.rb:39 | the unescaped dot accepts any character: `/x/lib/fooXrb` gives `/x/lib` and `foo` |
| `Autoload.LinesConcat` | lib/pry-ops/util/autoload.rb:48 | `lines` cuts the text without losing or adding anything |
| `Autoload.LinesEndAtNewlines` | lib/pry-ops/util/autoload.rb:48 | a newline only ever ends a line, and every line but the last ends in one; with LinesConcat this fixes the cut |
| `Autoload.DeclaredName` | lib/pry-ops/util/autoload.rb:49 | a declared name is a non-empty run of non-blanks |
| `Autoload.DeclaredNameSound` | lib/pry-ops/util/autoload.rb:49 | a name is taken only from a line of blanks, `module` or `class`, at least one blank, and then the name followed by the end of the line or a blank |
| `Autoload.DeclaredNameOf` | lib/pry-ops/util/autoload.rb:49 | every line of blanks, `module` or `class`, blanks and a name yields that name |
| `Autoload.LastSegment` | lib/pry-ops/util/autoload.rb:50 | the last `::` segment is non-empty and holds no `::`; it is nil iff every piece of the split is empty |
| `Autoload.LastSegmentOfPlainName` | lib/pry-ops/util/autoload.rb:50 | a name without `::` is its own last segment |
| `Autoload.LastSegmentOfQualifiedName` | lib/pry-ops/util/autoload.rb:50 | `A::B` gives `B` when `B` holds no colon and `A` does not end in one |
| `Autoload.Candidates` | lib/pry-ops/util/autoload.rb:48-51 | at most one candidate per line |
| `Autoload.CandidatesDeclared` | lib/pry-ops/util/autoload.rb:48-51 | a name is a candidate exactly when it is the last `::` segment of the name some line declares |
| `Autoload.CandidatesAppend` | lib/pry-ops/util/autoload.rb:48-51 | the candidates keep line order: those of two runs of lines follow each other |
| `Autoload.SplitAcronymsMarks` | lib/pry-ops/util/autoload.rb:55 | the first `gsub` (`SplitAcronyms`) inserts `_` exactly before the last capital of every run of two or more capitals that a lower-case letter follows |
| `Autoload.SplitWordsMarks` | lib/pry-ops/util/autoload.rb:56 | the second `gsub` (`SplitWords`) inserts `_` exactly before every capital that follows a lower-case letter or digit |
| `Autoload.Tr` | lib/pry-ops/util/autoload.rb:57 | `tr("-", "_")` keeps the length, turns every dash into an underscore and keeps every other character |
| `Autoload.Downcase` | lib/pry-ops/util/autoload.rb:58 | `downcase` keeps the length and lowers each capital letter, keeping every other character |
| `Autoload.Underscore` | lib/pry-ops/util/autoload.rb:54-58 | the underscore form has no capital letter and no dash |
| `Autoload.UnderscoreLetters` | lib/pry-ops/util/autoload.rb:54-58 | without its underscores and dashes the underscore form is the lower-cased name without its underscores and dashes |
| `Autoload.FindConst` | lib/pry-ops/util/autoload.rb:53-65 | a chosen name is a candidate that matches the base name (as its underscore form or its lower case); nil only when every candidate fails to match; a raise only when a nil candidate is reached |
| `Autoload.FindConstIsFirst` | lib/pry-ops/util/autoload.rb:53-65 | the chosen name is the first candidate that matches |
| `Autoload.FindConstRaises` | lib/pry-ops/util/autoload.rb:53-58 | a nil candidate reached before any match raises NoMethodError |
| `Autoload.Basename` | lib/pry-ops/util/autoload.rb:63 | `File.basename` holds no slash |
| `Autoload.BasenameOfRubyFile` | lib/pry-ops/util/autoload.rb:63 | the base name of `<dir>/<stem>.rb` is the stem |
| `Autoload.StripRb` | lib/pry-ops/util/autoload.rb:71 | `sub(/\.rb$/, '')` leaves the name unchanged exactly when no `.rb` ends a line in it; otherwise it removes the first `.rb` that ends a line |
| `Autoload.StripRbOfRubyFile` | lib/pry-ops/util/autoload.rb:71 | a one-line file name ending in `.rb` loses exactly that ending |
| `Autoload.Choose` | lib/pry-ops/util/autoload.rb:48-71 | a file yields an autoload of a constant declared in it that matches its base name, with its path less `.rb`; the only error is NoMethodError |
| `Autoload.Autoloads` | lib/pry-ops/util/autoload.rb:38-74 | the call raises "can't find lib directory" exactly when the base path does not match |
| `Autoload.ChoicesIssueDeclaredConstants` | lib/pry-ops/util/autoload.rb:46-72 | each autoload issued names a constant declared in one of the files found, matching that file's base name, with that file's path less `.rb` |
| `Autoload.Choices` | lib/pry-ops/util/autoload.rb:47-71 | one choice per globbed file, in glob order, each made from the file's name and its text; a choice can only fail with NoMethodError |
| `Autoload.Run` | lib/pry-ops/util/autoload.rb:47-72 | at most one statement is issued per file |
| `Autoload.RunSound` | lib/pry-ops/util/autoload.rb:47-72 | every statement issued is the choice made for one of the files |
| `Autoload.RunComplete` | lib/pry-ops/util/autoload.rb:47-72 | when nothing is raised, every file's choice succeeded and each chosen statement was issued; files with no match are skipped |
| `Autoload.RunRaisedBy` | lib/pry-ops/util/autoload.rb:47-72 | something is raised iff some file's choice raises it |
| `Autoload.RunStops` | lib/pry-ops/util/autoload.rb:47-72 | after the first error, later files change nothing |
| `Autoload.AutoloadAllFilesRelativeTo` | lib/pry-ops/util/autoload.rb:38-74 | the loop issues exactly the statements, and raises exactly the error, of the specification `Autoloads` |

## Left out

- Reading input (`load_file`, `parse_file`, `readline`, `StringIO`,
  `chomp!`). The model's input is the sequence of already-chomped lines.
- Byte encoding. A line is a sequence of already-decoded characters, so
  no line holds an invalid byte. In Ruby, `line =~` on a line that is not
  valid UTF-8 (the file is opened with the default UTF-8 external
  encoding) raises ArgumentError ("invalid byte sequence in UTF-8"), and
  `parse` stops there. `ParseLine` has no such error case: a line that
  is faulty only in its bytes, for example in the user agent, parses in
  the model, and `ParseLines` goes on past it.
- `DateTime.parse` and `strftime`. `DateTime.parse` is the parameter
  `parseTime`, where None stands for a raise. A timestamp is reduced to
  the hour and the `%Y-%m-%d` day that the statistics use.
- `AccessLog.new` with an argument that has no `each`, which raises
  ArgumentError. Dafny's types rule that argument out.
- `each` is the `entries` field.
- Entries are those `parse` builds. An `Entry` built by hand may have any
  attribute nil; then `bytes`, `group_by_hour` and `bytes_sent` can raise on
  a nil `bytes_sent` or `timestamp`. Only `serve_time` and `bytes_received`
  can be nil in the model.
- Floating point: `bytes_per_second`, `kbps_per_request_by_hour`, and the
  megabyte figures of `top_10_requests` and `top_10_source_ips`.
- The charts, which use the gruff library and `1.megabyte`.
- `AccessLogs.AccessLog.Top`: the order of rows with equal bytes is not
  stated. Ruby's `sort` is not stable, so the source promises none either.
  The attribute is a function `key` rather than a method name sent to each
  entry.
- `AccessLogs.AccessLog.Top`: the default limit of 10 in
  `top(attribute, limit = 10)` is not modelled; callers always pass the
  limit.
- Integer width: Ruby integers are unbounded, and so are the model's.
- `PryOps.application` is a singleton. The model passes the manager as a
  parameter.
- `define_service` (in `service.rb`) and `DSL.eval` are not part of this
  model.
- `Context#__binding__` builds a Pry `Binding`. The model keeps only the
  dotted name it is given.
- `intern`'s instance-variable indirection. The model works on the service
  table directly, and `object_name.to_s` is the name as a string.
- A block's body is arbitrary Ruby. The model runs a small language of
  nested contexts, scope observations and raises.
- `EnumerableFilter.Collection.GroupBy` returns an ordered list of key and
  collection pairs. The source instead overwrites the values of the hash
  `super` returned.
- `Autoload.AutoloadAllFilesRelativeTo`: `Dir.chdir`, `Dir.glob`,
  `File.read` and `autoload` are left out of the model:
  - the glob and the read are parameters;
  - the autoloads are returned as a list of statements, with the constant
    as a string rather than a symbol.
- Two other raises are left out:
  - the NameError that `autoload` raises for a name that is not a valid
    constant;
  - the errors of reading a file.
- `Autoload.Basename`: `File.basename` also drops trailing slashes. Glob
  results have none, and the model does not.
- `Autoload.Underscore`: `downcase` is taken on ASCII letters only, as in
  Ruby before 2.4. The character classes `[A-Z]`, `[a-z]` and `\d` are
  ASCII.

## Findings

| source | as written | input that shows it | evidently intended | confidence | as-written member | corrected member |
|---|---|---|---|---|---|---|
| lib/pry-ops/util/access_log.rb:77-79 | `query_string` matches `^[^ ]+ [^ ]+(\?[^ ]+) `. The greedy `[^ ]+` gives characters back from the right only until `\?[^ ]+` fits, so the query starts at the last `?` of the URI that is followed by at least one non-space character (on `/a?b?` it is `?b?`) | request `GET /a?b?c HTTP/1.1`: path `/a`, query string `?c`, so path plus query is not the URI | the query from the FIRST question mark, `?b?c`, so that path plus query is the URI, as `request_path`'s `[^? ]+` implies | not executed | `LogSamples.QueryStringTakesLastMark` (on `LogLine.Entry.QueryString`) | `LogLine.Entry.QueryStringFromFirstMark`, with `LogLine.PathAndQueryFromFirstMark` |

=== FILE: access_log.dfy ===
/**
 * The access log (PryOps::Util::AccessLog): a list of entries filled by
 * parsing log lines, and the totals, groupings and tables computed over it.
 */
module AccessLogs {
  import opened Wrappers
  import opened Enumerables
  import opened LogShapes
  import opened LogLine

  // ---------------------------------------------------------------------
  // parse
  // ---------------------------------------------------------------------

  /**
   * What parsing `lines` in order yields: the entries of all of them, or
   * the error of the first line that raises.
   */
  function ParseLines(lines: seq<string>, parseTime: string -> Option<Timestamp>): (r: Result<seq<Entry>, ParseError>)
    ensures r.Ok? ==> |r.value| == |lines|
  {
    if |lines| == 0 then Ok([])
    else
      match ParseLines(lines[..|lines| - 1], parseTime)
      case Err(e) => Err(e)
      case Ok(es) =>
        match ParseLine(lines[|lines| - 1], parseTime)
        case Err(e) => Err(e)
        case Ok(x) => Ok(es + [x])
  }

  /** Line `i` raises and no line before it does. */
  ghost predicate FailsFirstAt(lines: seq<string>, parseTime: string -> Option<Timestamp>, i: nat)
  {
    && i < |lines|
    && ParseLine(lines[i], parseTime).Err?
    && forall j :: 0 <= j < i ==> ParseLine(lines[j], parseTime).Ok?
  }

  /**
   * Parsing succeeds with one entry per line, in line order, or fails
   * with the error of the first line that raises.
   */
  lemma {:induction false} ParseLinesOutcome(lines: seq<string>, parseTime: string -> Option<Timestamp>)
    ensures var r := ParseLines(lines, parseTime);
      && (r.Ok? ==> forall i :: 0 <= i < |lines| ==> ParseLine(lines[i], parseTime) == Ok(r.value[i]))
      && (r.Err? ==> exists i: nat :: FailsFirstAt(lines, parseTime, i) && ParseLine(lines[i], parseTime) == Err(r.error))
  {
    if |lines| > 0 {
      ParseLinesOutcome(lines[..|lines| - 1], parseTime);
      if ParseLines(lines[..|lines| - 1], parseTime).Err? {
        ParseLinesOutcomeFailed(lines, parseTime);
      } else {
        ParseLinesOutcomeLast(lines, parseTime);
      }
    }
  }

  /** The step of ParseLinesOutcome when a line before the last raises. */
  lemma ParseLinesOutcomeFailed(lines: seq<string>, parseTime: string -> Option<Timestamp>)
    requires |lines| > 0
    requires var init := lines[..|lines| - 1];
      && ParseLines(init, parseTime).Err?
      && exists i: nat :: FailsFirstAt(init, parseTime, i) && ParseLine(init[i], parseTime) == Err(ParseLines(init, parseTime).error)
    ensures var r := ParseLines(lines, parseTime);
      && r.Err?
      && exists i: nat :: FailsFirstAt(lines, parseTime, i) && ParseLine(lines[i], parseTime) == Err(r.error)
  {
    var init := lines[..|lines| - 1];
    var i: nat :| FailsFirstAt(init, parseTime, i) && ParseLine(init[i], parseTime) == Err(ParseLines(init, parseTime).error);
    FailsFirstAtPrefix(lines, parseTime, |init|, i);
  }

  /** The step of ParseLinesOutcome when every line before the last parses. */
  lemma ParseLinesOutcomeLast(lines: seq<string>, parseTime: string -> Option<Timestamp>)
    requires |lines| > 0
    requires var init := lines[..|lines| - 1];
      && ParseLines(init, parseTime).Ok?
      && forall i :: 0 <= i < |init| ==> ParseLine(init[i], parseTime) == Ok(ParseLines(init, parseTime).value[i])
    ensures var r := ParseLines(lines, parseTime);
      && (r.Ok? ==> forall i :: 0 <= i < |lines| ==> ParseLine(lines[i], parseTime) == Ok(r.value[i]))
      && (r.Err? ==> FailsFirstAt(lines, parseTime, |lines| - 1) && ParseLine(lines[|lines| - 1], parseTime) == Err(r.error))
  {
    var init := lines[..|lines| - 1];
    var last := lines[|lines| - 1];
    var es := ParseLines(init, parseTime).value;
    match ParseLine(last, parseTime) {
      case Err(e) =>
        assert ParseLines(lines, parseTime) == Err(e);
        forall j | 0 <= j < |init| ensures ParseLine(lines[j], parseTime).Ok? {
          assert lines[j] == init[j];
        }
      case Ok(x) =>
        assert ParseLines(lines, parseTime) == Ok(es + [x]);
        forall i | 0 <= i < |lines| ensures ParseLine(lines[i], parseTime) == Ok((es + [x])[i]) {
          if i < |init| {
            assert lines[i] == init[i];
          }
        }
    }
  }

  /** The first line of a prefix that raises is the first line of the whole that raises. */
  lemma FailsFirstAtPrefix(lines: seq<string>, parseTime: string -> Option<Timestamp>, n: nat, i: nat)
    requires n <= |lines|
    requires FailsFirstAt(lines[..n], parseTime, i)
    ensures FailsFirstAt(lines, parseTime, i)
    ensures lines[i] == lines[..n][i]
  {
    assert forall j :: 0 <= j <= i ==> lines[..n][j] == lines[j];
  }

  /** Once a prefix of the lines fails, parsing all of them fails the same way. */
  lemma {:induction false} ParseLinesKeepsError(lines: seq<string>, parseTime: string -> Option<Timestamp>, n: nat)
    requires n <= |lines|
    requires ParseLines(lines[..n], parseTime).Err?
    ensures ParseLines(lines, parseTime) == ParseLines(lines[..n], parseTime)
    decreases |lines|
  {
    if n < |lines| {
      var init := lines[..|lines| - 1];
      assert init[..n] == lines[..n];
      ParseLinesKeepsError(init, parseTime, n);
    } else {
      assert lines[..n] == lines;
    }
  }

  // ---------------------------------------------------------------------
  // totals
  // ---------------------------------------------------------------------

  /** Entry#bytes, with 0 standing in for a missing bytes-received count. */
  function BytesOrZero(e: Entry): int
  {
    (if e.bytesReceived.Some? then e.bytesReceived.value else 0) + e.bytesSent
  }

  /** The bytes-received count, 0 when it is nil. */
  function ReceivedOrZero(e: Entry): int
  {
    if e.bytesReceived.Some? then e.bytesReceived.value else 0
  }

  function Sent(e: Entry): int
  {
    e.bytesSent
  }

  /** Some entry has no bytes-received count, so its Entry#bytes raises. */
  ghost predicate SomeBytesRaise(es: seq<Entry>)
  {
    exists i :: 0 <= i < |es| && es[i].bytesReceived.None?
  }

  /** `es.map { |e| e.bytes }`: None when one entry's bytes raise. */
  function EachBytes(es: seq<Entry>): (r: Option<seq<Option<int>>>)
    ensures r.None? <==> SomeBytesRaise(es)
    ensures r.Some? ==> |r.value| == |es| && AllPresent(r.value) && SumPresent(r.value) == SumOf(es, BytesOrZero)
  {
    if |es| == 0 then Some([])
    else
      assert forall i :: 0 < i < |es| ==> es[1..][i - 1] == es[i];
      match es[0].Bytes()
      case None => None
      case Some(b) =>
        match EachBytes(es[1..])
        case None => None
        case Some(bs) => Some([Some(b)] + bs)
  }

  /**
   * `es.map { |e| e.bytes }.reduce(:+)`: nil for no entries, a raised
   * error when an entry has no bytes-received count, the sum otherwise.
   */
  function TotalBytes(es: seq<Entry>): (r: Reduced)
    ensures r.Nil? <==> |es| == 0
    ensures r.Raises? <==> SomeBytesRaise(es)
    ensures r.Total? ==> r.n == SumOf(es, BytesOrZero)
  {
    match EachBytes(es)
    case None => Raises
    case Some(bs) =>
      ReducePlusClosedForm(bs);
      ReducePlus(bs)
  }

  /** `es.map { |e| e.bytes_received }`. */
  function EachReceived(es: seq<Entry>): (r: seq<Option<int>>)
    ensures |r| == |es|
    ensures forall i :: 0 <= i < |es| ==> r[i] == es[i].bytesReceived
    ensures SumPresent(r) == SumOf(es, ReceivedOrZero)
  {
    if |es| == 0 then [] else [es[0].bytesReceived] + EachReceived(es[1..])
  }

  /** `es.map { |e| e.bytes_sent }`. */
  function EachSent(es: seq<Entry>): (r: seq<Option<int>>)
    ensures |r| == |es| && AllPresent(r)
    ensures SumPresent(r) == SumOf(es, Sent)
  {
    if |es| == 0 then [] else [Some(es[0].bytesSent)] + EachSent(es[1..])
  }

  // ---------------------------------------------------------------------
  // per-group rows
  // ---------------------------------------------------------------------

  function HourOf(e: Entry): Hour
  {
    e.timestamp.hour
  }

  function DayOf(e: Entry): string
  {
    e.timestamp.day
  }

  function Size(es: seq<Entry>): int
  {
    |es|
  }

  /** The bytes of a group, summed. */
  function SumBytes(es: seq<Entry>): int
  {
    SumOf(es, BytesOrZero)
  }

  function Value<K>(row: (K, int)): int
  {
    row.1
  }

  /** `g.map { |key, ents| [key, ents.size] }`. */
  function CountRows<K>(g: seq<(K, seq<Entry>)>): (r: seq<(K, int)>)
    ensures |r| == |g|
    ensures forall j :: 0 <= j < |g| ==> r[j] == (g[j].0, Size(g[j].1))
    ensures SumOf(r, Value) == SumSizes(g)
  {
    if |g| == 0 then [] else [(g[0].0, |g[0].1|)] + CountRows(g[1..])
  }

  /**
   * `g.map { |key, ents| [key, ents.map { |e| e.bytes }.reduce(:+)] }`;
   * None when an entry's bytes raise. Groups from group_by are never empty,
   * so the reduce never yields nil.
   */
  function ByteRows<K>(g: seq<(K, seq<Entry>)>): (r: Option<seq<(K, int)>>)
    requires forall j :: 0 <= j < |g| ==> g[j].1 != []
    ensures r.None? <==> exists j :: 0 <= j < |g| && SomeBytesRaise(g[j].1)
    ensures r.Some? ==> |r.value| == |g|
    ensures r.Some? ==> forall j :: 0 <= j < |g| ==> r.value[j] == (g[j].0, SumBytes(g[j].1))
    ensures r.Some? ==> SumOf(r.value, Value) == GroupSum(g, BytesOrZero)
  {
    if |g| == 0 then Some([])
    else
      assert forall j :: 0 < j < |g| ==> g[1..][j - 1] == g[j];
      match TotalBytes(g[0].1)
      case Total(n) =>
        (match ByteRows(g[1..])
         case None => None
         case Some(rows) => Some([(g[0].0, n)] + rows))
      case _ => None
  }

  /** An entry without a bytes-received count lands in some group. */
  lemma RaiseInGroup<K>(g: seq<(K, seq<Entry>)>, xs: seq<Entry>, key: Entry -> K, i: nat)
    requires i < |xs| && xs[i].bytesReceived.None?
    requires key(xs[i]) in Keys(g)
    requires forall j :: 0 <= j < |g| ==> g[j].1 == Select(xs, HasKey(key, g[j].0))
    ensures exists j :: 0 <= j < |g| && SomeBytesRaise(g[j].1)
  {
    var j :| 0 <= j < |Keys(g)| && Keys(g)[j] == key(xs[i]);
    SelectRejectMembership(xs, HasKey(key, g[j].0), xs[i]);
    var m :| 0 <= m < |g[j].1| && g[j].1[m] == xs[i];
    assert SomeBytesRaise(g[j].1);
  }

  /** A group's entry without a bytes-received count is an entry of the log. */
  lemma RaiseFromGroup<K>(g: seq<(K, seq<Entry>)>, xs: seq<Entry>, key: Entry -> K, j: nat)
    requires j < |g| && SomeBytesRaise(g[j].1)
    requires g[j].1 == Select(xs, HasKey(key, g[j].0))
    ensures SomeBytesRaise(xs)
  {
    var m :| 0 <= m < |g[j].1| && g[j].1[m].bytesReceived.None?;
    SelectRejectPartition(xs, HasKey(key, g[j].0));
    assert g[j].1[m] in multiset(xs);
    var i :| 0 <= i < |xs| && xs[i] == g[j].1[m];
  }

  /** Some entry's bytes raise exactly when they raise within some group. */
  lemma GroupsCover<K>(g: seq<(K, seq<Entry>)>, xs: seq<Entry>, key: Entry -> K)
    requires GroupsOf(g, xs, key)
    ensures SomeBytesRaise(xs) <==> exists j :: 0 <= j < |g| && SomeBytesRaise(g[j].1)
  {
    if SomeBytesRaise(xs) {
      var i :| 0 <= i < |xs| && xs[i].bytesReceived.None?;
      RaiseInGroup(g, xs, key, i);
    }
    if exists j :: 0 <= j < |g| && SomeBytesRaise(g[j].1) {
      var j :| 0 <= j < |g| && SomeBytesRaise(g[j].1);
      RaiseFromGroup(g, xs, key, j);
    }
  }

  // ---------------------------------------------------------------------
  // tables sorted by key
  // ---------------------------------------------------------------------

  /**
   * `t` is a table of `xs` grouped by `key`: keys strictly ascending under
   * `cmp` (so no key repeats), every entry's key present, and each row
   * holding `value` of the non-empty group of entries with its key.
   */
  ghost predicate KeyTable<K>(t: seq<(K, int)>, xs: seq<Entry>, key: Entry -> K, cmp: (K, K) -> int, value: seq<Entry> -> int)
  {
    && (forall i, j :: 0 <= i < j < |t| ==> cmp(t[i].0, t[j].0) < 0)
    && (forall i :: 0 <= i < |xs| ==> key(xs[i]) in Keys(t))
    && (forall i :: 0 <= i < |t| ==>
          && Select(xs, HasKey(key, t[i].0)) != []
          && t[i].1 == value(Select(xs, HasKey(key, t[i].0))))
  }

  /** Sorting one row per group by key with `<=>` yields a table of the grouping. */
  lemma SortedTable<K(!new)>(rows: seq<(K, int)>, g: seq<(K, seq<Entry>)>, xs: seq<Entry>, key: Entry -> K,
                             cmp: (K, K) -> int, value: seq<Entry> -> int)
    requires Comparator(cmp)
    requires GroupsOf(g, xs, key)
    requires |rows| == |g|
    requires forall j :: 0 <= j < |g| ==> rows[j] == (g[j].0, value(g[j].1))
    ensures KeyTable(SortBy(rows, KeyLe(cmp)), xs, key, cmp, value)
    ensures SumOf(SortBy(rows, KeyLe(cmp)), Value) == SumOf(rows, Value)
  {
    var le := KeyLe<K, int>(cmp);
    var t := SortBy(rows, le);
    KeyLeTotal<K, int>(cmp);
    SortBySorted(rows, le);
    SortByPermutes(rows, le);
    SortBySum(rows, le, Value);
    RowKeysDistinct(rows, g);
    PermutationKeepsDistinct(rows, t, PairKey);
    AscendingKeys(t, cmp);
    RowsCover(rows, t, g, xs, key);
    RowValues(rows, t, g, xs, key, value);
  }

  /** One row per group of a grouping: the row keys are distinct. */
  lemma RowKeysDistinct<K>(rows: seq<(K, int)>, g: seq<(K, seq<Entry>)>)
    requires DistinctKeys(g)
    requires |rows| == |g|
    requires forall j :: 0 <= j < |g| ==> rows[j].0 == g[j].0
    ensures DistinctBy(rows, PairKey)
  {
  }

  /** Rows ordered by key with distinct keys have strictly ascending keys. */
  lemma AscendingKeys<K(!new)>(t: seq<(K, int)>, cmp: (K, K) -> int)
    requires Comparator(cmp)
    requires SortedBy(t, KeyLe(cmp))
    requires DistinctBy(t, PairKey)
    ensures forall i, j :: 0 <= i < j < |t| ==> cmp(t[i].0, t[j].0) < 0
  {
    forall i, j | 0 <= i < j < |t|
      ensures cmp(t[i].0, t[j].0) < 0
    {
      assert KeyLe(cmp)(t[i], t[j]);
      assert PairKey(t[i]) != PairKey(t[j]);
    }
  }

  /** Reordered rows, one per group, still name every entry's key. */
  lemma RowsCover<K>(rows: seq<(K, int)>, t: seq<(K, int)>, g: seq<(K, seq<Entry>)>, xs: seq<Entry>, key: Entry -> K)
    requires forall i :: 0 <= i < |xs| ==> key(xs[i]) in Keys(g)
    requires |rows| == |g|
    requires forall j :: 0 <= j < |g| ==> rows[j].0 == g[j].0
    requires multiset(rows) == multiset(t)
    ensures forall i :: 0 <= i < |xs| ==> key(xs[i]) in Keys(t)
  {
    forall i | 0 <= i < |xs|
      ensures key(xs[i]) in Keys(t)
    {
      var j :| 0 <= j < |Keys(g)| && Keys(g)[j] == key(xs[i]);
      assert rows[j] in multiset(t);
      var m :| 0 <= m < |t| && t[m] == rows[j];
      assert Keys(t)[m] == t[m].0;
    }
  }

  /** Every reordered row holds the value of its key's group. */
  lemma RowValues<K>(rows: seq<(K, int)>, t: seq<(K, int)>, g: seq<(K, seq<Entry>)>, xs: seq<Entry>, key: Entry -> K,
                     value: seq<Entry> -> int)
    requires forall j :: 0 <= j < |g| ==> g[j].1 == Select(xs, HasKey(key, g[j].0)) && g[j].1 != []
    requires |rows| == |g|
    requires forall j :: 0 <= j < |g| ==> rows[j] == (g[j].0, value(g[j].1))
    requires multiset(rows) == multiset(t)
    ensures forall i :: 0 <= i < |t| ==>
      && Select(xs, HasKey(key, t[i].0)) != []
      && t[i].1 == value(Select(xs, HasKey(key, t[i].0)))
  {
    forall i | 0 <= i < |t|
      ensures Select(xs, HasKey(key, t[i].0)) != []
      ensures t[i].1 == value(Select(xs, HasKey(key, t[i].0)))
    {
      assert t[i] in multiset(rows);
      var j :| 0 <= j < |rows| && rows[j] == t[i];
    }
  }

  /** Integer#<=> on hours. */
  function HourCompare(a: Hour, b: Hour): int
  {
    IntCompare(a, b)
  }

  /** Integer#<=> orders hours totally. */
  lemma HourCompareOrders()
    ensures Comparator(HourCompare)
  {
  }

  // ---------------------------------------------------------------------
  // top
  // ---------------------------------------------------------------------

  /** A row `[bytes, count, attribute]` of the top table. */
  datatype TopRow<K> = TopRow(bytes: int, count: int, key: K)

  /** What `top` raises. */
  datatype TopError =
    | NilBytes       // Entry#bytes adding to a nil bytes-received count
    | NegativeLimit  // Array#first with a negative count

  function TopKey<K>(row: TopRow<K>): K
  {
    row.key
  }

  /** The block `{ |a, b| b[0] <=> a[0] }`: the row with more bytes first. */
  function MoreBytes<K>(a: TopRow<K>, b: TopRow<K>): bool
  {
    IntCompare(b.bytes, a.bytes) <= 0
  }

  /** `g.map { |attr, ents| [ents.map { |e| e.bytes }.reduce(:+), ents.count, attr] }`. */
  function TopRows<K>(g: seq<(K, seq<Entry>)>): (r: Option<seq<TopRow<K>>>)
    requires forall j :: 0 <= j < |g| ==> g[j].1 != []
    ensures r.None? <==> exists j :: 0 <= j < |g| && SomeBytesRaise(g[j].1)
    ensures r.Some? ==> |r.value| == |g|
    ensures r.Some? ==> forall j :: 0 <= j < |g| ==> r.value[j] == TopRow(SumBytes(g[j].1), |g[j].1|, g[j].0)
  {
    match ByteRows(g)
    case None => None
    case Some(rows) => Some(seq(|g|, j requires 0 <= j < |g| => TopRow(rows[j].1, |g[j].1|, g[j].0)))
  }

  /** `t` lists some of the groups of `xs` by `key`, each row the bytes and size of its group, keys distinct. */
  ghost predicate TopTable<K>(t: seq<TopRow<K>>, xs: seq<Entry>, key: Entry -> K)
  {
    && (forall i, j :: 0 <= i < j < |t| ==> t[i].bytes >= t[j].bytes)
    && (forall i, j :: 0 <= i < j < |t| ==> t[i].key != t[j].key)
    && (forall i :: 0 <= i < |t| ==>
          && Select(xs, HasKey(key, t[i].key)) != []
          && t[i].count == |Select(xs, HasKey(key, t[i].key))|
          && t[i].bytes == SumBytes(Select(xs, HasKey(key, t[i].key))))
  }

  /** No group left out of `t` has more bytes than a row of `t`. */
  ghost predicate KeepsLargest<K>(t: seq<TopRow<K>>, xs: seq<Entry>, key: Entry -> K)
  {
    forall i, x :: 0 <= i < |t| && 0 <= x < |xs| && key(xs[x]) !in TopKeys(t) ==>
      SumBytes(Select(xs, HasKey(key, key(xs[x])))) <= t[i].bytes
  }

  function TopKeys<K>(t: seq<TopRow<K>>): (ks: seq<K>)
    ensures |ks| == |t|
    ensures forall i :: 0 <= i < |t| ==> ks[i] == t[i].key
  {
    if |t| == 0 then [] else [t[0].key] + TopKeys(t[1..])
  }

  /** One row per group of a grouping: the row keys are distinct. */
  lemma TopRowKeysDistinct<K>(rows: seq<TopRow<K>>, g: seq<(K, seq<Entry>)>)
    requires DistinctKeys(g)
    requires |rows| == |g|
    requires forall j :: 0 <= j < |g| ==> rows[j].key == g[j].0
    ensures DistinctBy(rows, TopKey)
  {
  }

  /** The group rows sorted by bytes, largest first, form a top table covering every key. */
  lemma SortedTopRows<K(!new)>(rows: seq<TopRow<K>>, g: seq<(K, seq<Entry>)>, xs: seq<Entry>, key: Entry -> K)
    requires GroupsOf(g, xs, key)
    requires |rows| == |g|
    requires forall j :: 0 <= j < |g| ==> rows[j] == TopRow(SumBytes(g[j].1), |g[j].1|, g[j].0)
    ensures TopTable(SortBy(rows, MoreBytes), xs, key)
    ensures forall i :: 0 <= i < |xs| ==> key(xs[i]) in TopKeys(SortBy(rows, MoreBytes))
  {
    var t := SortBy(rows, MoreBytes);
    SortBySorted(rows, MoreBytes);
    SortByPermutes(rows, MoreBytes);
    TopRowKeysDistinct(rows, g);
    PermutationKeepsDistinct(rows, t, TopKey);
    TopRowsCover(rows, t, g, xs, key);
  }

  /** Reordered rows, one per group, still name every entry's key. */
  lemma TopRowsCover<K>(rows: seq<TopRow<K>>, t: seq<TopRow<K>>, g: seq<(K, seq<Entry>)>, xs: seq<Entry>, key: Entry -> K)
    requires forall i :: 0 <= i < |xs| ==> key(xs[i]) in Keys(g)
    requires |rows| == |g|
    requires forall j :: 0 <= j < |g| ==> rows[j].key == g[j].0
    requires multiset(rows) == multiset(t)
    ensures forall i :: 0 <= i < |xs| ==> key(xs[i]) in TopKeys(t)
  {
    forall i | 0 <= i < |xs|
      ensures key(xs[i]) in TopKeys(t)
    {
      var j :| 0 <= j < |Keys(g)| && Keys(g)[j] == key(xs[i]);
      assert rows[j] in multiset(t);
      var m :| 0 <= m < |t| && t[m] == rows[j];
      assert TopKeys(t)[m] == t[m].key;
    }
  }

  /** The keys of the first `n` rows are the first `n` keys. */
  lemma TopKeysPrefix<K>(t: seq<TopRow<K>>, n: nat)
    requires n <= |t|
    ensures TopKeys(t[..n]) == TopKeys(t)[..n]
  {
  }

  /** The first `n` rows of a top table form a top table. */
  lemma FirstRowsTable<K>(t: seq<TopRow<K>>, n: nat, xs: seq<Entry>, key: Entry -> K)
    requires n <= |t|
    requires TopTable(t, xs, key)
    ensures TopTable(t[..n], xs, key)
  {
    assert forall i :: 0 <= i < n ==> t[..n][i] == t[i];
  }

  /** Taking the first `n` rows of a table sorted by bytes that covers every key keeps the largest groups. */
  lemma FirstRowsKeepLargest<K>(t: seq<TopRow<K>>, n: nat, xs: seq<Entry>, key: Entry -> K)
    requires n <= |t|
    requires forall i, j :: 0 <= i < j < |t| ==> t[i].bytes >= t[j].bytes
    requires forall i :: 0 <= i < |t| ==> t[i].bytes == SumBytes(Select(xs, HasKey(key, t[i].key)))
    requires forall i :: 0 <= i < |xs| ==> key(xs[i]) in TopKeys(t)
    ensures KeepsLargest(t[..n], xs, key)
  {
    TopKeysPrefix(t, n);
    forall i, x | 0 <= i < n && 0 <= x < |xs| && key(xs[x]) !in TopKeys(t[..n])
      ensures SumBytes(Select(xs, HasKey(key, key(xs[x])))) <= t[..n][i].bytes
    {
      var m :| 0 <= m < |TopKeys(t)| && TopKeys(t)[m] == key(xs[x]);
      assert n <= m;
      assert t[m].bytes <= t[i].bytes;
    }
  }

  /**
   * The first `n` of the group rows sorted by bytes form a top table that
   * keeps the largest groups, and all of them name every entry's key.
   */
  lemma TopFirstRows<K(!new)>(rows: seq<TopRow<K>>, g: seq<(K, seq<Entry>)>, xs: seq<Entry>, key: Entry -> K, n: nat)
    requires GroupsOf(g, xs, key)
    requires |rows| == |g| && n <= |g|
    requires forall j :: 0 <= j < |g| ==> rows[j] == TopRow(SumBytes(g[j].1), |g[j].1|, g[j].0)
    ensures var t := SortBy(rows, MoreBytes)[..n];
      && TopTable(t, xs, key)
      && KeepsLargest(t, xs, key)
      && (n == |g| ==> forall i :: 0 <= i < |xs| ==> key(xs[i]) in TopKeys(t))
  {
    var sorted := SortBy(rows, MoreBytes);
    SortedTopRows(rows, g, xs, key);
    FirstRowsTable(sorted, n, xs, key);
    FirstRowsKeepLargest(sorted, n, xs, key);
    assert sorted[..|sorted|] == sorted;
  }

  // ---------------------------------------------------------------------
  // the log
  // ---------------------------------------------------------------------

  /** An access log: the entries parsed so far, in line order. */
  class AccessLog {
    var entries: seq<Entry>

    /** `AccessLog.new(entries)`: a log over the given entries. */
    constructor (es: seq<Entry>)
      ensures entries == es
    {
      entries := es;
    }

    /**
     * `AccessLog.new(input)` with text: an empty log that then parses the
     * lines, so a line that raises leaves no log at all.
     */
    static method FromLines(lines: seq<string>, parseTime: string -> Option<Timestamp>)
      returns (r: Result<AccessLog, ParseError>)
      ensures r.Ok? <==> ParseLines(lines, parseTime).Ok?
      ensures r.Ok? ==> fresh(r.value) && r.value.entries == ParseLines(lines, parseTime).value
      ensures r.Err? ==> r.error == ParseLines(lines, parseTime).error
    {
      var log := new AccessLog([]);
      var parsed := log.Parse(lines, parseTime);
      if parsed.Err? {
        return Err(parsed.error);
      }
      return Ok(log);
    }

    /**
     * `parse`: reads the lines in order, stopping at the first that raises.
     * On success the new entries are appended and returned; on a raise the
     * log is unchanged.
     */
    method Parse(lines: seq<string>, parseTime: string -> Option<Timestamp>) returns (r: Result<seq<Entry>, ParseError>)
      modifies this
      ensures r == ParseLines(lines, parseTime)
      ensures r.Ok? ==> entries == old(entries) + r.value
      ensures r.Err? ==> entries == old(entries)
    {
      var parsed: seq<Entry> := [];
      var i := 0;
      while i < |lines|
        invariant 0 <= i <= |lines|
        invariant ParseLines(lines[..i], parseTime) == Ok(parsed)
      {
        assert lines[..i + 1][..i] == lines[..i];
        match ParseLine(lines[i], parseTime)
        case Err(e) =>
          ParseLinesKeepsError(lines, parseTime, i + 1);
          return Err(e);
        case Ok(entry) =>
          parsed := parsed + [entry];
        i := i + 1;
      }
      assert lines[..i] == lines;
      entries := entries + parsed;
      return Ok(parsed);
    }

    /**
     * `bytes`: nil for an empty log, a raised error when an entry has no
     * bytes-received count, and otherwise the sum of every entry's bytes.
     */
    function Bytes(): (r: Reduced)
      reads this
      ensures r.Nil? <==> |entries| == 0
      ensures r.Raises? <==> SomeBytesRaise(entries)
      ensures r.Total? ==> r.n == SumOf(entries, BytesOrZero)
    {
      TotalBytes(entries)
    }

    /**
     * `bytes_received`: nil for an empty log or a lone entry without the
     * count, the sum when every entry has it, and a raised error when a nil
     * count meets `+`.
     */
    function BytesReceived(): (r: Reduced)
      reads this
      ensures r.Nil? <==> |entries| == 0 || (|entries| == 1 && entries[0].bytesReceived.None?)
      ensures r.Total? <==> |entries| > 0 && !SomeBytesRaise(entries)
      ensures r.Total? ==> r.n == SumOf(entries, ReceivedOrZero)
    {
      var each := EachReceived(entries);
      ReducePlusClosedForm(each);
      assert AllPresent(each) <==> !SomeBytesRaise(entries);
      ReducePlus(each)
    }

    /** `bytes_sent`: nil for an empty log, otherwise the sum of bytes sent. */
    function BytesSent(): (r: Reduced)
      reads this
      ensures r.Nil? <==> |entries| == 0
      ensures !r.Raises?
      ensures r.Total? ==> r.n == SumOf(entries, Sent)
    {
      var each := EachSent(entries);
      ReducePlusClosedForm(each);
      ReducePlus(each)
    }

    /** `group_by_hour`: the entries grouped by the hour of their timestamp. */
    function GroupByHour(): (g: seq<(Hour, seq<Entry>)>)
      reads this
      ensures GroupsOf(g, entries, HourOf)
    {
      GroupByIsGrouping(entries, HourOf);
      GroupBy(entries, HourOf)
    }

    /** `group_by_day`: the entries grouped by the day of their timestamp. */
    function GroupByDay(): (g: seq<(string, seq<Entry>)>)
      reads this
      ensures GroupsOf(g, entries, DayOf)
    {
      GroupByIsGrouping(entries, DayOf);
      GroupBy(entries, DayOf)
    }

    /**
     * `bytes_per_hour`: `[hour, bytes]` rows in ascending hour order, one per
     * hour that occurs, adding up to the total bytes; raises (None) when an
     * entry has no bytes-received count.
     */
    function BytesPerHour(): (r: Option<seq<(Hour, int)>>)
      reads this
      ensures r.None? <==> SomeBytesRaise(entries)
      ensures r.Some? ==> KeyTable(r.value, entries, HourOf, HourCompare, SumBytes)
      ensures r.Some? ==> SumOf(r.value, Value) == SumOf(entries, BytesOrZero)
    {
      var g := GroupByHour();
      GroupsCover(g, entries, HourOf);
      HourCompareOrders();
      match ByteRows(g)
      case None => None
      case Some(rows) =>
        SortedTable(rows, g, entries, HourOf, HourCompare, SumBytes);
        GroupBySum(entries, HourOf, BytesOrZero);
        Some(SortBy(rows, KeyLe(HourCompare)))
    }

    /**
     * `requests_per_hour`: `[hour, count]` rows in ascending hour order, one
     * per hour that occurs, counting every entry once.
     */
    function RequestsPerHour(): (r: seq<(Hour, int)>)
      reads this
      ensures KeyTable(r, entries, HourOf, HourCompare, Size)
      ensures SumOf(r, Value) == |entries|
    {
      var rows := CountRows(GroupByHour());
      HourCompareOrders();
      SortedTable(rows, GroupByHour(), entries, HourOf, HourCompare, Size);
      SortBy(rows, KeyLe(HourCompare))
    }

    /**
     * `requests_per_day`: `[day, count]` rows in ascending string order of
     * the day, one per day that occurs, counting every entry once.
     */
    function RequestsPerDay(): (r: seq<(string, int)>)
      reads this
      ensures KeyTable(r, entries, DayOf, StringCompare, Size)
      ensures SumOf(r, Value) == |entries|
    {
      var rows := CountRows(GroupByDay());
      StringCompareOrders();
      SortedTable(rows, GroupByDay(), entries, DayOf, StringCompare, Size);
      SortBy(rows, KeyLe(StringCompare))
    }

    /**
     * `top(attribute, limit)`: the groups by `key` as `[bytes, count, key]`
     * rows, largest first, cut to `limit` rows. Raises when an entry has no
     * bytes-received count or when the limit is negative.
     */
    function Top<K(==,!new)>(key: Entry -> K, limit: int): (r: Result<seq<TopRow<K>>, TopError>)
      reads this
      ensures r == Err(NilBytes) <==> SomeBytesRaise(entries)
      ensures r == Err(NegativeLimit) <==> !SomeBytesRaise(entries) && limit < 0
      ensures r.Ok? ==> |r.value| <= limit
      ensures r.Ok? ==> TopTable(r.value, entries, key) && KeepsLargest(r.value, entries, key)
      ensures r.Ok? && |r.value| < limit ==> forall i :: 0 <= i < |entries| ==> key(entries[i]) in TopKeys(r.value)
    {
      var g := GroupBy(entries, key);
      GroupByIsGrouping(entries, key);
      GroupsCover(g, entries, key);
      match TopRows(g)
      case None => Err(NilBytes)
      case Some(rows) =>
        var sorted := SortBy(rows, MoreBytes);
        if limit < 0 then Err(NegativeLimit)
        else
          var n := if limit < |sorted| then limit else |sorted|;
          TopFirstRows(rows, g, entries, key, n);
          Ok(sorted[..n])
    }
  }
}

=== FILE: autoload.dfy ===
/**
 * The string logic of `autoload_all_files_relative_to`: finding the lib
 * directory in the base file's path, reading the constant names a file
 * declares, turning a CamelCase name into a file name, and choosing the
 * first declared name that matches the file.
 */
module Autoload {
  import opened Wrappers
  import opened RubyStrings

  datatype AutoloadError =
    | NoLibDir(path: string)   // "can't find lib directory in <path>"
    | NoMethodError            // a nil candidate name reached `gsub`

  // ---------------------------------------------------------------------
  // The lib directory: /^(.+\/lib)\/(.+).rb$/
  // ---------------------------------------------------------------------

  /**
   * `line[..e]` can be the first group and `line[e + 1..|line| - 3]` the
   * second: the first group is at least one character followed by `/lib`,
   * a slash follows it, the second group is not empty, and the line ends
   * with any one character followed by `rb` (the dot is not escaped).
   */
  ghost predicate LibSplitAt(line: string, e: int)
  {
    && 5 <= e && e + 5 <= |line|
    && line[e - 4..e] == "/lib" && line[e] == '/'
    && line[|line| - 2..] == "rb"
  }

  /** The greedy first group: the largest end at or below `e` that lets the rest match. */
  function LibEndFrom(line: string, e: int): (r: Option<nat>)
    decreases e
    ensures r.Some? ==> r.value <= e && LibSplitAt(line, r.value)
    ensures forall e' :: (if r.Some? then r.value < e' else true) && e' <= e ==> !LibSplitAt(line, e')
  {
    if e < 5 then None
    else if e + 5 <= |line| && line[e - 4..e] == "/lib" && line[e] == '/' && line[|line| - 2..] == "rb" then Some(e)
    else LibEndFrom(line, e - 1)
  }

  /** The two groups when the pattern matches within one line. */
  function MatchLibLine(line: string): (r: Option<(string, string)>)
  {
    match LibEndFrom(line, |line| - 5)
    case None => None
    case Some(e) => Some((line[..e], line[e + 1..|line| - 3]))
  }

  /** The first line of `lines` on which the pattern matches. */
  function FirstLibLine(lines: seq<string>): (r: Option<(nat, (string, string))>)
    ensures r.Some? ==> r.value.0 < |lines| && MatchLibLine(lines[r.value.0]) == Some(r.value.1)
    ensures forall i :: 0 <= i < |lines| && (r.None? || i < r.value.0) ==> MatchLibLine(lines[i]).None?
  {
    if |lines| == 0 then None
    else if MatchLibLine(lines[0]).Some? then Some((0, MatchLibLine(lines[0]).value))
    else
      match FirstLibLine(lines[1..])
      case None => None
      case Some((i, groups)) => Some((i + 1, groups))
  }

  /**
   * `libdir` and `relative_path` for the base file: `^` and `$` match at
   * line boundaries and `.` stops at a newline, so the pattern matches
   * within the first line where it can.
   */
  function LibPath(base: string): (r: Result<(string, string), AutoloadError>)
    ensures r.Err? ==> r.error == NoLibDir(base)
    ensures r.Err? ==> forall i :: 0 <= i < |Split(base, "\n")| ==> MatchLibLine(Split(base, "\n")[i]).None?
    ensures r.Ok? ==> exists i :: 0 <= i < |Split(base, "\n")| && MatchLibLine(Split(base, "\n")[i]) == Some(r.value)
  {
    var lines := Split(base, "\n");
    var first := FirstLibLine(lines);
    if first.None? then Err(NoLibDir(base))
    else
      Ok(first.value.1)
  }

  /**
   * A match splits its line into the lib directory (ending in `/lib`), a
   * slash, the relative path, one character and `rb`; and the lib
   * directory is the longest for which this works.
   */
  lemma LibLineParts(line: string)
    requires MatchLibLine(line).Some?
    ensures var (libdir, rel) := MatchLibLine(line).value;
      && |libdir| >= 5 && libdir[|libdir| - 4..] == "/lib" && |rel| >= 1
      && line == libdir + "/" + rel + [line[|line| - 3]] + "rb"
      && forall e :: |libdir| < e ==> !LibSplitAt(line, e)
  {
    var e := LibEndFrom(line, |line| - 5).value;
    var libdir, rel := line[..e], line[e + 1..|line| - 3];
    assert libdir[|libdir| - 4..] == line[e - 4..e];
    assert line == line[..e] + [line[e]] + line[e + 1..|line| - 3] + [line[|line| - 3]] + line[|line| - 2..];
    forall e' | e < e'
      ensures !LibSplitAt(line, e')
    {
      if e' > |line| - 5 {
        assert !(e' + 5 <= |line|);
      }
    }
  }

  /** `/lib/` occurs in `s` at `k`. */
  ghost predicate LibSegmentAt(s: string, k: int)
  {
    0 <= k && k + 5 <= |s| && s[k..k + 5] == "/lib/"
  }

  /** No end past the `/lib` closing `p` can start the second group. */
  lemma NoLaterLibSplit(line: string, p: string, q: string, c: char)
    requires line == p + q + [c] + "rb"
    requires |p| >= 5 && p[|p| - 3..] == "lib"
    requires forall k :: !LibSegmentAt(q, k)
    ensures forall e' :: |p| < e' ==> !LibSplitAt(line, e')
  {
    var e := |p|;
    assert line[e - 3..e] == "lib";
    assert line[e..e + |q|] == q;
    forall e' | e < e' <= |line| - 5
      ensures !LibSplitAt(line, e')
    {
      if e' - 4 < e {
        assert line[e' - 4] == line[e - 3..e][e' - 4 - (e - 3)];
        assert line[e' - 4..e'][0] == line[e' - 4];
      } else {
        var k := e' - 4 - e;
        assert line[e' - 4..e' + 1] == q[k..k + 5];
        assert !LibSegmentAt(q, k);
        assert line[e' - 4..e' + 1] == line[e' - 4..e'] + [line[e']];
      }
    }
  }

  /** A string without a newline is one line. */
  lemma OneLine(line: string)
    requires '\n' !in line
    ensures Split(line, "\n") == [line]
  {
    CharNotFound(line, '\n', 0);
  }

  /** The match at the largest end that works. */
  lemma MatchLibLineAt(line: string, e: nat)
    requires LibSplitAt(line, e)
    requires forall e' :: e < e' ==> !LibSplitAt(line, e')
    ensures MatchLibLine(line) == Some((line[..e], line[e + 1..|line| - 3]))
  {
    LibEndExact(line, |line| - 5, e);
  }

  /** On its own line, `<dir>/lib/<rel>`, one character and `rb` gives `<dir>/lib` and `<rel>`. */
  lemma MatchLibLineOf(dir: string, rel: string, c: char)
    requires |dir| >= 1 && |rel| >= 1
    requires forall k :: !LibSegmentAt("/" + rel, k)
    ensures MatchLibLine(dir + "/lib/" + rel + [c] + "rb") == Some((dir + "/lib", rel))
  {
    var p, q := dir + "/lib", "/" + rel;
    var line := dir + "/lib/" + rel + [c] + "rb";
    var e := |p|;
    assert line == p + q + [c] + "rb";
    assert p[e - 3..] == "lib";
    NoLaterLibSplit(line, p, q, c);
    assert LibSplitAt(line, e) by {
      assert line[e - 4..e] == "/lib" && line[e] == '/';
      assert line[|line| - 2..] == "rb";
    }
    MatchLibLineAt(line, e);
    assert line[..e] == p && line[e + 1..|line| - 3] == rel;
  }

  /**
   * The path `<dir>/lib/<rel>` followed by one character and `rb`, on one
   * line, splits into `<dir>/lib` and `<rel>` when `/<rel>` holds no `/lib/`.
   */
  lemma LibPathOfFile(dir: string, rel: string, c: char)
    requires |dir| >= 1 && |rel| >= 1 && c != '\n'
    requires '\n' !in dir && '\n' !in rel
    requires forall k :: !LibSegmentAt("/" + rel, k)
    ensures LibPath(dir + "/lib/" + rel + [c] + "rb") == Ok((dir + "/lib", rel))
  {
    var line := dir + "/lib/" + rel + [c] + "rb";
    MatchLibLineOf(dir, rel, c);
    assert '\n' !in line;
    OneLine(line);
  }

  /** The greedy search stops at the largest end that works. */
  lemma {:induction false} LibEndExact(line: string, from: int, e: int)
    requires e <= from && LibSplitAt(line, e)
    requires forall e' :: e < e' <= from ==> !LibSplitAt(line, e')
    ensures LibEndFrom(line, from) == Some(e)
    decreases from
  {
    if from > e {
      LibEndExact(line, from - 1, e);
    }
  }

  /** The dot before `rb` is not escaped: a name ending in `Xrb` is taken for a `.rb` file. */
  lemma AnyCharBeforeRb()
    ensures LibPath("/x/lib/fooXrb") == Ok(("/x/lib", "foo"))
  {
    assert "/x/lib/fooXrb" == "/x" + "/lib/" + "foo" + ['X'] + "rb";
    assert "/x/lib" == "/x" + "/lib";
    LibPathOfFile("/x", "foo", 'X');
  }

  // ---------------------------------------------------------------------
  // Declared names: File.read(file).lines.grep(/^\s*(?:module|class)\s+([^\s]+)/) { $1.split('::').last }
  // ---------------------------------------------------------------------

  /** `String#lines`: the text cut after every newline, each line keeping its newline. */
  function Lines(text: string): (ls: seq<string>)
    decreases |text|
    ensures forall i :: 0 <= i < |ls| ==> |ls[i]| > 0
  {
    if |text| == 0 then []
    else
      match FindFrom(text, "\n", 0)
      case None => [text]
      case Some(k) => [text[..k + 1]] + Lines(text[k + 1..])
  }

  function Concat(ls: seq<string>): string
  {
    if |ls| == 0 then "" else ls[0] + Concat(ls[1..])
  }

  /** Before the first newline found, there is no newline. */
  lemma NewlineFree(text: string, k: nat)
    requires k <= |text|
    requires forall j :: 0 <= j < k ==> !OccursAt(text, "\n", j)
    ensures forall j :: 0 <= j < k ==> text[j] != '\n'
  {
    forall j | 0 <= j < k
      ensures text[j] != '\n'
    {
      assert !OccursAt(text, "\n", j);
      assert text[j..j + 1] == [text[j]];
    }
  }

  /** The lines put back together are the text. */
  lemma {:induction false} LinesConcat(text: string)
    ensures Concat(Lines(text)) == text
    decreases |text|
  {
    if |text| > 0 {
      match FindFrom(text, "\n", 0)
      case None =>
      case Some(k) =>
        var rest := text[k + 1..];
        LinesConcat(rest);
        assert Lines(text) == [text[..k + 1]] + Lines(rest);
        assert text == text[..k + 1] + rest;
    }
  }

  /** A newline only ever ends a line, and every line but the last ends in one. */
  lemma {:induction false} LinesEndAtNewlines(text: string)
    ensures forall i, j :: 0 <= i < |Lines(text)| && 0 <= j < |Lines(text)[i]| - 1 ==> Lines(text)[i][j] != '\n'
    ensures forall i :: 0 <= i < |Lines(text)| - 1 ==> Lines(text)[i][|Lines(text)[i]| - 1] == '\n'
    decreases |text|
  {
    if |text| > 0 {
      FindFromIsFirst(text, "\n", 0);
      match FindFrom(text, "\n", 0)
      case None =>
        NewlineFree(text, |text|);
      case Some(k) =>
        var rest := text[k + 1..];
        assert Lines(text) == [text[..k + 1]] + Lines(rest);
        assert text[..k + 1][k] == text[k..k + 1][0] == '\n';
        assert forall j :: 0 <= j < k ==> text[..k + 1][j] == text[j];
        LinesEndAtNewlines(rest);
        NewlineFree(text, k);
    }
  }

  /** Ruby's `\s`: space, tab, newline, vertical tab, form feed, carriage return. */
  predicate IsSpace(c: char)
  {
    c == ' ' || c == '\t' || c == '\n' || c == '\U{B}' || c == '\U{C}' || c == '\r'
  }

  /** The end of the run of characters from `i` whose spacing is `space`. */
  function RunEnd(s: string, i: nat, space: bool): (j: nat)
    requires i <= |s|
    decreases |s| - i
    ensures i <= j <= |s|
    ensures forall k :: i <= k < j ==> IsSpace(s[k]) == space
    ensures j < |s| ==> IsSpace(s[j]) != space
  {
    if i == |s| || IsSpace(s[i]) != space then i else RunEnd(s, i + 1, space)
  }

  /** `word` occurs in `s` at `i`. */
  predicate WordAt(s: string, i: nat, word: string)
  {
    i + |word| <= |s| && s[i..i + |word|] == word
  }

  /** Where the keyword `module` or `class` ends when it starts at `i`. */
  function KeywordEnd(s: string, i: nat): (r: Option<nat>)
    ensures r.Some? ==> i <= r.value <= |s| && (s[i..r.value] == "module" || s[i..r.value] == "class")
  {
    if WordAt(s, i, "module") then Some(i + 6)
    else if WordAt(s, i, "class") then Some(i + 5)
    else None
  }

  /**
   * The first group of the declaration pattern at the start of a line:
   * blanks, `module` or `class`, at least one blank, then the longest
   * run of non-blanks.
   */
  function DeclaredName(line: string): (r: Option<string>)
    ensures r.Some? ==> |r.value| > 0 && forall k :: 0 <= k < |r.value| ==> !IsSpace(r.value[k])
  {
    var w := RunEnd(line, 0, true);
    match KeywordEnd(line, w)
    case None => None
    case Some(k) =>
      var b := RunEnd(line, k, true);
      if b == k then None
      else
        var t := RunEnd(line, b, false);
        if t == b then None else Some(line[b..t])
  }

  /** A blank-free word. */
  ghost predicate IsWord(t: string)
  {
    |t| > 0 && forall k :: 0 <= k < |t| ==> !IsSpace(t[k])
  }

  /** A run of blanks. */
  ghost predicate AllSpace(t: string)
  {
    forall k :: 0 <= k < |t| ==> IsSpace(t[k])
  }

  /** The end of a run is where the next character of the other kind stands. */
  lemma {:induction false} RunEndIs(s: string, i: nat, space: bool, j: nat)
    requires i <= j <= |s|
    requires forall k :: i <= k < j ==> IsSpace(s[k]) == space
    requires j < |s| ==> IsSpace(s[j]) != space
    ensures RunEnd(s, i, space) == j
    decreases j - i
  {
    if i < j {
      RunEndIs(s, i + 1, space, j);
    }
  }

  /** The declaration pattern at known positions: blanks to `w`, a keyword to `k`, blanks to `b`, the name to `t`. */
  lemma DeclaredNameAt(line: string, w: nat, k: nat, b: nat, t: nat)
    requires w < k < b < t <= |line|
    requires forall x :: 0 <= x < w ==> IsSpace(line[x])
    requires !IsSpace(line[w]) && KeywordEnd(line, w) == Some(k)
    requires forall x :: k <= x < b ==> IsSpace(line[x])
    requires forall x :: b <= x < t ==> !IsSpace(line[x])
    requires t < |line| ==> IsSpace(line[t])
    ensures DeclaredName(line) == Some(line[b..t])
  {
    RunEndIs(line, 0, true, w);
    RunEndIs(line, k, true, b);
    RunEndIs(line, b, false, t);
  }

  /**
   * Every declaration line yields its name: blanks, `module` or `class`,
   * blanks, the name, and then the end of the line or a blank.
   */
  lemma DeclaredNameOf(indent: string, keyword: string, gap: string, name: string, rest: string)
    requires AllSpace(indent) && (keyword == "module" || keyword == "class")
    requires |gap| > 0 && AllSpace(gap) && IsWord(name)
    requires rest == [] || IsSpace(rest[0])
    ensures DeclaredName(indent + keyword + gap + name + rest) == Some(name)
  {
    var head := indent + keyword;
    var line := head + gap + name + rest;
    var w, k := |indent|, |head|;
    var b, t := k + |gap|, k + |gap| + |name|;
    assert line[..k] == head && head[..w] == indent && head[w..] == keyword;
    assert line[w..k] == keyword;
    assert line[k..b] == gap && line[b..t] == name && line[t..] == rest;
    forall x | 0 <= x < w
      ensures IsSpace(line[x])
    {
      assert line[x] == indent[x];
    }
    assert line[w] == keyword[0];
    forall x | k <= x < b
      ensures IsSpace(line[x])
    {
      assert line[x] == gap[x - k];
    }
    forall x | b <= x < t
      ensures !IsSpace(line[x])
    {
      assert line[x] == name[x - b];
    }
    if t < |line| {
      assert line[t] == rest[0];
    }
    DeclaredNameAt(line, w, k, b, t);
  }

  /** `line` is blanks, `module` or `class`, blanks, `name`, and then the end of the line or a blank. */
  ghost predicate Declaration(line: string, indent: string, keyword: string, gap: string, name: string, rest: string)
  {
    && line == indent + keyword + gap + name + rest
    && AllSpace(indent) && (keyword == "module" || keyword == "class")
    && |gap| > 0 && AllSpace(gap) && IsWord(name)
    && (rest == [] || IsSpace(rest[0]))
  }

  /** The slices at the positions of the declaration pattern are its parts. */
  lemma DeclarationAt(line: string, w: nat, k: nat, b: nat, t: nat)
    requires w <= k < b < t <= |line|
    requires forall x :: 0 <= x < w ==> IsSpace(line[x])
    requires line[w..k] == "module" || line[w..k] == "class"
    requires forall x :: k <= x < b ==> IsSpace(line[x])
    requires forall x :: b <= x < t ==> !IsSpace(line[x])
    requires t < |line| ==> IsSpace(line[t])
    ensures Declaration(line, line[..w], line[w..k], line[k..b], line[b..t], line[t..])
  {
    var indent, keyword, gap, name, rest := line[..w], line[w..k], line[k..b], line[b..t], line[t..];
    assert line[..k] == indent + keyword;
    assert line[..b] == line[..k] + gap;
    assert line[..t] == line[..b] + name;
    assert line == line[..t] + rest;
    forall x | 0 <= x < |indent|
      ensures IsSpace(indent[x])
    {
      assert indent[x] == line[x];
    }
    forall x | 0 <= x < |gap|
      ensures IsSpace(gap[x])
    {
      assert gap[x] == line[k + x];
    }
    forall x | 0 <= x < |name|
      ensures !IsSpace(name[x])
    {
      assert name[x] == line[b + x];
    }
    if t < |line| {
      assert rest[0] == line[t];
    }
  }

  /** A name is only ever taken from a declaration line, and it is the name that line declares. */
  lemma DeclaredNameSound(line: string)
    requires DeclaredName(line).Some?
    ensures exists indent, keyword, gap, rest :: Declaration(line, indent, keyword, gap, DeclaredName(line).value, rest)
  {
    var w := RunEnd(line, 0, true);
    var k := KeywordEnd(line, w).value;
    var b := RunEnd(line, k, true);
    var t := RunEnd(line, b, false);
    assert DeclaredName(line) == Some(line[b..t]);
    DeclarationAt(line, w, k, b, t);
  }

  /** `name.split('::').last`: nil when the name is nothing but separators. */
  function LastSegment(name: string): (r: Option<string>)
    ensures r.Some? ==> r.value != "" && forall k :: !OccursAt(r.value, "::", k)
    ensures r.None? <==> forall i :: 0 <= i < |Split(name, "::")| ==> Split(name, "::")[i] == ""
  {
    var parts := RubySplit(name, "::");
    SplitPiecesFree(name, "::");
    if |parts| == 0 then None else Some(parts[|parts| - 1])
  }

  /** A name without `::` is its own last segment. */
  lemma LastSegmentOfPlainName(name: string)
    requires name != "" && forall k :: !OccursAt(name, "::", k)
    ensures LastSegment(name) == Some(name)
  {
    assert FindFrom(name, "::", 0) == None;
    assert Split(name, "::") == [name];
  }

  /** `A::B` ends in `B` when `B` holds no colon and is not empty, and `A` does not end in a colon. */
  lemma LastSegmentOfQualifiedName(outer: string, name: string)
    requires name != "" && ':' !in name
    requires outer == "" || outer[|outer| - 1] != ':'
    ensures LastSegment(outer + "::" + name) == Some(name)
  {
    var s := outer + "::" + name;
    var n := |s| - |name|;
    assert s[n..] == name && s[n - 2..n] == "::";
    var parts := Split(s, "::");
    SplitPiecesFree(s, "::");
    JoinSplit(s, "::");
    var last := parts[|parts| - 1];
    if |parts| == 1 {
      assert last == s;
      assert OccursAt(last, "::", n - 2);
    } else {
      JoinLast(parts, "::");
      var init := Join(parts[..|parts| - 1], "::");
      assert s == init + "::" + last;
      LastAfterSeparator(outer, name, init, last);
    }
    assert DropTrailingEmpty(parts) == parts;
  }

  /** A `::` that starts inside a suffix occurs in that suffix. */
  lemma OccursInSuffixAt(s: string, last: string, m: nat, j: nat)
    requires m <= j && j + 2 <= |s| && s[m..] == last && s[j..j + 2] == "::"
    ensures OccursAt(last, "::", j - m)
  {
    assert last[j - m..j - m + 2] == s[j..j + 2];
  }

  /** Two ways of writing a string as something, `::` and a colon-free end agree on the end. */
  lemma LastAfterSeparator(outer: string, name: string, init: string, last: string)
    requires name != "" && ':' !in name
    requires outer == "" || outer[|outer| - 1] != ':'
    requires outer + "::" + name == init + "::" + last
    requires forall k :: !OccursAt(last, "::", k)
    ensures last == name
  {
    var s := outer + "::" + name;
    var n := |s| - |name|;
    assert s[n..] == name && s[n - 2..n] == "::";
    var m := |s| - |last|;
    assert s[m..] == last && s[m - 2..m] == "::";
    assert s[m - 2] == ':' && s[..|outer|] == outer;
    if |last| < |name| {
      assert false;
    } else if |last| == |name| + 1 {
      assert false;
    } else if |last| > |name| + 1 {
      OccursInSuffixAt(s, last, m, n - 2);
      assert false;
    } else {
      assert s[m..] == s[n..];
    }
  }

  /**
   * The candidate names of a file's lines, in line order: the last `::`
   * segment of each declared module or class name.
   */
  function Candidates(lines: seq<string>): (r: seq<Option<string>>)
    ensures |r| <= |lines|
  {
    if |lines| == 0 then []
    else
      var rest := Candidates(lines[1..]);
      match DeclaredName(lines[0])
      case None => rest
      case Some(name) => [LastSegment(name)] + rest
  }

  /** Every candidate comes from a line that declares a name, and every such line gives one. */
  lemma {:induction false} CandidatesDeclared(lines: seq<string>)
    ensures forall c :: c in Candidates(lines) <==>
      exists i :: 0 <= i < |lines| && DeclaredName(lines[i]).Some? && c == LastSegment(DeclaredName(lines[i]).value)
  {
    if |lines| > 0 {
      var rest := Candidates(lines[1..]);
      CandidatesDeclared(lines[1..]);
      var head := DeclaredName(lines[0]);
      if head.Some? {
        assert Candidates(lines) == [LastSegment(head.value)] + rest;
      } else {
        assert Candidates(lines) == rest;
      }
      forall c | c in Candidates(lines)
        ensures exists i :: 0 <= i < |lines| && DeclaredName(lines[i]).Some? && c == LastSegment(DeclaredName(lines[i]).value)
      {
        if c in rest {
          var i :| 0 <= i < |lines[1..]| && DeclaredName(lines[1..][i]).Some? && c == LastSegment(DeclaredName(lines[1..][i]).value);
          assert lines[1..][i] == lines[i + 1];
        } else {
          assert c == LastSegment(head.value);
        }
      }
      forall i | 0 <= i < |lines| && DeclaredName(lines[i]).Some?
        ensures LastSegment(DeclaredName(lines[i]).value) in Candidates(lines)
      {
        if i > 0 {
          assert lines[1..][i - 1] == lines[i];
        }
      }
    }
  }

  /** A line contributes its declared name's last segment, if it declares one, ahead of the rest. */
  lemma CandidatesCons(line: string, rest: seq<string>)
    ensures Candidates([line] + rest) ==
      (match DeclaredName(line) case None => [] case Some(name) => [LastSegment(name)]) + Candidates(rest)
  {
    assert ([line] + rest)[1..] == rest;
  }

  /** `grep` keeps line order: the candidates of two runs of lines follow each other. */
  lemma {:induction false} CandidatesAppend(a: seq<string>, b: seq<string>)
    ensures Candidates(a + b) == Candidates(a) + Candidates(b)
  {
    if |a| > 0 {
      assert a == [a[0]] + a[1..];
      assert a + b == [a[0]] + (a[1..] + b);
      CandidatesCons(a[0], a[1..]);
      CandidatesCons(a[0], a[1..] + b);
      CandidatesAppend(a[1..], b);
    } else {
      assert a + b == b;
    }
  }

  // ---------------------------------------------------------------------
  // The underscore form: gsub(/([A-Z]+)([A-Z][a-z])/,'\1_\2').
  //   gsub(/([a-z\d])([A-Z])/,'\1_\2').tr("-", "_").downcase
  // ---------------------------------------------------------------------

  predicate Upper(c: char) { 'A' <= c <= 'Z' }

  predicate Lower(c: char) { 'a' <= c <= 'z' }

  predicate LowerOrDigit(c: char) { Lower(c) || '0' <= c <= '9' }

  /** The end of the run of capitals that starts at `i`. */
  function UpperEnd(s: string, i: nat): (j: nat)
    requires i <= |s|
    decreases |s| - i
    ensures i <= j <= |s|
    ensures forall k :: i <= k < j ==> Upper(s[k])
    ensures j < |s| ==> !Upper(s[j])
  {
    if i == |s| || !Upper(s[i]) then i else UpperEnd(s, i + 1)
  }

  /**
   * The first gsub from position `p`. At a capital, `[A-Z]+` takes the
   * whole run of capitals and gives back its last one, which with the
   * following lower-case letter makes the second group; the scan goes on
   * after the match. Where no match starts, one character is copied.
   */
  function SplitAcronyms(s: string, p: nat): string
    requires p <= |s|
    decreases |s| - p
  {
    if p == |s| then ""
    else if Upper(s[p]) then
      var q := UpperEnd(s, p);
      if q - p >= 2 && q < |s| && Lower(s[q]) then s[p..q - 1] + "_" + s[q - 1..q + 1] + SplitAcronyms(s, q + 1)
      else [s[p]] + SplitAcronyms(s, p + 1)
    else [s[p]] + SplitAcronyms(s, p + 1)
  }

  /** The second gsub from position `p`: a lower-case letter or digit followed by a capital. */
  function SplitWords(s: string, p: nat): string
    requires p <= |s|
    decreases |s| - p
  {
    if p == |s| then ""
    else if p + 1 < |s| && LowerOrDigit(s[p]) && Upper(s[p + 1]) then [s[p], '_', s[p + 1]] + SplitWords(s, p + 2)
    else [s[p]] + SplitWords(s, p + 1)
  }

  /** `i` is the last capital of a run of at least two, and a lower-case letter follows it. */
  predicate AcronymBoundary(s: string, i: int)
  {
    1 <= i && i + 1 < |s| && Upper(s[i - 1]) && Upper(s[i]) && Lower(s[i + 1])
  }

  /** `i` is a capital that follows a lower-case letter or a digit. */
  predicate WordBoundary(s: string, i: int)
  {
    1 <= i < |s| && LowerOrDigit(s[i - 1]) && Upper(s[i])
  }

  /** The characters of `s` from `p`, with `_` before every acronym boundary. */
  function MarkAcronyms(s: string, p: nat): string
    requires p <= |s|
    decreases |s| - p
  {
    if p == |s| then "" else (if AcronymBoundary(s, p) then "_" else "") + [s[p]] + MarkAcronyms(s, p + 1)
  }

  /** The characters of `s` from `p`, with `_` before every word boundary. */
  function MarkWords(s: string, p: nat): string
    requires p <= |s|
    decreases |s| - p
  {
    if p == |s| then "" else (if WordBoundary(s, p) then "_" else "") + [s[p]] + MarkWords(s, p + 1)
  }

  /** Over a stretch without acronym boundaries, marking copies the characters. */
  lemma {:induction false} MarkAcronymsCopies(s: string, p: nat, j: nat)
    requires p <= j <= |s|
    requires forall i :: p <= i < j ==> !AcronymBoundary(s, i)
    ensures MarkAcronyms(s, p) == s[p..j] + MarkAcronyms(s, j)
    decreases j - p
  {
    if p < j {
      MarkAcronymsCopies(s, p + 1, j);
      MarkAcronymsStep(s, p);
      assert s[p..j] == [s[p]] + s[p + 1..j];
    }
  }

  /** At an acronym boundary, marking inserts `_` and copies the capital and the letter after it. */
  lemma MarkAcronymsAtBoundary(s: string, i: nat)
    requires AcronymBoundary(s, i)
    ensures MarkAcronyms(s, i) == "_" + s[i..i + 2] + MarkAcronyms(s, i + 2)
  {
    assert !AcronymBoundary(s, i + 1);
    assert MarkAcronyms(s, i + 1) == [s[i + 1]] + MarkAcronyms(s, i + 2);
    assert s[i..i + 2] == [s[i], s[i + 1]];
  }

  /** Regrouping a concatenation of four strings. */
  lemma AppendRegroup(a: string, b: string, c: string, d: string)
    ensures a + (b + c + d) == a + b + c + d
  {
  }

  /** Where the first gsub matches, marking inserts the same one `_`. */
  lemma MarkAcronymsAtMatch(s: string, p: nat, q: nat)
    requires p + 2 <= q < |s| && q == UpperEnd(s, p) && Lower(s[q])
    ensures MarkAcronyms(s, p) == s[p..q - 1] + "_" + s[q - 1..q + 1] + MarkAcronyms(s, q + 1)
  {
    MarkAcronymsCopies(s, p, q - 1);
    MarkAcronymsAtBoundary(s, q - 1);
    AppendRegroup(s[p..q - 1], "_", s[q - 1..q + 1], MarkAcronyms(s, q + 1));
  }

  /** Where the first gsub does not match at a capital, the next position is no boundary either. */
  lemma NoAcronymAfterMiss(s: string, p: nat)
    requires p < |s| && Upper(s[p])
    requires var q := UpperEnd(s, p); !(q - p >= 2 && q < |s| && Lower(s[q]))
    ensures !AcronymBoundary(s, p + 1)
  {
  }

  /** Off a boundary, marking copies one character. */
  lemma MarkAcronymsStep(s: string, p: nat)
    requires p < |s| && !AcronymBoundary(s, p)
    ensures MarkAcronyms(s, p) == [s[p]] + MarkAcronyms(s, p + 1)
  {
  }

  /** Where the first gsub matches at `p`, it marks the run and resumes after the lower-case letter. */
  lemma SplitAcronymsAtMatch(s: string, p: nat, q: nat)
    requires p + 2 <= q < |s| && q == UpperEnd(s, p) && Lower(s[q])
    ensures SplitAcronyms(s, p) == s[p..q - 1] + "_" + s[q - 1..q + 1] + SplitAcronyms(s, q + 1)
  {
  }

  /** Where the first gsub does not match at `p`, it copies one character. */
  lemma SplitAcronymsCopies(s: string, p: nat)
    requires p < |s|
    requires var q := UpperEnd(s, p); !(Upper(s[p]) && q - p >= 2 && q < |s| && Lower(s[q]))
    ensures SplitAcronyms(s, p) == [s[p]] + SplitAcronyms(s, p + 1)
  {
  }

  /**
   * The first gsub inserts `_` exactly at the acronym boundaries, so long
   * as the scan does not start on one (it starts at 0, which never is).
   */
  lemma {:induction false} SplitAcronymsMarks(s: string, p: nat)
    requires p <= |s| && !AcronymBoundary(s, p)
    ensures SplitAcronyms(s, p) == MarkAcronyms(s, p)
    decreases |s| - p, 1
  {
    if p < |s| {
      var q := UpperEnd(s, p);
      if Upper(s[p]) && q - p >= 2 && q < |s| && Lower(s[q]) {
        SplitAcronymsMarksAtMatch(s, p, q);
      } else {
        SplitAcronymsMarksCopy(s, p);
      }
    }
  }

  /** The matching step of `SplitAcronymsMarks`. */
  lemma {:induction false} SplitAcronymsMarksAtMatch(s: string, p: nat, q: nat)
    requires p + 2 <= q < |s| && q == UpperEnd(s, p) && Lower(s[q])
    ensures SplitAcronyms(s, p) == MarkAcronyms(s, p)
    decreases |s| - p, 0
  {
    SplitAcronymsAtMatch(s, p, q);
    MarkAcronymsAtMatch(s, p, q);
    SplitAcronymsMarks(s, q + 1);
  }

  /** The copying step of `SplitAcronymsMarks`. */
  lemma {:induction false} SplitAcronymsMarksCopy(s: string, p: nat)
    requires p < |s| && !AcronymBoundary(s, p)
    requires var q := UpperEnd(s, p); !(Upper(s[p]) && q - p >= 2 && q < |s| && Lower(s[q]))
    ensures SplitAcronyms(s, p) == MarkAcronyms(s, p)
    decreases |s| - p, 0
  {
    SplitAcronymsCopies(s, p);
    MarkAcronymsStep(s, p);
    if Upper(s[p]) {
      NoAcronymAfterMiss(s, p);
    }
    SplitAcronymsMarks(s, p + 1);
  }

  /** The second gsub inserts `_` exactly at the word boundaries. */
  lemma {:induction false} SplitWordsMarks(s: string, p: nat)
    requires p <= |s| && !WordBoundary(s, p)
    ensures SplitWords(s, p) == MarkWords(s, p)
    decreases |s| - p
  {
    if p < |s| {
      if p + 1 < |s| && LowerOrDigit(s[p]) && Upper(s[p + 1]) {
        SplitWordsMarks(s, p + 2);
        assert MarkWords(s, p + 1) == "_" + [s[p + 1]] + MarkWords(s, p + 2);
      } else {
        SplitWordsMarks(s, p + 1);
      }
    }
  }

  /** `tr("-", "_")`. */
  function Tr(s: string): (r: string)
    ensures |r| == |s|
    ensures forall i :: 0 <= i < |s| ==> r[i] == (if s[i] == '-' then '_' else s[i])
  {
    if |s| == 0 then "" else [if s[0] == '-' then '_' else s[0]] + Tr(s[1..])
  }

  /** The ASCII lower case of one character. */
  function DowncaseChar(c: char): (d: char)
    ensures !Upper(d)
    ensures Upper(c) ==> Lower(d)
    ensures !Upper(c) ==> d == c
  {
    if Upper(c) then (c as int + 32) as char else c
  }

  /** `downcase` on ASCII letters. */
  function Downcase(s: string): (r: string)
    ensures |r| == |s|
    ensures forall i :: 0 <= i < |s| ==> r[i] == DowncaseChar(s[i])
  {
    if |s| == 0 then "" else [DowncaseChar(s[0])] + Downcase(s[1..])
  }

  /** The underscore form of a constant name. */
  function Underscore(name: string): (r: string)
    ensures forall i :: 0 <= i < |r| ==> !Upper(r[i]) && r[i] != '-'
  {
    Downcase(Tr(SplitWords(SplitAcronyms(name, 0), 0)))
  }

  /** The characters of `s` other than `_` and `-`. */
  function Letters(s: string): (r: string)
    ensures |r| <= |s|
  {
    if |s| == 0 then "" else (if s[0] == '_' || s[0] == '-' then "" else [s[0]]) + Letters(s[1..])
  }

  lemma {:induction false} LettersAppend(a: string, b: string)
    ensures Letters(a + b) == Letters(a) + Letters(b)
  {
    if |a| > 0 {
      LettersAppend(a[1..], b);
      assert (a + b)[1..] == a[1..] + b;
    } else {
      assert a + b == b;
    }
  }

  /** Marking acronym boundaries adds nothing but underscores. */
  lemma {:induction false} LettersMarkAcronyms(s: string, p: nat)
    requires p <= |s|
    ensures Letters(MarkAcronyms(s, p)) == Letters(s[p..])
    decreases |s| - p
  {
    if p < |s| {
      LettersMarkAcronyms(s, p + 1);
      var mark: string := if AcronymBoundary(s, p) then "_" else "";
      assert Letters(mark) == "";
      LettersAppend(mark, [s[p]]);
      LettersAppend(mark + [s[p]], MarkAcronyms(s, p + 1));
      LettersAppend([s[p]], s[p + 1..]);
      assert s[p..] == [s[p]] + s[p + 1..];
    }
  }

  /** Marking word boundaries adds nothing but underscores. */
  lemma {:induction false} LettersMarkWords(s: string, p: nat)
    requires p <= |s|
    ensures Letters(MarkWords(s, p)) == Letters(s[p..])
    decreases |s| - p
  {
    if p < |s| {
      LettersMarkWords(s, p + 1);
      var mark: string := if WordBoundary(s, p) then "_" else "";
      assert Letters(mark) == "";
      LettersAppend(mark, [s[p]]);
      LettersAppend(mark + [s[p]], MarkWords(s, p + 1));
      LettersAppend([s[p]], s[p + 1..]);
      assert s[p..] == [s[p]] + s[p + 1..];
    }
  }

  /** `tr` only turns one removed character into another. */
  lemma {:induction false} LettersTr(s: string)
    ensures Letters(Tr(s)) == Letters(s)
  {
    if |s| > 0 {
      LettersTr(s[1..]);
      assert Tr(s)[1..] == Tr(s[1..]);
    }
  }

  /** Lower-casing never makes or removes `_` or `-`. */
  lemma {:induction false} LettersDowncase(s: string)
    ensures Letters(Downcase(s)) == Downcase(Letters(s))
  {
    if |s| > 0 {
      LettersDowncase(s[1..]);
      assert Downcase(s)[1..] == Downcase(s[1..]);
      if s[0] == '_' || s[0] == '-' {
      } else {
        assert Letters(s) == [s[0]] + Letters(s[1..]);
        assert Downcase([s[0]] + Letters(s[1..]))[1..] == Downcase(Letters(s[1..]));
      }
    }
  }

  /**
   * The underscore form differs from the plainly lower-cased name only in
   * its underscores and dashes: the conversion inserts underscores and
   * turns dashes into underscores, and changes no letter but its case.
   */
  lemma UnderscoreLetters(name: string)
    ensures Letters(Underscore(name)) == Letters(Downcase(name))
  {
    var a := SplitAcronyms(name, 0);
    var w := SplitWords(a, 0);
    SplitAcronymsMarks(name, 0);
    SplitWordsMarks(a, 0);
    LettersMarkAcronyms(name, 0);
    LettersMarkWords(a, 0);
    assert name[0..] == name && a[0..] == a;
    LettersDowncase(Tr(w));
    LettersTr(w);
    LettersDowncase(name);
  }

  // ---------------------------------------------------------------------
  // Choosing the constant: const_name_candidates.find { ... }
  // ---------------------------------------------------------------------

  /** A candidate fits a file whose base name is its underscore form or its plain lower case. */
  predicate Matches(name: string, basename: string)
  {
    basename == Underscore(name) || basename == Downcase(name)
  }

  /**
   * `find` over the candidates: the first that matches, nil when none
   * does; a nil candidate reached before a match raises, since `gsub` is
   * called on it.
   */
  function FindConst(candidates: seq<Option<string>>, basename: string): (r: Result<Option<string>, AutoloadError>)
    ensures r.Ok? && r.value.Some? ==> Some(r.value.value) in candidates && Matches(r.value.value, basename)
    ensures r.Ok? && r.value.None? ==>
      forall j :: 0 <= j < |candidates| ==> candidates[j].Some? && !Matches(candidates[j].value, basename)
    ensures r.Err? ==> r.error == NoMethodError && None in candidates
  {
    if |candidates| == 0 then Ok(None)
    else
      match candidates[0]
      case None => Err(NoMethodError)
      case Some(name) =>
        if Matches(name, basename) then Ok(Some(name)) else FindConst(candidates[1..], basename)
  }

  /** The constant chosen is the first candidate that matches, provided none before it is nil. */
  lemma {:induction false} FindConstIsFirst(candidates: seq<Option<string>>, basename: string, i: nat)
    requires i < |candidates| && candidates[i].Some? && Matches(candidates[i].value, basename)
    requires forall j :: 0 <= j < i ==> candidates[j].Some? && !Matches(candidates[j].value, basename)
    ensures FindConst(candidates, basename) == Ok(Some(candidates[i].value))
  {
    if i > 0 {
      FindConstIsFirst(candidates[1..], basename, i - 1);
    }
  }

  /** A nil candidate before any match raises. */
  lemma {:induction false} FindConstRaises(candidates: seq<Option<string>>, basename: string, i: nat)
    requires i < |candidates| && candidates[i].None?
    requires forall j :: 0 <= j < i ==> candidates[j].Some? && !Matches(candidates[j].value, basename)
    ensures FindConst(candidates, basename) == Err(NoMethodError)
  {
    if i > 0 {
      FindConstRaises(candidates[1..], basename, i - 1);
    }
  }

  // ---------------------------------------------------------------------
  // File names: File.basename(file, '.rb') and file.sub(/\.rb$/, '')
  // ---------------------------------------------------------------------

  /** What follows the last slash. */
  function AfterLastSlash(path: string): (r: string)
    ensures |r| <= |path| && r == path[|path| - |r|..]
    ensures forall k :: 0 <= k < |r| ==> r[k] != '/'
    ensures |r| < |path| ==> path[|path| - |r| - 1] == '/'
  {
    if |path| == 0 then ""
    else if path[|path| - 1] == '/' then ""
    else AfterLastSlash(path[..|path| - 1]) + [path[|path| - 1]]
  }

  /** `File.basename(file, '.rb')`: the last component, without `.rb` unless that would leave nothing. */
  function Basename(file: string): (r: string)
    ensures forall k :: 0 <= k < |r| ==> r[k] != '/'
  {
    var b := AfterLastSlash(file);
    if |b| > 3 && b[|b| - 3..] == ".rb" then b[..|b| - 3] else b
  }

  /** `.rb` at `k`, followed by the end of the string or of a line. */
  predicate RbAt(s: string, k: nat)
  {
    k + 3 <= |s| && s[k..k + 3] == ".rb" && (k + 3 == |s| || s[k + 3] == '\n')
  }

  /** The first `k` at or after `from` where `RbAt` holds. */
  function FirstRb(s: string, from: nat): (r: Option<nat>)
    decreases |s| - from
    ensures r.Some? ==> from <= r.value && RbAt(s, r.value)
    ensures forall k :: from <= k && (r.None? || k < r.value) ==> !RbAt(s, k)
  {
    if from + 3 > |s| then None
    else if RbAt(s, from) then Some(from)
    else FirstRb(s, from + 1)
  }

  /** `file.sub(/\.rb$/, '')`: the first `.rb` at the end of a line is removed. */
  function StripRb(file: string): (r: string)
    ensures |r| == |file| || |r| == |file| - 3
    ensures r == file <==> forall k: nat :: !RbAt(file, k)
    ensures r != file ==>
      exists k: nat :: RbAt(file, k) && r == file[..k] + file[k + 3..] && forall j: nat :: j < k ==> !RbAt(file, j)
  {
    match FirstRb(file, 0)
    case None => file
    case Some(k) => file[..k] + file[k + 3..]
  }

  /** A one-line file name ending in `.rb` loses exactly that ending. */
  lemma StripRbOfRubyFile(stem: string)
    requires forall k :: 0 <= k < |stem| ==> stem[k] != '\n'
    ensures StripRb(stem + ".rb") == stem
  {
    var file := stem + ".rb";
    assert RbAt(file, |stem|);
    assert file[..|stem|] == stem;
    match FirstRb(file, 0)
    case None =>
    case Some(k) =>
      if k < |stem| {
        assert false;
      }
  }

  /** What follows the last slash is the part after a slash that has none. */
  lemma {:induction false} AfterLastSlashOf(dir: string, tail: string)
    requires forall k :: 0 <= k < |tail| ==> tail[k] != '/'
    ensures AfterLastSlash(dir + "/" + tail) == tail
    decreases |tail|
  {
    var path := dir + "/" + tail;
    if |tail| > 0 {
      var init := tail[..|tail| - 1];
      assert path[..|path| - 1] == dir + "/" + init;
      assert path[|path| - 1] == tail[|tail| - 1];
      AfterLastSlashOf(dir, init);
      assert init + [tail[|tail| - 1]] == tail;
    }
  }

  /** The base name of a Ruby file in a directory is the file's stem. */
  lemma BasenameOfRubyFile(dir: string, stem: string)
    requires |stem| > 0 && forall k :: 0 <= k < |stem| ==> stem[k] != '/'
    ensures Basename(dir + "/" + stem + ".rb") == stem
  {
    var tail := stem + ".rb";
    assert dir + "/" + stem + ".rb" == dir + "/" + tail;
    assert forall k :: 0 <= k < |tail| ==> tail[k] != '/' by {
      forall k | 0 <= k < |tail|
        ensures tail[k] != '/'
      {
        if k >= |stem| {
          assert tail[|stem|..] == ".rb";
        }
      }
    }
    AfterLastSlashOf(dir, tail);
    assert tail[|tail| - 3..] == ".rb" && tail[..|tail| - 3] == stem;
  }

  // ---------------------------------------------------------------------
  // The driver: autoload_all_files_relative_to
  // ---------------------------------------------------------------------

  /** `autoload const_name.to_sym, path`, relative to the lib directory. */
  datatype Statement = Statement(constName: string, path: string)

  /** The autoload statements issued, in order, and what was raised after them, if anything. */
  datatype Outcome = Outcome(issued: seq<Statement>, raised: Option<AutoloadError>)

  /** What one file contributes: an autoload statement, nothing (`next`), or an error. */
  function Choose(file: string, text: string): (r: Result<Option<Statement>, AutoloadError>)
    ensures r.Ok? && r.value.Some? ==>
      r.value.value.path == StripRb(file)
      && Some(r.value.value.constName) in Candidates(Lines(text))
      && Matches(r.value.value.constName, Basename(file))
    ensures r.Err? ==> r.error == NoMethodError
  {
    match FindConst(Candidates(Lines(text)), Basename(file))
    case Err(e) => Err(e)
    case Ok(None) => Ok(None)
    case Ok(Some(name)) => Ok(Some(Statement(name, StripRb(file))))
  }

  /** The choice for each file found, in glob order. */
  function Choices(libdir: string, files: seq<string>, read: (string, string) -> string): (cs: seq<Result<Option<Statement>, AutoloadError>>)
    ensures |cs| == |files|
    ensures forall i :: 0 <= i < |cs| ==> cs[i] == Choose(files[i], read(libdir, files[i]))
    ensures forall i :: 0 <= i < |cs| && cs[i].Err? ==> cs[i].error == NoMethodError
  {
    seq(|files|, i requires 0 <= i < |files| => Choose(files[i], read(libdir, files[i])))
  }

  /** The outcome of the `each` loop over the choices, up to the first error. */
  function Run(cs: seq<Result<Option<Statement>, AutoloadError>>): (o: Outcome)
    ensures |o.issued| <= |cs|
  {
    if |cs| == 0 then Outcome([], None)
    else
      var prev := Run(cs[..|cs| - 1]);
      if prev.raised.Some? then prev
      else
        match cs[|cs| - 1]
        case Err(e) => Outcome(prev.issued, Some(e))
        case Ok(None) => prev
        case Ok(Some(st)) => Outcome(prev.issued + [st], None)
  }

  /**
   * The whole call: find the lib directory, glob for the Ruby files
   * directly under the relative path in it, and go through them.
   */
  function Autoloads(base: string, glob: (string, string) -> seq<string>, read: (string, string) -> string): (o: Outcome)
    ensures o.raised == Some(NoLibDir(base)) <==> LibPath(base).Err?
  {
    match LibPath(base)
    case Err(e) => Outcome([], Some(e))
    case Ok((libdir, relative)) =>
      var cs := Choices(libdir, glob(libdir, relative + "/*.rb"), read);
      RunRaisedBy(cs);
      Run(cs)
  }

  /**
   * Each statement the file loop issues names a constant declared in one
   * of the files, fitting that file's base name, with the file's path
   * less `.rb`.
   */
  lemma ChoicesIssueDeclaredConstants(libdir: string, files: seq<string>, read: (string, string) -> string)
    ensures var o := Run(Choices(libdir, files, read));
      forall k :: 0 <= k < |o.issued| ==>
        exists i ::
          && 0 <= i < |files|
          && o.issued[k].path == StripRb(files[i])
          && Some(o.issued[k].constName) in Candidates(Lines(read(libdir, files[i])))
          && Matches(o.issued[k].constName, Basename(files[i]))
  {
    var cs := Choices(libdir, files, read);
    RunSound(cs);
    var o := Run(cs);
    forall k | 0 <= k < |o.issued|
      ensures exists i ::
        && 0 <= i < |files|
        && o.issued[k].path == StripRb(files[i])
        && Some(o.issued[k].constName) in Candidates(Lines(read(libdir, files[i])))
        && Matches(o.issued[k].constName, Basename(files[i]))
    {
      var i :| 0 <= i < |cs| && cs[i] == Ok(Some(o.issued[k]));
      assert cs[i] == Choose(files[i], read(libdir, files[i]));
    }
  }

  /** How the outcome changes with the last choice. */
  lemma RunLast(cs: seq<Result<Option<Statement>, AutoloadError>>)
    requires |cs| > 0
    ensures var prev := Run(cs[..|cs| - 1]);
      var o := Run(cs);
      var c := cs[|cs| - 1];
      && (prev.raised.Some? ==> o == prev)
      && (prev.raised.None? && c.Err? ==> o == Outcome(prev.issued, Some(c.error)))
      && (prev.raised.None? && c == Ok(None) ==> o == prev)
      && (prev.raised.None? && c.Ok? && c.value.Some? ==> o == Outcome(prev.issued + [c.value.value], None))
  {
  }

  /** Every statement issued is the choice made for one of the files. */
  lemma {:induction false} RunSound(cs: seq<Result<Option<Statement>, AutoloadError>>)
    ensures forall k :: 0 <= k < |Run(cs).issued| ==> Ok(Some(Run(cs).issued[k])) in cs
  {
    if |cs| > 0 {
      var init := cs[..|cs| - 1];
      RunSound(init);
      RunLast(cs);
      assert forall c :: c in init ==> c in cs;
    }
  }

  /** When nothing is raised, every choice succeeded and each statement chosen was issued. */
  lemma {:induction false} RunComplete(cs: seq<Result<Option<Statement>, AutoloadError>>)
    ensures Run(cs).raised.None? ==>
      forall i :: 0 <= i < |cs| ==> cs[i].Ok? && (cs[i].value.Some? ==> cs[i].value.value in Run(cs).issued)
  {
    if |cs| > 0 {
      var init := cs[..|cs| - 1];
      RunComplete(init);
      RunLast(cs);
      if Run(cs).raised.None? {
        assert forall x :: x in Run(init).issued ==> x in Run(cs).issued;
        assert forall i :: 0 <= i < |init| ==> init[i] == cs[i];
      }
    }
  }

  /** Something is raised only when a choice raised it; the only such error is `gsub` on nil. */
  lemma {:induction false} RunRaisedBy(cs: seq<Result<Option<Statement>, AutoloadError>>)
    ensures Run(cs).raised.Some? ==> Err(Run(cs).raised.value) in cs
    ensures forall i :: 0 <= i < |cs| && cs[i].Err? ==> Run(cs).raised.Some?
  {
    if |cs| > 0 {
      var init := cs[..|cs| - 1];
      RunRaisedBy(init);
      RunLast(cs);
      assert forall c :: c in init ==> c in cs;
      assert forall i :: 0 <= i < |init| ==> init[i] == cs[i];
    }
  }

  /** After the first error, later choices change nothing: the loop has stopped. */
  lemma {:induction false} RunStops(cs: seq<Result<Option<Statement>, AutoloadError>>, i: nat)
    requires i <= |cs| && Run(cs[..i]).raised.Some?
    ensures Run(cs) == Run(cs[..i])
    decreases |cs|
  {
    if i < |cs| {
      var init := cs[..|cs| - 1];
      assert init[..i] == cs[..i];
      RunStops(init, i);
    } else {
      assert cs[..i] == cs;
    }
  }

  /** One more choice: the loop body. */
  lemma RunStep(cs: seq<Result<Option<Statement>, AutoloadError>>, i: nat)
    requires i < |cs| && Run(cs[..i]).raised.None?
    ensures Run(cs[..i + 1]) ==
      match cs[i]
      case Err(e) => Outcome(Run(cs[..i]).issued, Some(e))
      case Ok(None) => Run(cs[..i])
      case Ok(Some(st)) => Outcome(Run(cs[..i]).issued + [st], None)
  {
    assert cs[..i + 1][..i] == cs[..i];
  }

  /**
   * `autoload_all_files_relative_to(base)`: the lib directory is looked
   * up, the files the glob returns are read one by one, a file without
   * a matching constant is skipped, and the first error stops the loop.
   */
  method AutoloadAllFilesRelativeTo(base: string, glob: (string, string) -> seq<string>, read: (string, string) -> string)
    returns (issued: seq<Statement>, raised: Option<AutoloadError>)
    ensures Outcome(issued, raised) == Autoloads(base, glob, read)
  {
    match LibPath(base)
    case Err(e) =>
      return [], Some(e);
    case Ok((libdir, relative)) =>
      var files := glob(libdir, relative + "/*.rb");
      ghost var cs := Choices(libdir, files, read);
      issued := [];
      var i := 0;
      while i < |files|
        invariant 0 <= i <= |files|
        invariant Run(cs[..i]) == Outcome(issued, None)
      {
        var file := files[i];
        RunStep(cs, i);
        match Choose(file, read(libdir, file)) {
          case Err(e) =>
            RunStops(cs, i + 1);
            return issued, Some(e);
          case Ok(None) =>
          case Ok(Some(st)) =>
            issued := issued + [st];
        }
        i := i + 1;
      }
      assert cs[..i] == cs;
      return issued, None;
  }
}

=== FILE: dsl_definition.dfy ===
/**
 * The DSL's name spaces and object registry: `ObjectManager` keeps a stack
 * of context names and a table of named service objects, `Context` captures
 * the stack when a context is entered, and `DSL#context` coerces the name
 * it is given before entering the context.
 */
module DslDefinition {
  import opened Wrappers
  import opened RubyStrings

  // ---------------------------------------------------------------------
  // Context
  // ---------------------------------------------------------------------

  /** The object yielded to a context's block: the manager and a copy of the scope stack. */
  class Context {
    var manager: ObjectManager
    var scope: seq<string>

    constructor (manager: ObjectManager, scope: seq<string>)
      ensures this.manager == manager && this.scope == scope
    {
      this.manager := manager;
      this.scope := scope;
    }

    /**
     * The name of the binding `__binding__` builds: the scope joined with
     * dots. It names the scope again when no context name has a dot in it.
     */
    function Name(): (name: string)
      reads this
      ensures |scope| > 0 && (forall i :: 0 <= i < |scope| ==> '.' !in scope[i]) ==> Split(name, ".") == scope
      ensures |scope| == 1 ==> name == scope[0]
    {
      if |scope| > 0 && (forall i :: 0 <= i < |scope| ==> '.' !in scope[i]) then
        SplitJoin(scope, '.');
        Join(scope, ".")
      else
        Join(scope, ".")
    }
  }

  /** Two different scopes get the same name once a context name holds a dot. */
  lemma DottedNamesCollide()
    ensures Join(["test", "sub.context"], ".") == Join(["test", "sub", "context"], ".") == "test.sub.context"
  {
    assert Join(["context"], ".") == "context";
    assert ["test", "sub", "context"][1..] == ["sub", "context"];
    assert ["sub", "context"][1..] == ["context"];
    assert ["test", "sub.context"][1..] == ["sub.context"];
  }

  // ---------------------------------------------------------------------
  // Blocks
  // ---------------------------------------------------------------------

  /** What a context name passed to `DSL#context` can be. */
  datatype NameArg =
    | SymbolName(id: string)                 // a Symbol
    | StringName(s: string)                  // a String
    | ToStrName(converted: Option<string>)   // another object answering `to_str`: a String, or None when it returns something else
    | OtherName                              // anything else

  datatype DslError =
    | ArgumentError                          // "context name should be a Symbol or String (#to_str)"
    | RuntimeError(message: string)          // raised by the block itself

  /** `DSL#context`'s coercion of its name argument. */
  function ContextName(n: NameArg): (r: Result<string, DslError>)
    ensures r.Err? ==> r.error == ArgumentError
    ensures r.Ok? <==> n.SymbolName? || n.StringName? || (n.ToStrName? && n.converted.Some?)
    ensures n.SymbolName? ==> r == Ok(n.id)
    ensures n.StringName? ==> r == Ok(n.s)
    ensures n.ToStrName? && n.converted.Some? ==> r == Ok(n.converted.value)
  {
    match n
    case SymbolName(id) => Ok(id)
    case StringName(s) => Ok(s)
    case ToStrName(converted) => if converted.Some? then Ok(converted.value) else Err(ArgumentError)
    case OtherName => Err(ArgumentError)
  }

  /** A statement of a block run inside a context. */
  datatype Step =
    | Nest(name: NameArg, body: seq<Step>)   // `context name do body end`
    | ObserveScope                           // reads `PryOps.application.current_scope`
    | Raise(message: string)                 // `raise message`

  /** What a block does: the scopes it observed, in order, and the exception it ended with, if any. */
  datatype Trace = Trace(observed: seq<seq<string>>, raised: Option<DslError>)

  /** Running `steps` one after the other with scope stack `scope`, stopping at the first exception. */
  function RunBlock(scope: seq<string>, steps: seq<Step>): (r: Trace)
    decreases steps, 1
    ensures r.raised.Some? <==> exists i :: 0 <= i < |steps| && RunStep(scope, steps[i]).raised.Some?
    ensures r.raised.None? ==> forall i :: 0 <= i < |steps| ==> RunStep(scope, steps[i]).raised.None?
  {
    if |steps| == 0 then Trace([], None)
    else
      var first := RunStep(scope, steps[0]);
      if first.raised.Some? then first
      else
        var rest := RunBlock(scope, steps[1..]);
        assert forall i :: 1 <= i < |steps| ==> steps[i] == steps[1..][i - 1];
        Trace(first.observed + rest.observed, rest.raised)
  }

  function RunStep(scope: seq<string>, step: Step): Trace
    decreases step, 0
  {
    match step
    case ObserveScope => Trace([scope], None)
    case Raise(message) => Trace([], Some(RuntimeError(message)))
    case Nest(name, body) =>
      match ContextName(name)
      case Err(e) => Trace([], Some(e))
      case Ok(s) => RunBlock(scope + [s], body)
  }

  /** Every scope a block observes extends the scope it was started in. */
  lemma {:induction false} BlockObservesExtensions(scope: seq<string>, steps: seq<Step>)
    ensures forall i :: 0 <= i < |RunBlock(scope, steps).observed| ==> scope <= RunBlock(scope, steps).observed[i]
    decreases steps, 1
  {
    if |steps| > 0 {
      StepObservesExtensions(scope, steps[0]);
      if RunStep(scope, steps[0]).raised.None? {
        BlockObservesExtensions(scope, steps[1..]);
      }
    }
  }

  lemma {:induction false} StepObservesExtensions(scope: seq<string>, step: Step)
    ensures forall i :: 0 <= i < |RunStep(scope, step).observed| ==> scope <= RunStep(scope, step).observed[i]
    decreases step, 0
  {
    match step
    case ObserveScope =>
    case Raise(_) =>
    case Nest(name, body) =>
      match ContextName(name)
      case Err(_) =>
      case Ok(s) =>
        BlockObservesExtensions(scope + [s], body);
        forall i | 0 <= i < |RunBlock(scope + [s], body).observed|
          ensures scope <= RunBlock(scope + [s], body).observed[i]
        {
          assert scope <= scope + [s];
        }
  }

  /** `spec/dsl_spec.rb`: inside `context :test`, the current scope is `['test']`. */
  lemma TopLevelNameSpace()
    ensures RunBlock([], [Nest(SymbolName("test"), [ObserveScope])]) == Trace([["test"]], None)
  {
    var inner := RunBlock(["test"], [ObserveScope]);
    assert inner == Trace([["test"]], None) by {
      assert [ObserveScope][1..] == [];
    }
    var empty: seq<string> := [];
    assert empty + ["test"] == ["test"];
    assert RunStep([], Nest(SymbolName("test"), [ObserveScope])) == inner;
    assert [Nest(SymbolName("test"), [ObserveScope])][1..] == [];
  }

  /** `spec/dsl_spec.rb`: `context "sub.context"` inside `context :test` joins to `test.sub.context`. */
  lemma NestedNameSpaces()
    ensures var t := RunBlock([], [Nest(SymbolName("test"), [Nest(StringName("sub.context"), [ObserveScope])])]);
      t.raised == None && |t.observed| == 1 && Join(t.observed[0], ".") == "test.sub.context"
  {
    var innermost := RunBlock(["test", "sub.context"], [ObserveScope]);
    assert innermost == Trace([["test", "sub.context"]], None) by {
      assert [ObserveScope][1..] == [];
    }
    var middle := RunBlock(["test"], [Nest(StringName("sub.context"), [ObserveScope])]);
    assert middle == innermost by {
      assert [Nest(StringName("sub.context"), [ObserveScope])][1..] == [];
      assert ["test"] + ["sub.context"] == ["test", "sub.context"];
    }
    assert [Nest(SymbolName("test"), [Nest(StringName("sub.context"), [ObserveScope])])][1..] == [];
    DottedNamesCollide();
  }

  // ---------------------------------------------------------------------
  // The registry
  // ---------------------------------------------------------------------

  /** A service object as `object_class.new(object_name, *args)` builds it. */
  datatype Instance = Instance(objectClass: string, name: string, args: seq<string>)

  /** "<object_class> <object_name> cannot be redefined" */
  datatype InternError = CannotBeRedefined(objectClass: string, name: string)

  /** What `intern` returns when the table is `table`. */
  function InternResult(table: map<string, Instance>, objectClass: string, name: string, args: seq<string>): (r: Result<Instance, InternError>)
    ensures r.Err? <==> |args| > 0 && name in table
    ensures r.Err? ==> r.error == CannotBeRedefined(objectClass, name)
    ensures r.Ok? && name in table ==> r.value == table[name]
    ensures name !in table ==> r == Ok(Instance(objectClass, name, args))
  {
    if |args| > 0 && name in table then Err(CannotBeRedefined(objectClass, name))
    else if name in table then Ok(table[name])
    else Ok(Instance(objectClass, name, args))
  }

  /** The table after `intern`: `table[name] ||= object_class.new(name, *args)` unless it raised first. */
  function InternTable(table: map<string, Instance>, objectClass: string, name: string, args: seq<string>): (t: map<string, Instance>)
    ensures t.Keys == table.Keys + {name}
    ensures forall k :: k in table ==> t[k] == table[k]
    ensures name !in table ==> t[name] == Instance(objectClass, name, args)
  {
    if name in table then table else table[name := Instance(objectClass, name, args)]
  }

  /** After a successful `intern`, the table holds the returned object under the name. */
  lemma InternStores(table: map<string, Instance>, objectClass: string, name: string, args: seq<string>)
    ensures var r := InternResult(table, objectClass, name, args);
      r.Ok? ==> name in InternTable(table, objectClass, name, args) && InternTable(table, objectClass, name, args)[name] == r.value
  {
  }

  /** A refused redefinition leaves the table as it was; nothing else is refused. */
  lemma InternRefusesRedefinition(table: map<string, Instance>, objectClass: string, name: string, args: seq<string>)
    ensures InternResult(table, objectClass, name, args).Err? <==> |args| > 0 && name in table
    ensures InternResult(table, objectClass, name, args).Err? ==> InternTable(table, objectClass, name, args) == table
  {
  }

  /** `intern` touches no other name. */
  lemma InternKeepsOthers(table: map<string, Instance>, objectClass: string, name: string, args: seq<string>, other: string)
    requires other != name
    ensures var t := InternTable(table, objectClass, name, args);
      (other in t <==> other in table) && (other in table ==> t[other] == table[other])
  {
  }

  /** Interning a name again without arguments returns the same object and changes nothing. */
  lemma InternIdempotent(table: map<string, Instance>, objectClass: string, name: string, args: seq<string>, objectClass2: string)
    requires InternResult(table, objectClass, name, args).Ok?
    ensures var t := InternTable(table, objectClass, name, args);
      && InternResult(t, objectClass2, name, []) == InternResult(table, objectClass, name, args)
      && InternTable(t, objectClass2, name, []) == t
  {
  }

  /** The manager: a scope stack and a hash of services in insertion order. */
  class ObjectManager {
    var scope: seq<string>
    var services: map<string, Instance>
    var serviceOrder: seq<string>

    /** The hash's insertion order lists each of its keys once. */
    ghost predicate Valid()
      reads this
    {
      && (forall k :: k in services <==> k in serviceOrder)
      && (forall i, j :: 0 <= i < j < |serviceOrder| ==> serviceOrder[i] != serviceOrder[j])
    }

    constructor ()
      ensures scope == [] && services == map[] && serviceOrder == []
      ensures Valid()
    {
      scope := [];
      services := map[];
      serviceOrder := [];
    }

    /** `services`: the hash's values in insertion order. */
    function Services(): (r: seq<Instance>)
      requires Valid()
      reads this
      ensures |r| == |serviceOrder|
      ensures forall i :: 0 <= i < |r| ==> serviceOrder[i] in services && r[i] == services[serviceOrder[i]]
      ensures forall i :: 0 <= i < |r| ==> r[i] in services.Values
      ensures forall k :: k in services ==> services[k] in r
    {
      var order, table := serviceOrder, services;
      var r := seq(|order|, i requires 0 <= i < |order| => table[order[i]]);
      assert forall k :: k in table ==> table[k] in r by {
        forall k | k in table
          ensures table[k] in r
        {
          var i :| 0 <= i < |order| && order[i] == k;
          assert r[i] == table[k];
        }
      }
      r
    }

    /** `current_scope`: a copy of the stack, outermost context first. */
    function CurrentScope(): (r: seq<string>)
      reads this
      ensures r == scope
    {
      scope
    }

    /**
     * `intern(:@services, object_class, object_name, *args)`: refuses to
     * redefine a name when arguments are given, otherwise returns the object
     * stored under the name, creating and appending it when there is none.
     */
    method Intern(objectClass: string, name: string, args: seq<string>) returns (r: Result<Instance, InternError>)
      requires Valid()
      modifies this
      ensures Valid()
      ensures r == InternResult(old(services), objectClass, name, args)
      ensures services == (if r.Ok? then InternTable(old(services), objectClass, name, args) else old(services))
      ensures serviceOrder == (if r.Ok? && name !in old(services) then old(serviceOrder) + [name] else old(serviceOrder))
      ensures scope == old(scope)
    {
      if |args| > 0 && name in services {
        return Err(CannotBeRedefined(objectClass, name));
      }
      if name !in services {
        services := services[name := Instance(objectClass, name, args)];
        serviceOrder := serviceOrder + [name];
      }
      r := Ok(services[name]);
    }

    /**
     * `in_context(name, &block)`: pushes the name, builds the context,
     * runs the block and pops the name again whether or not the block raised.
     */
    method InContext(name: string, body: seq<Step>) returns (r: Result<Context, DslError>, observed: seq<seq<string>>)
      modifies this
      decreases body, 2
      ensures scope == old(scope) && services == old(services) && serviceOrder == old(serviceOrder)
      ensures observed == RunBlock(old(scope) + [name], body).observed
      ensures r.Err? <==> RunBlock(old(scope) + [name], body).raised.Some?
      ensures r.Err? ==> r.error == RunBlock(old(scope) + [name], body).raised.value
      ensures r.Ok? ==> fresh(r.value) && r.value.manager == this && r.value.scope == old(scope) + [name]
    {
      scope := scope + [name];
      var context := new Context(this, scope);
      var raised;
      raised, observed := RunSteps(body);
      scope := scope[..|scope| - 1];
      if raised.Some? {
        r := Err(raised.value);
      } else {
        r := Ok(context);
      }
    }

    /** Runs the statements of a block in order, stopping at the first exception. */
    method RunSteps(steps: seq<Step>) returns (raised: Option<DslError>, observed: seq<seq<string>>)
      modifies this
      decreases steps, 1
      ensures scope == old(scope) && services == old(services) && serviceOrder == old(serviceOrder)
      ensures Trace(observed, raised) == RunBlock(old(scope), steps)
    {
      if |steps| == 0 {
        return None, [];
      }
      var firstRaised, firstObserved := RunOne(steps[0]);
      if firstRaised.Some? {
        return firstRaised, firstObserved;
      }
      var restObserved;
      raised, restObserved := RunSteps(steps[1..]);
      observed := firstObserved + restObserved;
    }

    /** Runs one statement; a nested `context` goes through `DSL#context`. */
    method RunOne(step: Step) returns (raised: Option<DslError>, observed: seq<seq<string>>)
      modifies this
      decreases step, 3
      ensures scope == old(scope) && services == old(services) && serviceOrder == old(serviceOrder)
      ensures Trace(observed, raised) == RunStep(old(scope), step)
    {
      match step
      case ObserveScope =>
        raised, observed := None, [CurrentScope()];
      case Raise(message) =>
        raised, observed := Some(RuntimeError(message)), [];
      case Nest(n, body) =>
        var r;
        r, observed := DslContext(this, n, body);
        raised := if r.Err? then Some(r.error) else None;
    }
  }

  /**
   * `DSL#context(name, &block)`: a Symbol becomes its name, an object
   * answering `to_str` its string, anything else raises ArgumentError;
   * then the application's manager enters the context.
   */
  method DslContext(application: ObjectManager, name: NameArg, body: seq<Step>) returns (r: Result<Context, DslError>, observed: seq<seq<string>>)
    modifies application
    decreases body, 3
    ensures application.scope == old(application.scope)
    ensures application.services == old(application.services) && application.serviceOrder == old(application.serviceOrder)
    ensures ContextName(name).Err? ==> r == Err(ArgumentError) && observed == []
    ensures observed == RunStep(old(application.scope), Nest(name, body)).observed
    ensures r.Err? <==> RunStep(old(application.scope), Nest(name, body)).raised.Some?
    ensures r.Err? ==> r.error == RunStep(old(application.scope), Nest(name, body)).raised.value
    ensures r.Ok? ==> fresh(r.value) && r.value.scope == old(application.scope) + [ContextName(name).value]
  {
    match ContextName(name)
    case Err(e) =>
      return Err(e), [];
    case Ok(s) =>
      r, observed := application.InContext(s, body);
  }
}

=== FILE: enumerable_filter.dfy ===
/**
 * The type-preserving wrappers of `PryOps::Util::EnumerableFilter::EnumerableFilter`:
 * `select`, `reject` and `group_by` compute what Enumerable computes and hand
 * the result back wrapped in a new instance of the receiver's class.
 */
module EnumerableFilter {
  import opened Enumerables

  /**
   * A class that includes the mixin: an enumerable whose constructor takes
   * an array of elements and which enumerates exactly those elements.
   */
  class Collection<T> {
    var elements: seq<T>

    constructor (es: seq<T>)
      ensures elements == es
    {
      elements := es;
    }

    /** `select`: a new instance holding the elements for which `p` holds, in order. */
    method Select(p: T -> bool) returns (c: Collection<T>)
      ensures fresh(c)
      ensures c.elements == Enumerables.Select(elements, p)
      ensures forall x :: x in c.elements <==> x in elements && p(x)
    {
      c := new Collection(Enumerables.Select(elements, p));
      SelectMembers(elements, p);
    }

    /** `reject`: a new instance holding the elements for which `p` fails, in order. */
    method Reject(p: T -> bool) returns (c: Collection<T>)
      ensures fresh(c)
      ensures c.elements == Enumerables.Reject(elements, p)
      ensures forall x :: x in c.elements <==> x in elements && !p(x)
    {
      c := new Collection(Enumerables.Reject(elements, p));
      SelectMembers(elements, p);
    }

    /**
     * `group_by`: Enumerable#group_by's hash, whose every value is then
     * replaced, key by key, by a new instance wrapping that group.
     */
    method GroupBy<K(==)>(key: T -> K) returns (hash: seq<(K, Collection<T>)>)
      ensures Contents(hash) == Enumerables.GroupBy(elements, key)
      ensures GroupsOf(Contents(hash), elements, key)
      ensures forall j :: 0 <= j < |hash| ==> fresh(hash[j].1)
      ensures forall i, j :: 0 <= i < j < |hash| ==> hash[i].1 != hash[j].1
    {
      var groups := Enumerables.GroupBy(elements, key);
      hash := [];
      var i := 0;
      while i < |groups|
        invariant i <= |groups| && |hash| == i
        invariant forall j :: 0 <= j < i ==> hash[j].0 == groups[j].0 && hash[j].1.elements == groups[j].1
        invariant forall j :: 0 <= j < i ==> fresh(hash[j].1)
        invariant forall j, j' :: 0 <= j < j' < i ==> hash[j].1 != hash[j'].1
      {
        var c := new Collection(groups[i].1);
        hash := hash + [(groups[i].0, c)];
        i := i + 1;
      }
      ContentsAre(hash, groups);
      GroupByIsGrouping(elements, key);
    }
  }

  /** The hash with every wrapped group read back as its elements. */
  ghost function Contents<K, T>(hash: seq<(K, Collection<T>)>): (g: seq<(K, seq<T>)>)
    reads set j | 0 <= j < |hash| :: hash[j].1
    ensures |g| == |hash|
  {
    if |hash| == 0 then []
    else [(hash[0].0, hash[0].1.elements)] + Contents(hash[1..])
  }

  lemma {:induction false} ContentsAre<K, T>(hash: seq<(K, Collection<T>)>, g: seq<(K, seq<T>)>)
    requires |hash| == |g|
    requires forall j :: 0 <= j < |g| ==> hash[j].0 == g[j].0 && hash[j].1.elements == g[j].1
    ensures Contents(hash) == g
  {
    if |g| > 0 {
      ContentsAre(hash[1..], g[1..]);
      assert g == [g[0]] + g[1..];
    }
  }
}

=== FILE: enumerables.dfy ===
/**
 * The parts of Ruby's Enumerable, Array and Hash that the core relies on:
 * `select`, `reject`, `group_by` (a Hash whose keys keep first-occurrence
 * order), `sort` with a comparison block, and `reduce(:+)` without a seed.
 */
module Enumerables {
  import opened Wrappers

  // ---------------------------------------------------------------------
  // select / reject
  // ---------------------------------------------------------------------

  /** Enumerable#select: the elements for which `p` holds, in their original order. */
  function Select<T>(xs: seq<T>, p: T -> bool): (r: seq<T>)
    ensures |r| <= |xs|
    ensures forall i :: 0 <= i < |r| ==> p(r[i])
  {
    if |xs| == 0 then [] else (if p(xs[0]) then [xs[0]] else []) + Select(xs[1..], p)
  }

  /** Enumerable#reject: the elements for which `p` fails, in their original order. */
  function Reject<T>(xs: seq<T>, p: T -> bool): (r: seq<T>)
    ensures |r| <= |xs|
    ensures forall i :: 0 <= i < |r| ==> !p(r[i])
  {
    Select(xs, x => !p(x))
  }

  /** Selecting from a concatenation selects from each part: order is kept. */
  lemma {:induction false} SelectAppend<T>(a: seq<T>, b: seq<T>, p: T -> bool)
    ensures Select(a + b, p) == Select(a, p) + Select(b, p)
  {
    if |a| == 0 {
      assert a + b == b;
    } else {
      assert (a + b)[1..] == a[1..] + b;
      SelectAppend(a[1..], b, p);
    }
  }

  /** `select` and `reject` with the same block split the elements between them. */
  lemma {:induction false} SelectRejectPartition<T>(xs: seq<T>, p: T -> bool)
    ensures |Select(xs, p)| + |Reject(xs, p)| == |xs|
    ensures multiset(Select(xs, p)) + multiset(Reject(xs, p)) == multiset(xs)
  {
    if |xs| > 0 {
      SelectRejectPartition(xs[1..], p);
      assert xs == [xs[0]] + xs[1..];
    }
  }

  /** An element lands on exactly one side of the partition. */
  lemma SelectRejectMembership<T>(xs: seq<T>, p: T -> bool, x: T)
    requires x in xs
    ensures (x in Select(xs, p)) == p(x)
    ensures (x in Reject(xs, p)) == !p(x)
  {
    SelectRejectPartition(xs, p);
    assert x in multiset(xs);
    if p(x) {
      assert x !in Reject(xs, p);
      assert multiset(Select(xs, p))[x] > 0;
      assert multiset(xs)[x] > 0;
    } else {
      assert x !in Select(xs, p);
      assert x in multiset(Reject(xs, p));
    }
  }

  /** An element is selected exactly when it is present and the block holds for it, and rejected exactly when it fails. */
  lemma SelectMembers<T>(xs: seq<T>, p: T -> bool)
    ensures forall x :: x in Select(xs, p) <==> x in xs && p(x)
    ensures forall x :: x in Reject(xs, p) <==> x in xs && !p(x)
  {
    SelectRejectPartition(xs, p);
    forall x | x in Select(xs, p) || x in Reject(xs, p)
      ensures x in xs
    {
      if x in Select(xs, p) {
        assert multiset(Select(xs, p))[x] > 0;
      } else {
        assert multiset(Reject(xs, p))[x] > 0;
      }
      assert multiset(xs)[x] > 0;
    }
    forall x | x in xs
      ensures (x in Select(xs, p) <==> p(x)) && (x in Reject(xs, p) <==> !p(x))
    {
      SelectRejectMembership(xs, p, x);
    }
  }

  // ---------------------------------------------------------------------
  // group_by: a Hash from block result to the elements, keys in first-occurrence order
  // ---------------------------------------------------------------------

  /** The block `x => key(x) == k` that picks the members of group `k`. */
  function HasKey<T, K(==)>(key: T -> K, k: K): T -> bool
  {
    x => key(x) == k
  }

  /** The keys of an insertion-ordered hash, in order. */
  function Keys<K, V>(g: seq<(K, V)>): (ks: seq<K>)
    ensures |ks| == |g|
    ensures forall j :: 0 <= j < |g| ==> ks[j] == g[j].0
  {
    if |g| == 0 then [] else [g[0].0] + Keys(g[1..])
  }

  ghost predicate DistinctKeys<K, V>(g: seq<(K, V)>)
  {
    forall i, j :: 0 <= i < j < |g| ==> g[i].0 != g[j].0
  }

  /** The total number of elements over all groups. */
  function SumSizes<K, T>(g: seq<(K, seq<T>)>): int
  {
    if |g| == 0 then 0 else |g[0].1| + SumSizes(g[1..])
  }

  /** `hash[k] << x`, creating the entry `k => [x]` at the end when `k` is new. */
  function AddToGroup<K(==), T>(g: seq<(K, seq<T>)>, k: K, x: T): (r: seq<(K, seq<T>)>)
    ensures |g| <= |r| <= |g| + 1
  {
    if |g| == 0 then [(k, [x])]
    else if g[0].0 == k then [(k, g[0].1 + [x])] + g[1..]
    else [g[0]] + AddToGroup(g[1..], k, x)
  }

  /** Enumerable#group_by: each element is appended to the group of its key. */
  function GroupBy<T, K(==)>(xs: seq<T>, key: T -> K): (g: seq<(K, seq<T>)>)
    ensures |g| <= |xs|
  {
    if |xs| == 0 then []
    else AddToGroup(GroupBy(xs[..|xs| - 1], key), key(xs[|xs| - 1]), xs[|xs| - 1])
  }

  lemma {:induction false} AddToGroupKeys<K, T>(g: seq<(K, seq<T>)>, k: K, x: T)
    ensures Keys(AddToGroup(g, k, x)) == if k in Keys(g) then Keys(g) else Keys(g) + [k]
  {
    var r := AddToGroup(g, k, x);
    if |g| > 0 && g[0].0 != k {
      AddToGroupKeys(g[1..], k, x);
      assert Keys(g) == [g[0].0] + Keys(g[1..]);
      assert Keys(r) == [g[0].0] + Keys(r[1..]);
    } else if |g| > 0 {
      assert Keys(g)[0] == k;
      assert r[1..] == g[1..];
      assert Keys(r) == [k] + Keys(g[1..]) == Keys(g);
    }
  }

  lemma {:induction false} AddToGroupSizes<K, T>(g: seq<(K, seq<T>)>, k: K, x: T)
    ensures SumSizes(AddToGroup(g, k, x)) == SumSizes(g) + 1
  {
    if |g| > 0 && g[0].0 != k {
      AddToGroupSizes(g[1..], k, x);
    } else if |g| > 0 {
      assert AddToGroup(g, k, x)[1..] == g[1..];
    }
  }

  /** Dropping the first entry keeps the keys distinct. */
  lemma DistinctTail<K, V>(g: seq<(K, V)>)
    requires |g| > 0 && DistinctKeys(g)
    ensures DistinctKeys(g[1..])
  {
    forall i, j | 0 <= i < j < |g| - 1
      ensures g[1..][i].0 != g[1..][j].0
    {
      assert g[1..][i] == g[i + 1] && g[1..][j] == g[j + 1];
    }
  }

  /** An existing group gains `x` exactly when its key is `k`; its key stays. */
  lemma {:induction false} AddToGroupAt<K, T>(g: seq<(K, seq<T>)>, k: K, x: T, j: nat)
    requires DistinctKeys(g) && j < |g|
    ensures AddToGroup(g, k, x)[j] == (g[j].0, g[j].1 + (if g[j].0 == k then [x] else []))
  {
    var r := AddToGroup(g, k, x);
    if g[0].0 == k {
      assert r == [(k, g[0].1 + [x])] + g[1..];
      if j > 0 {
        assert g[0].0 != g[j].0;
        assert r[j] == g[1..][j - 1] == g[j];
        assert g[j].1 + [] == g[j].1;
      }
    } else {
      assert r == [g[0]] + AddToGroup(g[1..], k, x);
      if j > 0 {
        DistinctTail(g);
        AddToGroupAt(g[1..], k, x, j - 1);
      }
    }
  }

  /** A new key gets the group `[x]` at the end; the other groups are unchanged. */
  lemma {:induction false} AddToGroupNew<K, T>(g: seq<(K, seq<T>)>, k: K, x: T)
    requires k !in Keys(g)
    ensures var r := AddToGroup(g, k, x); |r| == |g| + 1 && r[|g|] == (k, [x])
  {
    if |g| > 0 {
      assert Keys(g) == [g[0].0] + Keys(g[1..]);
      AddToGroupNew(g[1..], k, x);
    }
  }

  lemma AddToGroupDistinct<K, T>(g: seq<(K, seq<T>)>, k: K, x: T)
    requires DistinctKeys(g)
    ensures DistinctKeys(AddToGroup(g, k, x))
  {
    var r := AddToGroup(g, k, x);
    AddToGroupKeys(g, k, x);
    forall i, j | 0 <= i < j < |r| ensures r[i].0 != r[j].0 {
      assert Keys(r)[i] == r[i].0 && Keys(r)[j] == r[j].0;
      if j < |g| {
        assert Keys(g)[i] == g[i].0 && Keys(g)[j] == g[j].0;
      } else {
        assert Keys(g)[i] == g[i].0;
      }
    }
  }

  /** The keys of the hash are distinct. */
  lemma {:induction false} GroupByDistinct<T, K>(xs: seq<T>, key: T -> K)
    ensures DistinctKeys(GroupBy(xs, key))
  {
    if |xs| > 0 {
      var init, x := xs[..|xs| - 1], xs[|xs| - 1];
      GroupByDistinct(init, key);
      AddToGroupDistinct(GroupBy(init, key), key(x), x);
    }
  }

  /** The groups together hold as many elements as the input. */
  lemma {:induction false} GroupBySizes<T, K>(xs: seq<T>, key: T -> K)
    ensures SumSizes(GroupBy(xs, key)) == |xs|
  {
    if |xs| > 0 {
      var init, x := xs[..|xs| - 1], xs[|xs| - 1];
      GroupBySizes(init, key);
      AddToGroupSizes(GroupBy(init, key), key(x), x);
    }
  }

  /** Adding to a group keeps every key and adds `k`. */
  lemma AddToGroupKeepsKeys<K, T>(g: seq<(K, seq<T>)>, k: K, x: T)
    ensures forall k' :: k' in Keys(g) ==> k' in Keys(AddToGroup(g, k, x))
    ensures k in Keys(AddToGroup(g, k, x))
  {
    AddToGroupKeys(g, k, x);
  }

  /** Every element's key is a key of the hash. */
  lemma {:induction false} GroupByCovers<T, K>(xs: seq<T>, key: T -> K)
    ensures forall i :: 0 <= i < |xs| ==> key(xs[i]) in Keys(GroupBy(xs, key))
  {
    if |xs| > 0 {
      var init, x := xs[..|xs| - 1], xs[|xs| - 1];
      GroupByCovers(init, key);
      AddToGroupKeepsKeys(GroupBy(init, key), key(x), x);
      forall i | 0 <= i < |xs|
        ensures key(xs[i]) in Keys(GroupBy(xs, key))
      {
        if i < |init| {
          assert xs[i] == init[i];
        }
      }
    }
  }

  /** A key that is not in the hash selects nothing. */
  lemma {:induction false} GroupByOtherKeys<T, K>(xs: seq<T>, key: T -> K, k: K)
    requires k !in Keys(GroupBy(xs, key))
    ensures Select(xs, HasKey(key, k)) == []
  {
    if |xs| > 0 {
      var init, x := xs[..|xs| - 1], xs[|xs| - 1];
      assert xs == init + [x];
      AddToGroupKeepsKeys(GroupBy(init, key), key(x), x);
      GroupByOtherKeys(init, key, k);
      SelectAppend(init, [x], HasKey(key, k));
      SelectOne(x, key, k);
    }
  }

  /** Selecting from a one-element list. */
  lemma SelectOne<T, K>(x: T, key: T -> K, k: K)
    ensures Select([x], HasKey(key, k)) == if key(x) == k then [x] else []
  {
    assert [x][1..] == [];
  }

  /** An old group of `GroupBy(init + [x])` gains `x` exactly when `x` has its key. */
  lemma GroupByOldGroup<T, K>(init: seq<T>, x: T, key: T -> K, j: nat)
    requires DistinctKeys(GroupBy(init, key)) && j < |GroupBy(init, key)|
    requires var g0 := GroupBy(init, key); g0[j].1 == Select(init, HasKey(key, g0[j].0)) && g0[j].1 != []
    ensures var g := GroupBy(init + [x], key);
      j < |g| && g[j].1 == Select(init + [x], HasKey(key, g[j].0)) && g[j].1 != []
  {
    var xs := init + [x];
    assert xs[..|xs| - 1] == init;
    var g0 := GroupBy(init, key);
    AddToGroupAt(g0, key(x), x, j);
    SelectAppend(init, [x], HasKey(key, g0[j].0));
    SelectOne(x, key, g0[j].0);
  }

  /** A group that `GroupBy(init + [x])` adds holds only `x`. */
  lemma GroupByNewGroup<T, K>(init: seq<T>, x: T, key: T -> K)
    requires |GroupBy(init, key)| < |GroupBy(init + [x], key)|
    ensures var g := GroupBy(init + [x], key); var j := |GroupBy(init, key)|;
      j < |g| && g[j].1 == Select(init + [x], HasKey(key, g[j].0)) && g[j].1 != []
  {
    var xs := init + [x];
    assert xs[..|xs| - 1] == init;
    var g0 := GroupBy(init, key);
    AddToGroupKeys(g0, key(x), x);
    AddToGroupNew(g0, key(x), x);
    GroupByOtherKeys(init, key, key(x));
    SelectAppend(init, [x], HasKey(key, key(x)));
    SelectOne(x, key, key(x));
  }

  /** Each group holds exactly the elements with its key, in their original order, and is not empty. */
  lemma {:induction false} GroupByGroups<T, K>(xs: seq<T>, key: T -> K)
    ensures var g := GroupBy(xs, key);
      forall j :: 0 <= j < |g| ==> g[j].1 == Select(xs, HasKey(key, g[j].0)) && g[j].1 != []
  {
    if |xs| > 0 {
      var init, x := xs[..|xs| - 1], xs[|xs| - 1];
      assert xs == init + [x];
      var g0 := GroupBy(init, key);
      GroupByGroups(init, key);
      GroupByDistinct(init, key);
      forall j | 0 <= j < |GroupBy(xs, key)|
        ensures GroupBy(xs, key)[j].1 == Select(xs, HasKey(key, GroupBy(xs, key)[j].0)) && GroupBy(xs, key)[j].1 != []
      {
        if j < |g0| {
          GroupByOldGroup(init, x, key, j);
        } else {
          GroupByNewGroup(init, x, key);
        }
      }
    }
  }

  /** `g` is what group_by returns for `xs` and `key`. */
  ghost predicate GroupsOf<T, K>(g: seq<(K, seq<T>)>, xs: seq<T>, key: T -> K)
  {
    && DistinctKeys(g)
    && SumSizes(g) == |xs|
    && (forall i :: 0 <= i < |xs| ==> key(xs[i]) in Keys(g))
    && (forall j :: 0 <= j < |g| ==> g[j].1 == Select(xs, HasKey(key, g[j].0)) && g[j].1 != [])
  }

  /**
   * group_by yields one group per distinct key: the groups hold exactly the
   * elements with their key, in order, and account for every element once.
   */
  lemma GroupByIsGrouping<T, K>(xs: seq<T>, key: T -> K)
    ensures GroupsOf(GroupBy(xs, key), xs, key)
  {
    GroupByDistinct(xs, key);
    GroupBySizes(xs, key);
    GroupByCovers(xs, key);
    GroupByGroups(xs, key);
  }

  /** The position of the first element whose key is `k`, or `|xs|` when there is none. */
  function FirstWithKey<T, K(==)>(xs: seq<T>, key: T -> K, k: K): (i: nat)
    ensures i <= |xs|
    ensures i < |xs| ==> key(xs[i]) == k
    ensures forall j :: 0 <= j < i ==> key(xs[j]) != k
  {
    if |xs| == 0 then 0
    else
      var f := FirstWithKey(xs[..|xs| - 1], key, k);
      if f < |xs| - 1 || key(xs[|xs| - 1]) == k then f else |xs|
  }

  /** Appending an element moves no first occurrence, and gives a new key its first one at the end. */
  lemma FirstWithKeyAppend<T, K>(init: seq<T>, x: T, key: T -> K, k: K)
    ensures var f := FirstWithKey(init, key, k);
      FirstWithKey(init + [x], key, k) == if f < |init| || key(x) == k then f else |init| + 1
  {
    assert (init + [x])[..|init|] == init;
  }

  /** group_by's keys come in the order in which they first occur among the elements. */
  lemma {:induction false} GroupByKeyOrder<T, K>(xs: seq<T>, key: T -> K)
    ensures forall i :: 0 <= i < |GroupBy(xs, key)| ==> FirstWithKey(xs, key, GroupBy(xs, key)[i].0) < |xs|
    ensures forall i, j :: 0 <= i < j < |GroupBy(xs, key)| ==>
      FirstWithKey(xs, key, GroupBy(xs, key)[i].0) < FirstWithKey(xs, key, GroupBy(xs, key)[j].0)
  {
    if |xs| > 0 {
      var init, x := xs[..|xs| - 1], xs[|xs| - 1];
      assert xs == init + [x];
      var g0, g := GroupBy(init, key), GroupBy(xs, key);
      GroupByKeyOrder(init, key);
      GroupByCovers(init, key);
      AddToGroupKeys(g0, key(x), x);
      forall i | 0 <= i < |g|
        ensures FirstWithKey(xs, key, g[i].0) == if i < |g0| then FirstWithKey(init, key, g0[i].0) else |init|
      {
        GroupByFirstAt(init, x, key, i);
      }
    }
  }

  /** After appending `x`, an old group keeps its first occurrence and a new group's is `x`'s position. */
  lemma GroupByFirstAt<T, K>(init: seq<T>, x: T, key: T -> K, i: nat)
    requires i < |GroupBy(init + [x], key)|
    requires i < |GroupBy(init, key)| ==> FirstWithKey(init, key, GroupBy(init, key)[i].0) < |init|
    requires forall m :: 0 <= m < |init| ==> key(init[m]) in Keys(GroupBy(init, key))
    ensures FirstWithKey(init + [x], key, GroupBy(init + [x], key)[i].0) ==
      if i < |GroupBy(init, key)| then FirstWithKey(init, key, GroupBy(init, key)[i].0) else |init|
  {
    var xs := init + [x];
    assert xs[..|xs| - 1] == init;
    var g0, g := GroupBy(init, key), GroupBy(xs, key);
    AddToGroupKeys(g0, key(x), x);
    assert g[i].0 == Keys(g)[i];
    FirstWithKeyAppend(init, x, key, g[i].0);
    if i < |g0| {
      assert g[i].0 == Keys(g0)[i] == g0[i].0;
    } else {
      assert g[i].0 == key(x) && key(x) !in Keys(g0);
    }
  }

  /** The sum of `f` over every element of every group. */
  function GroupSum<K, T>(g: seq<(K, seq<T>)>, f: T -> int): int
  {
    if |g| == 0 then 0 else SumOf(g[0].1, f) + GroupSum(g[1..], f)
  }

  lemma {:induction false} AddToGroupSum<K, T>(g: seq<(K, seq<T>)>, k: K, x: T, f: T -> int)
    ensures GroupSum(AddToGroup(g, k, x), f) == GroupSum(g, f) + f(x)
  {
    if |g| > 0 && g[0].0 != k {
      AddToGroupSum(g[1..], k, x, f);
    } else if |g| > 0 {
      assert AddToGroup(g, k, x)[1..] == g[1..];
      SumOfAppend(g[0].1, [x], f);
      assert [x][1..] == [];
    } else {
      var r := AddToGroup(g, k, x);
      assert r == [(k, [x])] && r[1..] == [] && [x][1..] == [];
      assert SumOf([x], f) == f(x);
      assert GroupSum(r, f) == SumOf([x], f) + GroupSum(r[1..], f);
    }
  }

  /** Summing group by group gives the sum over all elements. */
  lemma {:induction false} GroupBySum<T, K>(xs: seq<T>, key: T -> K, f: T -> int)
    ensures GroupSum(GroupBy(xs, key), f) == SumOf(xs, f)
  {
    if |xs| > 0 {
      var init, x := xs[..|xs| - 1], xs[|xs| - 1];
      assert xs == init + [x];
      GroupBySum(init, key, f);
      AddToGroupSum(GroupBy(init, key), key(x), x, f);
      SumOfAppend(init, [x], f);
    }
  }

  // ---------------------------------------------------------------------
  // sort with a comparison block
  // ---------------------------------------------------------------------

  /** Places `x` before the first element it may precede under `le`. */
  function InsertBy<R>(x: R, s: seq<R>, le: (R, R) -> bool): (r: seq<R>)
    ensures |r| == |s| + 1
  {
    if |s| == 0 then [x]
    else if le(x, s[0]) then [x] + s
    else [s[0]] + InsertBy(x, s[1..], le)
  }

  /**
   * Array#sort with a block: a permutation of `s` ordered by `le`. Ruby's
   * sort is not stable; which of two rows that `le` ties comes first is
   * this model's choice, and nothing below depends on it.
   */
  function SortBy<R>(s: seq<R>, le: (R, R) -> bool): (r: seq<R>)
    ensures |r| == |s|
  {
    if |s| == 0 then [] else InsertBy(s[0], SortBy(s[1..], le), le)
  }

  ghost predicate TotalOrder<R(!new)>(le: (R, R) -> bool)
  {
    && (forall a, b :: le(a, b) || le(b, a))
    && (forall a, b, c :: le(a, b) && le(b, c) ==> le(a, c))
  }

  ghost predicate SortedBy<R>(s: seq<R>, le: (R, R) -> bool)
  {
    forall i, j :: 0 <= i < j < |s| ==> le(s[i], s[j])
  }

  lemma {:induction false} InsertByPermutes<R>(x: R, s: seq<R>, le: (R, R) -> bool)
    ensures multiset(InsertBy(x, s, le)) == multiset(s) + multiset{x}
  {
    if |s| > 0 && !le(x, s[0]) {
      InsertByPermutes(x, s[1..], le);
      assert s == [s[0]] + s[1..];
    }
  }

  /** Sorting only reorders. */
  lemma {:induction false} SortByPermutes<R>(s: seq<R>, le: (R, R) -> bool)
    ensures multiset(SortBy(s, le)) == multiset(s)
  {
    if |s| > 0 {
      SortByPermutes(s[1..], le);
      InsertByPermutes(s[0], SortBy(s[1..], le), le);
      assert s == [s[0]] + s[1..];
    }
  }

  lemma {:induction false} InsertBySorted<R(!new)>(x: R, s: seq<R>, le: (R, R) -> bool)
    requires TotalOrder(le)
    requires SortedBy(s, le)
    ensures SortedBy(InsertBy(x, s, le), le)
  {
    if |s| > 0 && !le(x, s[0]) {
      var t := InsertBy(x, s[1..], le);
      InsertBySorted(x, s[1..], le);
      InsertByPermutes(x, s[1..], le);
      forall j | 0 <= j < |t|
        ensures le(s[0], t[j])
      {
        assert t[j] in multiset(t);
        if t[j] != x {
          assert t[j] in multiset(s[1..]);
          var k :| 0 <= k < |s[1..]| && s[1..][k] == t[j];
          assert s[k + 1] == t[j];
        }
      }
    } else if |s| > 0 {
      forall j | 0 <= j < |s| ensures le(x, s[j]) {
        if j > 0 { assert le(s[0], s[j]); }
      }
    }
  }

  /** Under a total order the result of sorting is ordered. */
  lemma {:induction false} SortBySorted<R(!new)>(s: seq<R>, le: (R, R) -> bool)
    requires TotalOrder(le)
    ensures SortedBy(SortBy(s, le), le)
  {
    if |s| > 0 {
      SortBySorted(s[1..], le);
      InsertBySorted(s[0], SortBy(s[1..], le), le);
    }
  }

  /** No two elements share a key. */
  ghost predicate DistinctBy<R, K>(s: seq<R>, key: R -> K)
  {
    forall i, j :: 0 <= i < j < |s| ==> key(s[i]) != key(s[j])
  }

  lemma {:induction false} AtMostOnce<R, K>(s: seq<R>, key: R -> K, x: R)
    requires DistinctBy(s, key)
    ensures multiset(s)[x] <= 1
  {
    if |s| > 0 {
      assert s == [s[0]] + s[1..];
      assert DistinctBy(s[1..], key) by {
        forall i, j | 0 <= i < j < |s[1..]|
          ensures key(s[1..][i]) != key(s[1..][j])
        {
          assert s[1..][i] == s[i + 1] && s[1..][j] == s[j + 1];
        }
      }
      AtMostOnce(s[1..], key, x);
      if s[0] == x {
        forall k | 0 <= k < |s[1..]|
          ensures s[1..][k] != x
        {
          assert key(s[k + 1]) != key(s[0]);
        }
        assert x !in s[1..];
      }
    }
  }

  lemma TwiceAt<R>(s: seq<R>, i: nat, j: nat)
    requires i < j < |s| && s[i] == s[j]
    ensures multiset(s)[s[i]] >= 2
  {
    assert s == s[..j] + [s[j]] + s[j + 1..];
    assert s[..j][i] == s[i];
  }

  /** Reordering keeps the keys distinct. */
  lemma PermutationKeepsDistinct<R, K>(a: seq<R>, b: seq<R>, key: R -> K)
    requires multiset(a) == multiset(b)
    requires DistinctBy(a, key)
    ensures DistinctBy(b, key)
  {
    forall i, j | 0 <= i < j < |b|
      ensures key(b[i]) != key(b[j])
    {
      if key(b[i]) == key(b[j]) {
        assert b[i] in multiset(a) && b[j] in multiset(a);
        var p :| 0 <= p < |a| && a[p] == b[i];
        var q :| 0 <= q < |a| && a[q] == b[j];
        if p == q {
          TwiceAt(b, i, j);
          AtMostOnce(a, key, b[i]);
          assert false;
        } else {
          assert false;
        }
      }
    }
  }

  /**
   * A three-way comparison `<=>` that orders its values totally: 0 exactly
   * on equal values, antisymmetric in sign, and transitive.
   */
  ghost predicate Comparator<K(!new)>(cmp: (K, K) -> int)
  {
    && (forall a, b :: cmp(a, b) == 0 <==> a == b)
    && (forall a, b :: cmp(a, b) < 0 <==> cmp(b, a) > 0)
    && (forall a, b, c :: cmp(a, b) <= 0 && cmp(b, c) <= 0 ==> cmp(a, c) <= 0)
  }

  /** The first element of a row, the key of a `[key, value]` pair. */
  function PairKey<K, V>(p: (K, V)): K
  {
    p.0
  }

  /** The block `{ |a, b| a[0] <=> b[0] }`: rows ordered by their keys. */
  function KeyLe<K, V>(cmp: (K, K) -> int): ((K, V), (K, V)) -> bool
  {
    (p: (K, V), q: (K, V)) => cmp(p.0, q.0) <= 0
  }

  lemma KeyLeTotal<K(!new), V(!new)>(cmp: (K, K) -> int)
    requires Comparator(cmp)
    ensures TotalOrder(KeyLe<K, V>(cmp))
  {
    var le := KeyLe<K, V>(cmp);
    forall p: (K, V), q: (K, V)
      ensures le(p, q) || le(q, p)
    {
      assert cmp(p.0, q.0) <= 0 || cmp(q.0, p.0) <= 0;
    }
    forall p: (K, V), q: (K, V), r: (K, V) | le(p, q) && le(q, r)
      ensures le(p, r)
    {
      assert cmp(p.0, q.0) <= 0 && cmp(q.0, r.0) <= 0;
    }
  }

  /** Integer#<=>. */
  function IntCompare(a: int, b: int): (r: int)
    ensures r < 0 <==> a < b
    ensures r == 0 <==> a == b
  {
    if a < b then -1 else if a == b then 0 else 1
  }

  /**
   * String#<=>: characters compared in order, and a proper prefix before
   * the longer string.
   */
  function StringCompare(a: string, b: string): (r: int)
    ensures -1 <= r <= 1
  {
    if |a| == 0 && |b| == 0 then 0
    else if |a| == 0 then -1
    else if |b| == 0 then 1
    else if a[0] < b[0] then -1
    else if a[0] > b[0] then 1
    else StringCompare(a[1..], b[1..])
  }

  lemma {:induction false} StringCompareZero(a: string, b: string)
    ensures StringCompare(a, b) == 0 <==> a == b
  {
    if |a| > 0 && |b| > 0 && a[0] == b[0] {
      StringCompareZero(a[1..], b[1..]);
      assert a == [a[0]] + a[1..] && b == [b[0]] + b[1..];
    }
  }

  lemma {:induction false} StringCompareFlip(a: string, b: string)
    ensures StringCompare(a, b) == -StringCompare(b, a)
  {
    if |a| > 0 && |b| > 0 && a[0] == b[0] {
      StringCompareFlip(a[1..], b[1..]);
    }
  }

  lemma {:induction false} StringCompareTransitive(a: string, b: string, c: string)
    requires StringCompare(a, b) <= 0 && StringCompare(b, c) <= 0
    ensures StringCompare(a, c) <= 0
  {
    if |a| > 0 && |b| > 0 && |c| > 0 && a[0] == b[0] == c[0] {
      StringCompareTransitive(a[1..], b[1..], c[1..]);
    }
  }

  /** String#<=> orders strings totally. */
  lemma StringCompareOrders()
    ensures Comparator(StringCompare)
  {
    forall a, b
      ensures StringCompare(a, b) == 0 <==> a == b
      ensures StringCompare(a, b) < 0 <==> StringCompare(b, a) > 0
    {
      StringCompareZero(a, b);
      StringCompareFlip(a, b);
    }
    forall a, b, c | StringCompare(a, b) <= 0 && StringCompare(b, c) <= 0
      ensures StringCompare(a, c) <= 0
    {
      StringCompareTransitive(a, b, c);
    }
  }

  // ---------------------------------------------------------------------
  // sums and reduce(:+)
  // ---------------------------------------------------------------------

  /** The sum of `f` over the elements. */
  function SumOf<R>(s: seq<R>, f: R -> int): int
  {
    if |s| == 0 then 0 else f(s[0]) + SumOf(s[1..], f)
  }

  lemma {:induction false} SumOfAppend<R>(a: seq<R>, b: seq<R>, f: R -> int)
    ensures SumOf(a + b, f) == SumOf(a, f) + SumOf(b, f)
  {
    if |a| == 0 {
      assert a + b == b;
    } else {
      assert (a + b)[1..] == a[1..] + b;
      SumOfAppend(a[1..], b, f);
    }
  }

  lemma {:induction false} InsertBySum<R>(x: R, s: seq<R>, le: (R, R) -> bool, f: R -> int)
    ensures SumOf(InsertBy(x, s, le), f) == f(x) + SumOf(s, f)
  {
    if |s| > 0 && !le(x, s[0]) {
      InsertBySum(x, s[1..], le, f);
    } else if |s| > 0 {
      assert ([x] + s)[1..] == s;
    }
  }

  /** Sorting does not change a sum over the rows. */
  lemma {:induction false} SortBySum<R>(s: seq<R>, le: (R, R) -> bool, f: R -> int)
    ensures SumOf(SortBy(s, le), f) == SumOf(s, f)
  {
    if |s| > 0 {
      SortBySum(s[1..], le, f);
      InsertBySum(s[0], SortBy(s[1..], le), le, f);
    }
  }

  /** What `reduce(:+)` without a seed yields: nil, an integer, or a raised error. */
  datatype Reduced = Nil | Total(n: int) | Raises

  /**
   * Enumerable#inject(:+) continuing from `acc`: `nil + y` raises
   * NoMethodError and `n + nil` raises TypeError.
   */
  function InjectPlus(acc: Option<int>, xs: seq<Option<int>>): Reduced
    decreases |xs|
  {
    if |xs| == 0 then (if acc.Some? then Total(acc.value) else Nil)
    else if acc.None? || xs[0].None? then Raises
    else InjectPlus(Some(acc.value + xs[0].value), xs[1..])
  }

  /** `xs.reduce(:+)`: the first element is the seed, so `[] -> nil` and `[x] -> x`. */
  function ReducePlus(xs: seq<Option<int>>): (r: Reduced)
    ensures r.Nil? <==> |xs| == 0 || (|xs| == 1 && xs[0].None?)
    ensures r.Total? <==> |xs| > 0 && AllPresent(xs)
    ensures r.Total? ==> r.n == SumPresent(xs)
  {
    if |xs| == 0 then Nil
    else
      InjectPlusClosedForm(xs[0], xs[1..]);
      assert AllPresent(xs) <==> xs[0].Some? && AllPresent(xs[1..]);
      InjectPlus(xs[0], xs[1..])
  }

  ghost predicate AllPresent(xs: seq<Option<int>>)
  {
    forall i :: 0 <= i < |xs| ==> xs[i].Some?
  }

  /** The sum of the present items. */
  function SumPresent(xs: seq<Option<int>>): int
  {
    if |xs| == 0 then 0 else (if xs[0].Some? then xs[0].value else 0) + SumPresent(xs[1..])
  }

  lemma {:induction false} InjectPlusClosedForm(acc: Option<int>, xs: seq<Option<int>>)
    ensures InjectPlus(acc, xs) ==
      if |xs| == 0 && acc.None? then Nil
      else if acc.Some? && AllPresent(xs) then Total(acc.value + SumPresent(xs))
      else Raises
    decreases |xs|
  {
    if |xs| > 0 && acc.Some? && xs[0].Some? {
      InjectPlusClosedForm(Some(acc.value + xs[0].value), xs[1..]);
      assert AllPresent(xs) == AllPresent(xs[1..]);
    }
  }

  /**
   * `reduce(:+)` in closed form: nil for an empty list and for a lone nil,
   * the sum when every item is present, and a raised error when a nil meets `+`.
   */
  lemma ReducePlusClosedForm(xs: seq<Option<int>>)
    ensures ReducePlus(xs) ==
      if |xs| == 0 || (|xs| == 1 && xs[0].None?) then Nil
      else if AllPresent(xs) then Total(SumPresent(xs))
      else Raises
  {
    if |xs| > 0 {
      InjectPlusClosedForm(xs[0], xs[1..]);
      assert AllPresent(xs) <==> xs[0].Some? && AllPresent(xs[1..]);
    }
  }
}

=== FILE: log_line.dfy ===
/**
 * One access-log line and the request line inside it
 * (lib/pry-ops/util/access_log.rb, class AccessLog::Entry and the regular
 * expression in AccessLog#parse).
 *
 * Each regular expression is written out as a matcher that tries the
 * alternatives in the order Ruby's engine does: a greedy repetition tries
 * the longest run first and gives back one character at a time, an
 * optional group tries "present" before "absent", an alternation tries its
 * left branch first. Where a greedy run of one character class must be
 * followed by a character outside that class, only the longest run can
 * succeed, and the matcher takes that run directly (`RunEnd`). Ruby's `^`
 * holds at the start of the string and after every newline, so a match is
 * searched for at each line start in turn (`FirstLineMatch`); `.` does not
 * match a newline, while negated classes such as `[^"]` do.
 */
module LogLine {
  import opened Wrappers
  import opened LogShapes

  // ---------------------------------------------------------------------
  // Character classes and runs
  // ---------------------------------------------------------------------

  /** The character classes used by the regular expressions of the core. */
  datatype CharClass =
    | Digit            // \d
    | DigitOrDot       // [\d.]
    | AnyButNewline    // .
    | NotRBracket      // [^\]]
    | NotQuote         // [^"]
    | NotSpace         // [^ ]
    | NotSpaceOrQuery  // [^? ]

  predicate InClass(c: char, cls: CharClass)
  {
    match cls
    case Digit => '0' <= c <= '9'
    case DigitOrDot => '0' <= c <= '9' || c == '.'
    case AnyButNewline => c != '\n'
    case NotRBracket => c != ']'
    case NotQuote => c != '"'
    case NotSpace => c != ' '
    case NotSpaceOrQuery => c != ' ' && c != '?'
  }

  ghost predicate AllIn(s: string, cls: CharClass)
  {
    forall k :: 0 <= k < |s| ==> InClass(s[k], cls)
  }

  /** The end of the longest run of `cls` characters that starts at `i`. */
  function RunEnd(s: string, i: nat, cls: CharClass): (j: nat)
    requires i <= |s|
    ensures i <= j <= |s|
    ensures forall k {:trigger InClass(s[k], cls)} :: i <= k < j ==> InClass(s[k], cls)
    ensures j == |s| || !InClass(s[j], cls)
    decreases |s| - i
  {
    if i == |s| || !InClass(s[i], cls) then i else RunEnd(s, i + 1, cls)
  }

  /** A run is determined by where it stops. */
  lemma {:induction false} RunEndIs(s: string, i: nat, cls: CharClass, j: nat)
    requires i <= j <= |s|
    requires forall k :: i <= k < j ==> InClass(s[k], cls)
    requires j == |s| || !InClass(s[j], cls)
    ensures RunEnd(s, i, cls) == j
    decreases j - i
  {
    if i < j {
      RunEndIs(s, i + 1, cls, j);
    }
  }

  /** The characters of a run, taken as a slice, are all in the class. */
  lemma RunSliceAllIn(s: string, i: nat, cls: CharClass)
    requires i <= |s|
    ensures AllIn(s[i..RunEnd(s, i, cls)], cls)
  {
    var j := RunEnd(s, i, cls);
    forall k | 0 <= k < j - i
      ensures InClass(s[i..j][k], cls)
    {
      assert s[i..j][k] == s[i + k];
    }
  }

  // ---------------------------------------------------------------------
  // `^`: trying each line start in turn
  // ---------------------------------------------------------------------

  /**
   * Where Ruby's `^` holds: at the start, and right after each newline
   * that is not the last character.
   */
  predicate AtLineStart(s: string, i: nat)
  {
    i == 0 || (0 < i < |s| && s[i - 1] == '\n')
  }

  /**
   * `s =~ /^.../`: the first line start at or after `i` at which the
   * matcher `m` succeeds, with what it captured.
   */
  function FirstLineMatch<X>(s: string, i: nat, m: (string, nat) -> Option<X>): (r: Option<(nat, X)>)
    requires i <= |s|
    ensures r.Some? ==> i <= r.value.0 <= |s| && AtLineStart(s, r.value.0) && m(s, r.value.0) == Some(r.value.1)
    ensures forall k :: i <= k <= |s| && AtLineStart(s, k) && (r.Some? ==> k < r.value.0) ==> m(s, k).None?
    decreases |s| - i
  {
    var here := if AtLineStart(s, i) then m(s, i) else None;
    if here.Some? then Some((i, here.value))
    else if i == |s| then None
    else FirstLineMatch(s, i + 1, m)
  }

  /** On a string without newlines `^` holds only at the start. */
  lemma SingleLineMatch<X>(s: string, m: (string, nat) -> Option<X>)
    requires '\n' !in s
    ensures FirstLineMatch(s, 0, m) == if m(s, 0).Some? then Some((0, m(s, 0).value)) else None
  {
  }

  // ---------------------------------------------------------------------
  // The log line:
  //   ^([\d.]+|-) .* \[([^\]]+)\] "((?:\\"|[^"])+)" (\d+)(?: (\d+))?(?: (\d+))? (\d+) "([^"]+)" "([^"]*)"
  // ---------------------------------------------------------------------

  ghost predicate IsNumber(t: string)
  {
    |t| > 0 && AllIn(t, Digit)
  }

  /** What a successful match guarantees about its captures. */
  ghost predicate WellFormedTail(t: Tail)
  {
    && IsNumber(t.status)
    && (t.serveTime.Some? ==> IsNumber(t.serveTime.value))
    && (t.bytesReceived.Some? ==> IsNumber(t.bytesReceived.value))
    && IsNumber(t.bytesSent)
    && |t.referer| > 0 && AllIn(t.referer, NotQuote)
    && AllIn(t.userAgent, NotQuote)
  }

  /** `(?:\\"|[^"])+` admits a quote only as the second half of `\"`. */
  ghost predicate QuotesEscaped(req: string)
  {
    forall k :: 0 <= k < |req| ==> EscapedAt(req, 0, k)
  }

  /** A quote at `k` is the second half of a `\"` that starts at or after `lo`. */
  ghost predicate EscapedAt(s: string, lo: nat, k: nat)
    requires k < |s|
  {
    s[k] == '"' ==> lo < k && s[k - 1] == '\\'
  }

  /** Every quote in `s[lo..e]` is the second half of a `\"` inside it. */
  ghost predicate EscapedFrom(s: string, lo: nat, e: nat)
    requires e <= |s|
  {
    forall k :: lo <= k < e ==> EscapedAt(s, lo, k)
  }

  /** `(?: (\d+))` at `p`: a space and the longest digit run after it, with where it ends. */
  function NumberAt(s: string, p: nat): (r: Option<(string, nat)>)
    ensures r.Some? ==> (p < r.value.1 <= |s| && IsNumber(r.value.0)
      && s[p] == ' ' && s[p + 1..r.value.1] == r.value.0)
    ensures r.Some? ==> r.value.1 == |s| || !InClass(s[r.value.1], Digit)
  {
    if p < |s| && s[p] == ' ' then
      var d := RunEnd(s, p + 1, Digit);
      if d > p + 1 then Some((s[p + 1..d], d)) else None
    else None
  }

  /** ` (\d+) "([^"]+)" "([^"]*)"` at `p`, after the optional groups were decided. */
  function AfterBytesReceived(s: string, status: string, serveTime: Option<string>,
                              bytesReceived: Option<string>, p: nat): (r: Option<Tail>)
    ensures r.Some? ==> (r.value.status == status && r.value.serveTime == serveTime
      && r.value.bytesReceived == bytesReceived)
    ensures r.Some? ==> (IsNumber(r.value.bytesSent) && |r.value.referer| > 0
      && AllIn(r.value.referer, NotQuote) && AllIn(r.value.userAgent, NotQuote))
  {
    match NumberAt(s, p)
    case None => None
    case Some((sent, d)) =>
      if !(d + 1 < |s| && s[d] == ' ' && s[d + 1] == '"') then None
      else
        var r0 := d + 2;
        var r1 := RunEnd(s, r0, NotQuote);
        if !(r1 > r0 && r1 + 2 < |s| && s[r1] == '"' && s[r1 + 1] == ' ' && s[r1 + 2] == '"') then None
        else
          var u0 := r1 + 3;
          var u1 := RunEnd(s, u0, NotQuote);
          if !(u1 < |s| && s[u1] == '"') then None
          else
            Some(Tail(status, serveTime, bytesReceived, sent, s[r0..r1], s[u0..u1]))
  }

  /**
   * `(?: (\d+))?(?: (\d+))?` from `p`, with the groups already decided in
   * `taken` (group 5 first): the next group is tried present before absent,
   * and once both are decided the rest of the line follows.
   */
  function OptionalNumbers(s: string, status: string, taken: seq<Option<string>>, p: nat): (r: Option<Tail>)
    requires |taken| <= 2 && IsNumber(status)
    requires forall k :: 0 <= k < |taken| && taken[k].Some? ==> IsNumber(taken[k].value)
    ensures r.Some? ==> r.value.status == status && WellFormedTail(r.value)
    ensures r.Some? && |taken| >= 1 ==> r.value.serveTime == taken[0]
    ensures r.Some? && |taken| == 2 ==> r.value.bytesReceived == taken[1]
    decreases 2 - |taken|
  {
    if |taken| == 2 then AfterBytesReceived(s, status, taken[0], taken[1], p)
    else
      var present :=
        match NumberAt(s, p)
        case Some((n, d)) => OptionalNumbers(s, status, taken + [Some(n)], d)
        case None => None;
      if present.Some? then present else OptionalNumbers(s, status, taken + [None], p)
  }

  /** `" (\d+)` from the request's closing quote `e`, then the optional numbers and the rest. */
  function TailAt(s: string, e: nat): (r: Option<Tail>)
    ensures r.Some? ==> WellFormedTail(r.value)
  {
    if !(e + 1 < |s| && s[e] == '"' && s[e + 1] == ' ') then None
    else
      var d := RunEnd(s, e + 2, Digit);
      if d == e + 2 then None
      else
        OptionalNumbers(s, s[e + 2..d], [], d)
  }

  /**
   * `((?:\\"|[^"])+)"...` with the repetition at position `j` (it began at
   * `c`): another iteration through `\\"`, then through `[^"]`, and only
   * then leaving the repetition here, which needs at least one iteration.
   * Yields where the request ends and what follows it.
   */
  function RequestLoop(s: string, c: nat, j: nat): (r: Option<(nat, Tail)>)
    requires c <= j
    ensures r.Some? ==> j <= r.value.0 <= |s| && c < r.value.0 && WellFormedTail(r.value.1)
    ensures r.Some? ==> EscapedFrom(s, j, r.value.0)
    decreases |s| - j
  {
    if j > |s| then None
    else if j + 1 < |s| && s[j] == '\\' && s[j + 1] == '"' && RequestLoop(s, c, j + 2).Some? then
      EscapedStep(s, j, 2, RequestLoop(s, c, j + 2).value.0);
      RequestLoop(s, c, j + 2)
    else if j < |s| && s[j] != '"' && RequestLoop(s, c, j + 1).Some? then
      EscapedStep(s, j, 1, RequestLoop(s, c, j + 1).value.0);
      RequestLoop(s, c, j + 1)
    else if c < j && TailAt(s, j).Some? then
      Some((j, TailAt(s, j).value))
    else None
  }

  /** The repetition is left where the tail matches, and yields that tail. */
  lemma {:induction false} RequestLoopTail(s: string, c: nat, j: nat)
    requires c <= j
    ensures var r := RequestLoop(s, c, j);
      r.Some? ==> TailAt(s, r.value.0) == Some(r.value.1)
    decreases |s| - j
  {
    if j + 1 < |s| && s[j] == '\\' && s[j + 1] == '"' && RequestLoop(s, c, j + 2).Some? {
      RequestLoopTail(s, c, j + 2);
    } else if j < |s| && s[j] != '"' && RequestLoop(s, c, j + 1).Some? {
      RequestLoopTail(s, c, j + 1);
    }
  }

  /** One more iteration, through `\\"` or through `[^"]`, keeps the quotes escaped. */
  lemma EscapedStep(s: string, j: nat, step: nat, e: nat)
    requires j + step <= e <= |s|
    requires step == 1 || step == 2
    requires step == 1 ==> s[j] != '"'
    requires step == 2 ==> s[j] == '\\' && s[j + 1] == '"'
    requires EscapedFrom(s, j + step, e)
    ensures EscapedFrom(s, j, e)
  {
    forall k | j <= k < e ensures EscapedAt(s, j, k) {
      if k >= j + step {
        assert EscapedAt(s, j + step, k);
      }
    }
  }

  /** Quotes escaped from `lo` on stay escaped in the slice that starts there. */
  lemma EscapedInSlice(s: string, lo: nat, e: nat)
    requires lo <= e <= |s|
    requires EscapedFrom(s, lo, e)
    ensures QuotesEscaped(s[lo..e])
  {
    forall k | 0 <= k < e - lo
      ensures EscapedAt(s[lo..e], 0, k)
    {
      assert EscapedAt(s, lo, lo + k);
    }
  }

  /** `([^\]]+)\] "` and the request from `a`, the character after `[`. */
  function AfterBracket(s: string, a: nat): (r: Option<Rest>)
    ensures r.Some? ==> |r.value.time| > 0 && AllIn(r.value.time, NotRBracket) && |r.value.request| > 0
    ensures r.Some? ==> QuotesEscaped(r.value.request)
    ensures r.Some? ==> WellFormedTail(r.value.tail)
  {
    if a > |s| then None
    else
      var b := RunEnd(s, a, NotRBracket);
      if !(b > a && b + 2 < |s| && s[b] == ']' && s[b + 1] == ' ' && s[b + 2] == '"') then None
      else
        var loop := RequestLoop(s, b + 3, b + 3);
        if loop.None? then None
        else
          EscapedInSlice(s, b + 3, loop.value.0);
          Some(Rest(s[a..b], s[b + 3..loop.value.0], loop.value.1))
  }

  /** ` .* \[`: `.*` gives back characters from the right, so the split point `q` descends from the longest run. */
  function GapSearch(s: string, p: nat, q: nat): (r: Option<Rest>)
    requires p <= q <= |s|
    ensures r.Some? ==> |r.value.time| > 0 && AllIn(r.value.time, NotRBracket) && |r.value.request| > 0
    ensures r.Some? ==> QuotesEscaped(r.value.request)
    ensures r.Some? ==> WellFormedTail(r.value.tail)
    decreases q - p
  {
    var here := if q + 1 < |s| && s[q] == ' ' && s[q + 1] == '[' then AfterBracket(s, q + 2) else None;
    if here.Some? then here
    else if q == p then None
    else GapSearch(s, p, q - 1)
  }

  /** `([\d.]+|-)`: the longest digit-and-dot run, or else a lone `-`; where it ends. */
  function SourceIpEnd(s: string, i: nat): (r: Option<nat>)
    requires i <= |s|
    ensures r.Some? ==> i < r.value <= |s|
    ensures r.Some? ==> s[i..r.value] == "-" || AllIn(s[i..r.value], DigitOrDot)
  {
    var j := RunEnd(s, i, DigitOrDot);
    if j > i then Some(j)
    else if i < |s| && s[i] == '-' then Some(i + 1)
    else None
  }

  /** The whole log-line expression, tried at line start `i`. */
  function MatchLogAt(s: string, i: nat): (r: Option<Fields>)
    ensures r.Some? ==> (
      && i + |r.value.sourceIp| < |s| && |r.value.sourceIp| > 0
      && (r.value.sourceIp == "-" || AllIn(r.value.sourceIp, DigitOrDot))
      && s[i..i + |r.value.sourceIp|] == r.value.sourceIp && s[i + |r.value.sourceIp|] == ' ')
    ensures r.Some? ==> |r.value.time| > 0 && AllIn(r.value.time, NotRBracket) && |r.value.request| > 0
    ensures r.Some? ==> QuotesEscaped(r.value.request)
    ensures r.Some? ==> WellFormedTail(r.value.tail)
  {
    if i > |s| then None
    else match SourceIpEnd(s, i)
      case None => None
      case Some(j) =>
        if !(j < |s| && s[j] == ' ') then None
        else
          var p := j + 1;
          match GapSearch(s, p, RunEnd(s, p, AnyButNewline))
          case None => None
          case Some(rest) =>
            Some(Fields(s[i..j], rest.time, rest.request, rest.tail))
  }

  /** `line =~ LOG_LINE`: the captures of the first line start that matches. */
  function MatchLogLine(line: string): (r: Option<Fields>)
    ensures r.Some? ==> exists i :: 0 <= i <= |line| && AtLineStart(line, i) && MatchLogAt(line, i) == r
    ensures r.None? ==> forall i :: 0 <= i <= |line| && AtLineStart(line, i) ==> MatchLogAt(line, i).None?
  {
    match FirstLineMatch(line, 0, MatchLogAt)
    case Some((_, f)) => Some(f)
    case None => None
  }

  /** `(?:\\"|[^"])+` lets a quote into the request only as the second half of `\"`. */
  lemma RequestQuotesEscaped(line: string)
    ensures MatchLogLine(line).Some? ==> QuotesEscaped(MatchLogLine(line).value.request)
  {
    var m := FirstLineMatch(line, 0, MatchLogAt);
    if m.Some? {
      assert MatchLogAt(line, m.value.0) == Some(m.value.1);
    }
  }

  /** Whether ` (\d+) "...` can follow `p` does not depend on what the optional groups captured. */
  lemma AfterBytesReceivedOnlyPosition(s: string, status: string, st1: Option<string>, br1: Option<string>,
                                       st2: Option<string>, br2: Option<string>, p: nat)
    ensures AfterBytesReceived(s, status, st1, br1, p).Some? == AfterBytesReceived(s, status, st2, br2, p).Some?
  {
  }

  /**
   * The optional groups fill from the left: a line with one optional number
   * gives it to serve time, so bytes received is never present without it.
   */
  lemma BytesReceivedNeedsServeTime(s: string, e: nat)
    ensures TailAt(s, e).Some? && TailAt(s, e).value.bytesReceived.Some? ==> TailAt(s, e).value.serveTime.Some?
  {
    if e + 1 < |s| && s[e] == '"' && s[e + 1] == ' ' {
      var d := RunEnd(s, e + 2, Digit);
      if d > e + 2 {
        var status := s[e + 2..d];
        assert TailAt(s, e) == OptionalNumbers(s, status, [], d);
        var none: Option<string> := None;
        assert [] + [none] == [none];
        var n5 := NumberAt(s, d);
        if n5.None? {
          assert [none] + [none] == [none, none];
          assert OptionalNumbers(s, status, [None], d) == AfterBytesReceived(s, status, None, None, d);
        } else {
          var n := n5.value.0;
          var d5 := n5.value.1;
          assert [] + [Some(n)] == [Some(n)];
          if OptionalNumbers(s, status, [Some(n)], d5).None? {
            // Group 6 taken from the first number would end where group 5 did:
            // the same continuation already failed with group 5 present.
            assert [Some(n)] + [None] == [Some(n), None];
            assert [None] + [Some(n)] == [None, Some(n)];
            assert [none] + [none] == [none, none];
            AfterBytesReceivedOnlyPosition(s, status, None, Some(n), Some(n), None, d5);
            assert OptionalNumbers(s, status, [None], d) == AfterBytesReceived(s, status, None, None, d);
          }
        }
      }
    }
  }

  // ---------------------------------------------------------------------
  // Timestamps, numbers and entries
  // ---------------------------------------------------------------------

  type Hour = h: int | 0 <= h < 24

  /**
   * What the core uses of a parsed DateTime: its hour and its
   * `strftime('%Y-%m-%d')` day.
   */
  datatype Timestamp = Timestamp(hour: Hour, day: string)

  /** One access-log entry (AccessLog::Entry); the attributes `parse` can leave nil are None. */
  datatype Entry = Entry(
    sourceIp: string,
    timestamp: Timestamp,
    request: string,
    status: int,
    serveTime: Option<int>,
    bytesReceived: Option<int>,
    bytesSent: int,
    referer: string,
    userAgent: string)
  {
    /**
     * Entry#bytes: `bytes_received + bytes_sent`. With bytes received nil
     * the addition raises, which None stands for.
     */
    function Bytes(): (r: Option<int>)
      ensures r.None? <==> bytesReceived.None?
      ensures r.Some? ==> r.value - bytesSent == bytesReceived.value
    {
      match bytesReceived
      case None => None
      case Some(received) => Some(received + bytesSent)
    }

    /** Entry#request_type: `^([^ ]+) ` on the request. */
    function RequestType(): (r: Option<string>)
      ensures r.Some? ==> |r.value| > 0 && ' ' !in r.value
    {
      Capture(request, RequestTypeAt)
    }

    /** Entry#request_uri: `^[^ ]+ ([^ ]+) ` on the request. */
    function RequestUri(): (r: Option<string>)
      ensures r.Some? ==> |r.value| > 0 && ' ' !in r.value
    {
      Capture(request, RequestUriAt)
    }

    /** Entry#request_path: `^[^ ]+ ([^? ]+)` on the request. */
    function RequestPath(): (r: Option<string>)
      ensures r.Some? ==> |r.value| > 0 && ' ' !in r.value && '?' !in r.value
    {
      Capture(request, RequestPathAt)
    }

    /** Entry#query_string: `^[^ ]+ [^ ]+(\?[^ ]+) ` on the request. */
    function QueryString(): (r: Option<string>)
      ensures r.Some? ==> |r.value| > 1 && r.value[0] == '?' && ' ' !in r.value
      ensures r.Some? ==> exists k :: SpaceFollows(request, k, r.value)
    {
      Capture(request, QueryStringAt)
    }

    /**
     * query_string as evidently intended: everything from the FIRST
     * question mark of the URI, `^[^ ]+ [^? ]+(\?[^ ]+) `.
     */
    function QueryStringFromFirstMark(): (r: Option<string>)
      ensures r.Some? ==> |r.value| > 1 && r.value[0] == '?' && ' ' !in r.value
    {
      Capture(request, QueryFromFirstMarkAt)
    }

    /** Entry#http_version: `^[^ ]+ [^ ]+ ([^ ]+)` on the request. */
    function HttpVersion(): (r: Option<string>)
      ensures r.Some? ==> |r.value| > 0 && ' ' !in r.value
    {
      Capture(request, HttpVersionAt)
    }
  }

  // ---------------------------------------------------------------------
  // The parts of the request line
  // ---------------------------------------------------------------------

  /** `request =~ /^...(...).../ ? $1 : nil`: the group captured at the first line start that matches. */
  function Capture(s: string, m: (string, nat) -> Option<string>): (r: Option<string>)
    ensures r.Some? ==> exists i :: 0 <= i <= |s| && AtLineStart(s, i) && m(s, i) == Some(r.value)
    ensures r.None? ==> forall i :: 0 <= i <= |s| && AtLineStart(s, i) ==> m(s, i).None?
  {
    match FirstLineMatch(s, 0, m)
    case Some((i, v)) => Some(v)
    case None => None
  }

  /** `[^ ]+ ` at `i`: where the word ends, provided a space follows it. */
  function WordBeforeSpace(s: string, i: nat): (r: Option<nat>)
    ensures r.Some? ==> i < r.value < |s| && s[r.value] == ' ' && forall x :: i <= x < r.value ==> s[x] != ' '
    ensures r.Some? <==> i < |s| && s[i] != ' ' && RunEnd(s, i, NotSpace) < |s|
  {
    if i >= |s| then None
    else
      var j := RunEnd(s, i, NotSpace);
      if i < j < |s| then Some(j) else None
  }

  /** `^([^ ]+) ` at line start `i`. */
  function RequestTypeAt(s: string, i: nat): (r: Option<string>)
    ensures r.Some? ==> |r.value| > 0 && ' ' !in r.value
  {
    match WordBeforeSpace(s, i)
    case None => None
    case Some(j) => Some(s[i..j])
  }

  /** `^[^ ]+ ([^ ]+) ` at line start `i`; each greedy word can only end at a space. */
  function RequestUriAt(s: string, i: nat): (r: Option<string>)
    ensures r.Some? ==> |r.value| > 0 && ' ' !in r.value
  {
    match WordBeforeSpace(s, i)
    case None => None
    case Some(j) =>
      match WordBeforeSpace(s, j + 1)
      case None => None
      case Some(k) => Some(s[j + 1..k])
  }

  /** `^[^ ]+ ([^? ]+)` at line start `i`; nothing needs to follow the path. */
  function RequestPathAt(s: string, i: nat): (r: Option<string>)
    ensures r.Some? ==> |r.value| > 0 && ' ' !in r.value && '?' !in r.value
  {
    match WordBeforeSpace(s, i)
    case None => None
    case Some(j) =>
      var k := RunEnd(s, j + 1, NotSpaceOrQuery);
      if k <= j + 1 then None
      else
        RunSliceAllIn(s, j + 1, NotSpaceOrQuery);
        Some(s[j + 1..k])
  }

  /** `t` occurs in `s` at `k` and a space comes right after it. */
  ghost predicate SpaceFollows(s: string, k: nat, t: string)
  {
    k + |t| < |s| && s[k..k + |t|] == t && s[k + |t|] == ' '
  }

  /** `^[^ ]+ [^ ]+(\?[^ ]+) ` at line start `i`. */
  function QueryStringAt(s: string, i: nat): (r: Option<string>)
    ensures r.Some? ==> |r.value| > 1 && r.value[0] == '?' && ' ' !in r.value
    ensures r.Some? ==> exists k :: SpaceFollows(s, k, r.value)
  {
    match WordBeforeSpace(s, i)
    case None => None
    case Some(j) => QuerySplit(s, j + 1, RunEnd(s, j + 1, NotSpace))
  }

  /**
   * `[^ ]+(\?[^ ]+) ` with the URI starting at `u`: the greedy `[^ ]+`
   * gives back characters from the right, so the question mark at `q` is
   * tried from the end of the URI towards its start.
   */
  function QuerySplit(s: string, u: nat, q: nat): (r: Option<string>)
    requires q <= |s|
    ensures r.Some? ==> |r.value| > 1 && r.value[0] == '?' && ' ' !in r.value
    ensures r.Some? ==> exists k :: SpaceFollows(s, k, r.value)
    decreases q
  {
    if q <= u then None
    else
      var here := if q < |s| && s[q] == '?' then WordBeforeSpace(s, q + 1) else None;
      if here.Some? then
        assert SpaceFollows(s, q, s[q..here.value]);
        Some(s[q..here.value])
      else QuerySplit(s, u, q - 1)
  }

  /** `^[^ ]+ [^? ]+(\?[^ ]+) ` at line start `i`: the URI's first question mark starts the query. */
  function QueryFromFirstMarkAt(s: string, i: nat): (r: Option<string>)
    ensures r.Some? ==> |r.value| > 1 && r.value[0] == '?' && ' ' !in r.value
  {
    match WordBeforeSpace(s, i)
    case None => None
    case Some(j) =>
      var e := RunEnd(s, j + 1, NotSpaceOrQuery);
      if j + 1 < e < |s| && s[e] == '?' then
        match WordBeforeSpace(s, e + 1)
        case None => None
        case Some(m) => Some(s[e..m])
      else None
  }

  /** `^[^ ]+ [^ ]+ ([^ ]+)` at line start `i`; nothing needs to follow the version. */
  function HttpVersionAt(s: string, i: nat): (r: Option<string>)
    ensures r.Some? ==> |r.value| > 0 && ' ' !in r.value
  {
    match WordBeforeSpace(s, i)
    case None => None
    case Some(j) =>
      match WordBeforeSpace(s, j + 1)
      case None => None
      case Some(k) =>
        var v := RunEnd(s, k + 1, NotSpace);
        if v > k + 1 then Some(s[k + 1..v]) else None
  }

  /** On a one-line request a capture is the matcher's result at the start. */
  lemma CaptureSingleLine(s: string, m: (string, nat) -> Option<string>)
    requires '\n' !in s
    ensures Capture(s, m) == m(s, 0)
  {
    SingleLineMatch(s, m);
  }

  /** Without newlines in the request, `^` anchors every getter at its start. */
  lemma SingleLineGetters(e: Entry)
    requires '\n' !in e.request
    ensures e.RequestType() == RequestTypeAt(e.request, 0)
    ensures e.RequestUri() == RequestUriAt(e.request, 0)
    ensures e.RequestPath() == RequestPathAt(e.request, 0)
    ensures e.QueryString() == QueryStringAt(e.request, 0)
    ensures e.QueryStringFromFirstMark() == QueryFromFirstMarkAt(e.request, 0)
    ensures e.HttpVersion() == HttpVersionAt(e.request, 0)
  {
    CaptureSingleLine(e.request, RequestTypeAt);
    CaptureSingleLine(e.request, RequestUriAt);
    CaptureSingleLine(e.request, RequestPathAt);
    CaptureSingleLine(e.request, QueryStringAt);
    CaptureSingleLine(e.request, QueryFromFirstMarkAt);
    CaptureSingleLine(e.request, HttpVersionAt);
  }

  /** `^([^ ]+) ` at the start: the text before the first space, when that is neither empty nor the whole string. */
  lemma TypeIsFirstWord(s: string)
    ensures var w := IndexOf(s, ' ');
      RequestTypeAt(s, 0) == if 0 < w < |s| then Some(s[..w]) else None
  {
    var w := IndexOf(s, ' ');
    assert forall k :: 0 <= k < w ==> s[..w][k] == s[k];
    RunEndIs(s, 0, NotSpace, w);
  }

  /** request_type is the text before the first space, and nil without a space or with a leading one. */
  lemma RequestTypeIsFirstWord(e: Entry)
    requires '\n' !in e.request
    ensures var w := IndexOf(e.request, ' ');
      e.RequestType() == if 0 < w < |e.request| then Some(e.request[..w]) else None
  {
    SingleLineGetters(e);
    TypeIsFirstWord(e.request);
  }

  /** The text from `i` up to the next space, or to the end when no space follows; empty past the end. */
  function UpToSpace(s: string, i: nat): (t: string)
    ensures |s| < i ==> t == ""
    ensures i + |t| <= |s| || t == ""
    ensures forall k :: 0 <= k < |t| ==> i + k < |s| && t[k] == s[i + k] && t[k] != ' '
    ensures i + |t| < |s| ==> s[i + |t|] == ' '
    decreases |s| - i
  {
    if |s| <= i || s[i] == ' ' then "" else [s[i]] + UpToSpace(s, i + 1)
  }

  /** The text up to the next space is the slice of `s` it spans. */
  lemma UpToSpaceSlice(s: string, i: nat)
    requires i <= |s|
    ensures UpToSpace(s, i) == s[i..i + |UpToSpace(s, i)|]
  {
    var t := UpToSpace(s, i);
    assert forall k :: 0 <= k < |t| ==> t[k] == s[i..i + |t|][k];
  }

  /** The run of non-spaces from `i` is the text up to the next space. */
  lemma RunToSpace(s: string, i: nat)
    requires i <= |s|
    ensures RunEnd(s, i, NotSpace) == i + |UpToSpace(s, i)|
  {
    var t := UpToSpace(s, i);
    forall x | i <= x < i + |t|
      ensures InClass(s[x], NotSpace)
    {
      assert s[x] == t[x - i];
    }
    RunEndIs(s, i, NotSpace, i + |t|);
  }

  /** `[^ ]+ ` at `i`: the word reaches the next space, when it is not empty and that space exists. */
  lemma WordToSpace(s: string, i: nat)
    ensures var t := UpToSpace(s, i);
      WordBeforeSpace(s, i) == if 0 < |t| && i + |t| < |s| then Some(i + |t|) else None
  {
    if i <= |s| {
      RunToSpace(s, i);
      if i < |s| && 0 < |UpToSpace(s, i)| {
        assert s[i] == UpToSpace(s, i)[0];
      }
    }
  }

  /**
   * `^[^ ]+ ([^ ]+) ` at the start: the second word, between the first and
   * the second space, when neither it nor the first word is empty.
   */
  lemma UriIsSecondWord(s: string)
    ensures var a := UpToSpace(s, 0);
      RequestUriAt(s, 0) ==
        if 0 < |a| < |s| && 0 < |UpToSpace(s, |a| + 1)| && |a| + 1 + |UpToSpace(s, |a| + 1)| < |s|
        then Some(UpToSpace(s, |a| + 1))
        else None
  {
    var a := UpToSpace(s, 0);
    var b: nat := |a| + 1;
    WordToSpace(s, 0);
    if 0 < |a| < |s| {
      WordToSpace(s, b);
      UpToSpaceSlice(s, b);
    }
  }

  /**
   * `^[^ ]+ [^ ]+ ([^ ]+)` at the start shares its first two words with
   * `^[^ ]+ ([^ ]+) `: there is no version without a URI, and otherwise the
   * version is the text after the space that ends the URI, up to the next
   * space or the end, when that text is not empty.
   */
  lemma VersionAfterUri(s: string)
    ensures RequestUriAt(s, 0).None? ==> HttpVersionAt(s, 0).None?
    ensures RequestUriAt(s, 0).Some? ==>
      var p := |UpToSpace(s, 0)| + |RequestUriAt(s, 0).value| + 2;
      HttpVersionAt(s, 0) == if 0 < |UpToSpace(s, p)| then Some(UpToSpace(s, p)) else None
  {
    match WordBeforeSpace(s, 0)
    case None =>
    case Some(j) =>
      match WordBeforeSpace(s, j + 1)
      case None =>
      case Some(k) =>
        WordToSpace(s, 0);
        VersionAfterWords(s, j, k);
  }

  /** With the first two words ending at `j` and `k`, the URI lies between them and the version follows `k`. */
  lemma VersionAfterWords(s: string, j: nat, k: nat)
    requires WordBeforeSpace(s, 0) == Some(j) && WordBeforeSpace(s, j + 1) == Some(k)
    ensures RequestUriAt(s, 0) == Some(s[j + 1..k])
    ensures HttpVersionAt(s, 0) == if 0 < |UpToSpace(s, k + 1)| then Some(UpToSpace(s, k + 1)) else None
  {
    WordAfterSpace(s, k);
  }

  /** The run of non-spaces after position `k` is the text from there up to the next space. */
  lemma WordAfterSpace(s: string, k: nat)
    requires k < |s|
    ensures var v := RunEnd(s, k + 1, NotSpace); var t := UpToSpace(s, k + 1);
      (if v > k + 1 then Some(s[k + 1..v]) else None) == (if 0 < |t| then Some(t) else None)
  {
    var i: nat := k + 1;
    RunToSpace(s, i);
    UpToSpaceSlice(s, i);
  }

  /** request_uri is the second word of a one-line request, followed by a space. */
  lemma RequestUriIsSecondWord(e: Entry)
    requires '\n' !in e.request
    ensures var s := e.request; var a := UpToSpace(s, 0);
      e.RequestUri() ==
        if 0 < |a| < |s| && 0 < |UpToSpace(s, |a| + 1)| && |a| + 1 + |UpToSpace(s, |a| + 1)| < |s|
        then Some(UpToSpace(s, |a| + 1))
        else None
  {
    CaptureSingleLine(e.request, RequestUriAt);
    UriIsSecondWord(e.request);
  }

  /** http_version is the word after the one request_uri takes, in a one-line request. */
  lemma HttpVersionAfterUri(e: Entry)
    requires '\n' !in e.request
    ensures e.RequestUri().None? ==> e.HttpVersion().None?
    ensures e.RequestUri().Some? ==>
      var s := e.request; var p := |UpToSpace(s, 0)| + |e.RequestUri().value| + 2;
      e.HttpVersion() == if 0 < |UpToSpace(s, p)| then Some(UpToSpace(s, p)) else None
  {
    CaptureSingleLine(e.request, RequestUriAt);
    CaptureSingleLine(e.request, HttpVersionAt);
    VersionAfterUri(e.request);
  }

  /** With the method word ending at `j` and the URI at `k`, the path run stops at the URI's first question mark. */
  lemma PathEndsAtFirstMark(s: string, j: nat, k: nat)
    requires WordBeforeSpace(s, 0) == Some(j)
    requires WordBeforeSpace(s, j + 1) == Some(k)
    ensures var u := s[j + 1..k]; var m := IndexOf(u, '?'); RunEnd(s, j + 1, NotSpaceOrQuery) == j + 1 + m
  {
    var u := s[j + 1..k];
    var m := IndexOf(u, '?');
    var p := j + 1 + m;
    forall x | j + 1 <= x < p
      ensures InClass(s[x], NotSpaceOrQuery)
    {
      assert s[x] == u[x - j - 1] == u[..m][x - j - 1];
    }
    assert p == |s| || !InClass(s[p], NotSpaceOrQuery) by {
      if m < |u| {
        assert s[p] == u[m];
      }
    }
    RunEndIs(s, j + 1, NotSpaceOrQuery, p);
  }

  /** The path is the URI before its first question mark, and nil when the URI starts with one. */
  lemma PathIsUriBeforeMark(s: string, j: nat, k: nat)
    requires WordBeforeSpace(s, 0) == Some(j)
    requires WordBeforeSpace(s, j + 1) == Some(k)
    ensures var u := s[j + 1..k]; var m := IndexOf(u, '?');
      && (RequestPathAt(s, 0).Some? <==> m > 0)
      && (RequestPathAt(s, 0).Some? ==> RequestPathAt(s, 0).value == u[..m])
  {
    PathEndsAtFirstMark(s, j, k);
    var u := s[j + 1..k];
    var m := IndexOf(u, '?');
    var p := j + 1 + m;
    if m > 0 {
      assert RequestPathAt(s, 0) == Some(s[j + 1..p]);
      forall x | 0 <= x < m ensures s[j + 1..p][x] == u[..m][x] {
        assert s[j + 1..p][x] == s[j + 1 + x] == u[x];
      }
      assert s[j + 1..p] == u[..m];
    }
  }

  /** The corrected query is the URI from its first question mark, when something follows that mark. */
  lemma QueryIsUriFromMark(s: string, j: nat, k: nat)
    requires WordBeforeSpace(s, 0) == Some(j)
    requires WordBeforeSpace(s, j + 1) == Some(k)
    ensures var u := s[j + 1..k]; var m := IndexOf(u, '?');
      && (QueryFromFirstMarkAt(s, 0).Some? <==> 0 < m < |u| - 1)
      && (QueryFromFirstMarkAt(s, 0).Some? ==> QueryFromFirstMarkAt(s, 0).value == u[m..])
  {
    PathEndsAtFirstMark(s, j, k);
    var u := s[j + 1..k];
    var m := IndexOf(u, '?');
    var p := j + 1 + m;
    if 0 < m < |u| - 1 {
      assert s[p] == u[m];
      forall x | p + 1 <= x < k
        ensures s[x] != ' '
      {
        assert s[x] == u[x - j - 1];
      }
      QueryAfterMark(s, j, p, k);
    } else if m == |u| - 1 {
      assert s[p + 1] == ' ';
      assert WordBeforeSpace(s, p + 1).None?;
    }
  }

  /** A question mark ending the path, followed by a word and a space, starts the query. */
  lemma QueryAfterMark(s: string, j: nat, p: nat, k: nat)
    requires WordBeforeSpace(s, 0) == Some(j)
    requires RunEnd(s, j + 1, NotSpaceOrQuery) == p
    requires j + 1 < p && p + 1 < k < |s| && s[p] == '?' && s[k] == ' '
    requires forall x :: p + 1 <= x < k ==> s[x] != ' '
    ensures QueryFromFirstMarkAt(s, 0) == Some(s[p..k])
  {
    RunEndIs(s, p + 1, NotSpace, k);
    assert WordBeforeSpace(s, p + 1) == Some(k);
  }

  /** Path and first-mark query at the start of a request that has a URI. */
  lemma PathAndQueryAt(s: string)
    requires RequestUriAt(s, 0).Some?
    ensures var u := RequestUriAt(s, 0).value; var m := IndexOf(u, '?');
      && (RequestPathAt(s, 0).Some? <==> m > 0)
      && (RequestPathAt(s, 0).Some? ==> RequestPathAt(s, 0).value == u[..m])
      && (QueryFromFirstMarkAt(s, 0).Some? <==> 0 < m < |u| - 1)
      && (QueryFromFirstMarkAt(s, 0).Some? ==> RequestPathAt(s, 0).value + QueryFromFirstMarkAt(s, 0).value == u)
  {
    var j := WordBeforeSpace(s, 0).value;
    var k := WordBeforeSpace(s, j + 1).value;
    var u := s[j + 1..k];
    assert RequestUriAt(s, 0) == Some(u);
    PathIsUriBeforeMark(s, j, k);
    QueryIsUriFromMark(s, j, k);
    var m := IndexOf(u, '?');
    if 0 < m < |u| - 1 {
      assert u[..m] + u[m..] == u;
    }
  }

  /**
   * On a one-line request with a URI, the path is the URI up to its first
   * question mark (nil when the URI starts with one), and the query taken
   * from the first question mark is the rest of the URI (nil unless that
   * mark has something after it): path and query put together give the URI.
   */
  lemma PathAndQueryFromFirstMark(e: Entry)
    requires '\n' !in e.request
    requires e.RequestUri().Some?
    ensures var u := e.RequestUri().value; var m := IndexOf(u, '?');
      && (e.RequestPath().Some? <==> m > 0)
      && (e.RequestPath().Some? ==> e.RequestPath().value == u[..m])
      && (e.QueryStringFromFirstMark().Some? <==> 0 < m < |u| - 1)
      && (e.QueryStringFromFirstMark().Some? ==> e.RequestPath().value + e.QueryStringFromFirstMark().value == u)
  {
    SingleLineGetters(e);
    PathAndQueryAt(e.request);
  }

  /** Why parsing a line raised. */
  datatype ParseError =
    | UnrecognizedLine(line: string)  // raise "unrecognized input line: ..."
    | InvalidDate(text: string)       // DateTime.parse raising on the captured time

  /** The index of the first `c` in `s`, or `|s|` when there is none. */
  function IndexOf(s: string, c: char): (k: nat)
    ensures k <= |s| && c !in s[..k]
    ensures k < |s| ==> s[k] == c
  {
    if |s| == 0 || s[0] == c then 0 else 1 + IndexOf(s[1..], c)
  }

  /** `t.sub(/:/, ' ')`: the first colon becomes a space, nothing else changes. */
  function SubFirstColon(t: string): (r: string)
    ensures |r| == |t|
    ensures forall k :: 0 <= k < |t| ==> r[k] == if k == IndexOf(t, ':') then ' ' else t[k]
  {
    if |t| == 0 then t
    else if t[0] == ':' then " " + t[1..]
    else [t[0]] + SubFirstColon(t[1..])
  }

  /** Only the first colon is replaced: the text before it has none. */
  lemma {:induction false} SubFirstColonSplits(a: string, b: string)
    requires ':' !in a
    ensures SubFirstColon(a + ":" + b) == a + " " + b
  {
    if |a| > 0 {
      assert (a + ":" + b)[1..] == a[1..] + ":" + b;
      SubFirstColonSplits(a[1..], b);
    } else {
      assert (a + ":" + b)[1..] == b;
    }
  }

  /** `String#to_i` on a run of decimal digits. */
  function DecimalValue(digits: string): (n: nat)
    ensures |digits| == 0 ==> n == 0
  {
    if |digits| == 0 then 0
    else 10 * DecimalValue(digits[..|digits| - 1]) + DigitValue(digits[|digits| - 1])
  }

  function DigitValue(c: char): nat
  {
    if '0' <= c <= '9' then (c as int) - ('0' as int) else 0
  }

  /** The decimal digits of `n`, without leading zeros: what `to_i` reads back. */
  function Decimal(n: nat): (d: string)
    ensures IsNumber(d)
    ensures |d| > 1 ==> d[0] != '0'
  {
    var last := ('0' as int + n % 10) as char;
    if n < 10 then [last] else Decimal(n / 10) + [last]
  }

  /** `to_i` reads back the number its decimal digits were written from. */
  lemma {:induction false} DecimalValueOfDecimal(n: nat)
    ensures DecimalValue(Decimal(n)) == n
  {
    var d := Decimal(n);
    var last := ('0' as int + n % 10) as char;
    assert d[|d| - 1] == last && DigitValue(last) == n % 10;
    if n >= 10 {
      assert d[..|d| - 1] == Decimal(n / 10);
      DecimalValueOfDecimal(n / 10);
    }
  }

  /**
   * The body of the loop in AccessLog#parse for one (chomped) line: the
   * regular expression, the Entry built from its groups (`to_i` on the
   * numbers, optional ones left nil), then DateTime.parse on the time with
   * its first colon replaced, which `parseTime` stands for.
   */
  function ParseLine(line: string, parseTime: string -> Option<Timestamp>): (r: Result<Entry, ParseError>)
    ensures MatchLogLine(line).None? <==> r == Err(UnrecognizedLine(line))
    ensures MatchLogLine(line).Some? && r.Err? ==>
      var text := SubFirstColon(MatchLogLine(line).value.time);
      r == Err(InvalidDate(text)) && parseTime(text).None?
    ensures r.Ok? ==> (
      && MatchLogLine(line).Some? && r.value.sourceIp == MatchLogLine(line).value.sourceIp
      && r.value.request == MatchLogLine(line).value.request
      && parseTime(SubFirstColon(MatchLogLine(line).value.time)) == Some(r.value.timestamp))
    ensures r.Ok? ==> (
      && r.value.serveTime.Some? == MatchLogLine(line).value.tail.serveTime.Some?
      && r.value.bytesReceived.Some? == MatchLogLine(line).value.tail.bytesReceived.Some?)
    ensures r.Ok? ==>
      var t := MatchLogLine(line).value.tail;
      && r.value.status == DecimalValue(t.status) && r.value.bytesSent == DecimalValue(t.bytesSent)
      && (t.serveTime.Some? ==> r.value.serveTime == Some(DecimalValue(t.serveTime.value)))
      && (t.bytesReceived.Some? ==> r.value.bytesReceived == Some(DecimalValue(t.bytesReceived.value)))
      && r.value.referer == t.referer && r.value.userAgent == t.userAgent
  {
    match MatchLogLine(line)
    case None => Err(UnrecognizedLine(line))
    case Some(f) =>
      var text := SubFirstColon(f.time);
      match parseTime(text)
      case None => Err(InvalidDate(text))
      case Some(ts) =>
        Ok(Entry(
          sourceIp := f.sourceIp,
          timestamp := ts,
          request := f.request,
          status := DecimalValue(f.tail.status),
          serveTime := if f.tail.serveTime.Some? then Some(DecimalValue(f.tail.serveTime.value)) else None,
          bytesReceived := if f.tail.bytesReceived.Some? then Some(DecimalValue(f.tail.bytesReceived.value)) else None,
          bytesSent := DecimalValue(f.tail.bytesSent),
          referer := f.tail.referer,
          userAgent := f.tail.userAgent))
  }
}

=== FILE: log_samples.dfy ===
/**
 * The sample log line quoted next to the regular expression in
 * lib/pry-ops/util/access_log.rb, worked through the model.
 */
module LogSamples {
  import opened Wrappers
  import opened LogShapes
  import opened LogLine

  const Head := "- via 127.0.0.1 - - ["
  const Time := "15/May/2013" + ":" + "00:00:01 +0200"
  const Request := "GET /jkmanager?mime=txt HTTP/1.0"
  const Agent := "Wget/1.12 (linux-gnu)"
  /** Head ends at 21, the time at 47, the request at 82, the status at 87, bytes sent at 93, the referer at 96, the user agent at 120. */
  const Line := Head + Time + "] \"" + Request + "\" " + "200" + " " + "26841" + " \"" + "-" + "\" \"" + Agent + "\""

  const SampleTail := Tail("200", None, None, "26841", "-", Agent)

  lemma Layout()
    ensures |Line| == 121
    ensures Line[0] == '-' && Line[1] == ' ' && Line[19] == ' ' && Line[20] == '['
    ensures Line[47] == ']' && Line[48] == ' ' && Line[49] == '"' && Line[82] == '"' && Line[83] == ' '
    ensures Line[87] == ' ' && Line[93] == ' ' && Line[94] == '"' && Line[96] == '"' && Line[97] == ' '
    ensures Line[98] == '"' && Line[120] == '"'
  {
  }

  lemma NoNewline()
    ensures '\n' !in Line
  {
    assert '\n' !in Head && '\n' !in Time && '\n' !in Request && '\n' !in Agent;
  }

  lemma Slices()
    ensures Line[0..1] == "-" && Line[21..47] == Time && Line[50..82] == Request
  {
    TimeSlice();
    RequestSlice();
  }

  lemma TimeSlice()
    ensures Line[21..47] == Time
  {
    var h := Head + Time;
    assert Line[..47] == h;
    assert h[21..] == Time;
  }

  lemma RequestSlice()
    ensures Line[50..82] == Request
  {
    var r := Head + Time + "] \"" + Request;
    assert Line == r + ("\" " + "200" + " " + "26841" + " \"" + "-" + "\" \"" + Agent + "\"");
    assert Line[..82] == r;
    assert r[50..] == Request;
  }

  const BeforeStatus := Head + Time + "] \"" + Request + "\" "

  lemma StatusSlice()
    ensures Line[84..87] == "200"
  {
    var x := BeforeStatus + "200";
    assert Line == x + (" " + "26841" + " \"" + "-" + "\" \"" + Agent + "\"");
    assert Line[..87] == x;
  }

  lemma SentSlice()
    ensures Line[88..93] == "26841"
  {
    var x := BeforeStatus + "200" + " " + "26841";
    assert Line == x + (" \"" + "-" + "\" \"" + Agent + "\"");
    assert Line[..93] == x;
  }

  lemma RefererSlice()
    ensures Line[95..96] == "-"
  {
    var x := BeforeStatus + "200" + " " + "26841" + " \"" + "-";
    assert Line == x + ("\" \"" + Agent + "\"");
    assert Line[..96] == x;
  }

  lemma AgentSlice()
    ensures Line[99..120] == Agent
  {
    var x := BeforeStatus + "200" + " " + "26841" + " \"" + "-" + "\" \"" + Agent;
    assert Line[..120] == x;
  }

  lemma OneBracket()
    ensures forall k :: 21 <= k < |Line| ==> Line[k] != '['
  {
    Layout();
    NoBracketInTime();
    NoBracketInRequest();
    NoBracketAfterRequest();
  }

  lemma NoBracketInTime()
    ensures forall k :: 21 <= k < 47 ==> Line[k] != '['
  {
    TimeSlice();
    assert '[' !in Time;
    forall k | 21 <= k < 47 ensures Line[k] != '[' {
      assert Line[k] == Time[k - 21];
    }
  }

  lemma NoBracketInRequest()
    ensures forall k :: 50 <= k < 82 ==> Line[k] != '['
  {
    RequestSlice();
    assert '[' !in Request;
    forall k | 50 <= k < 82 ensures Line[k] != '[' {
      assert Line[k] == Request[k - 50];
    }
  }

  lemma NoBracketAfterRequest()
    ensures forall k :: 82 <= k < |Line| ==> Line[k] != '['
  {
    Layout();
    StatusSlice();
    SentSlice();
    RefererSlice();
    AgentSlice();
    assert '[' !in Agent;
    forall k | 82 <= k < |Line| ensures Line[k] != '[' {
      if 84 <= k < 87 {
        assert Line[k] == "200"[k - 84];
      } else if 88 <= k < 93 {
        assert Line[k] == "26841"[k - 88];
      } else if k == 95 {
        assert Line[k] == "-"[0];
      } else if 99 <= k < 120 {
        assert Line[k] == Agent[k - 99];
      }
    }
  }

  lemma Runs()
    ensures RunEnd(Line, 0, DigitOrDot) == 0 && RunEnd(Line, 94, Digit) == 94 && RunEnd(Line, 95, NotQuote) == 96
  {
    Layout();
    RunEndIs(Line, 0, DigitOrDot, 0);
    RunEndIs(Line, 94, Digit, 94);
    RunEndIs(Line, 95, NotQuote, 96);
  }

  lemma NumberRuns()
    ensures RunEnd(Line, 84, Digit) == 87 && RunEnd(Line, 88, Digit) == 93
  {
    Layout();
    RunEndIs(Line, 84, Digit, 87);
    RunEndIs(Line, 88, Digit, 93);
  }

  lemma LongRuns()
    ensures RunEnd(Line, 2, AnyButNewline) == 121
    ensures RunEnd(Line, 21, NotRBracket) == 47
    ensures RunEnd(Line, 99, NotQuote) == 120
  {
    LineRun();
    TimeRun();
    AgentRun();
  }

  lemma LineRun()
    ensures RunEnd(Line, 2, AnyButNewline) == 121
  {
    Layout();
    NoNewline();
    RunEndIs(Line, 2, AnyButNewline, 121);
  }

  lemma TimeRun()
    ensures RunEnd(Line, 21, NotRBracket) == 47
  {
    Layout();
    RunEndIs(Line, 21, NotRBracket, 47);
  }

  lemma AgentRun()
    ensures RunEnd(Line, 99, NotQuote) == 120
  {
    Layout();
    RunEndIs(Line, 99, NotQuote, 120);
  }

  lemma GapSearchSkip(s: string, p: nat, q0: nat, q1: nat)
    requires p <= q1 <= q0 <= |s|
    requires forall q :: q1 < q <= q0 ==> !(q + 1 < |s| && s[q] == ' ' && s[q + 1] == '[')
    ensures GapSearch(s, p, q0) == GapSearch(s, p, q1)
    decreases q0 - q1
  {
    if q1 < q0 {
      GapSearchStep(s, p, q0);
      GapSearchSkip(s, p, q0 - 1, q1);
    }
  }

  lemma GapSearchStep(s: string, p: nat, q: nat)
    requires p < q <= |s|
    requires !(q + 1 < |s| && s[q] == ' ' && s[q + 1] == '[')
    ensures GapSearch(s, p, q) == GapSearch(s, p, q - 1)
  {
  }

  lemma RequestLoopSkip(s: string, c: nat, j: nat, e: nat)
    requires c <= j <= e <= |s|
    requires forall k :: j <= k < e ==> s[k] != '"' && s[k] != '\\'
    ensures RequestLoop(s, c, j) == RequestLoop(s, c, e)
    decreases e - j
  {
    if j < e {
      RequestLoopSkip(s, c, j + 1, e);
      assert s[j] != '"' && s[j] != '\\';
      assert TailAt(s, j).None?;
    }
  }

  lemma SampleSent()
    ensures AfterBytesReceived(Line, "200", None, None, 87) == Some(SampleTail)
  {
    var s := Line;
    Layout();
    Runs();
    NumberRuns();
    LongRuns();
    SentSlice();
    RefererSlice();
    AgentSlice();
    assert NumberAt(s, 87) == Some(("26841", 93));
  }

  lemma SampleNumbersAt()
    ensures NumberAt(Line, 87) == Some(("26841", 93)) && NumberAt(Line, 93) == None
  {
    Layout();
    NumberRuns();
    SentSlice();
  }

  lemma SampleDigits()
    ensures IsNumber("200") && IsNumber("26841")
  {
    assert "200"[0] == '2' && "200"[1] == '0' && "200"[2] == '0';
    assert "26841"[0] == '2' && "26841"[1] == '6' && "26841"[2] == '8' && "26841"[3] == '4' && "26841"[4] == '1';
  }

  /** Taking 26841 as the serve time leaves no bytes-sent number at 93. */
  lemma SampleServeTimeTaken()
    ensures OptionalNumbers(Line, "200", [Some("26841")], 93) == None
  {
    var s := Line;
    SampleNumbersAt();
    SampleDigits();
    var none: Option<string> := None;
    assert [Some("26841")] + [none] == [Some("26841"), none];
  }

  /** Without a serve time, taking 26841 as bytes received leaves no bytes-sent number at 93. */
  lemma SampleReceivedTaken()
    ensures OptionalNumbers(Line, "200", [None, Some("26841")], 93) == None
  {
    SampleNumbersAt();
    SampleDigits();
  }

  /** Without both optional numbers, the sent part matches from 87. */
  lemma SampleBothAbsent()
    ensures OptionalNumbers(Line, "200", [None, None], 87) == Some(SampleTail)
  {
    SampleSent();
    SampleDigits();
  }

  lemma SampleServeTimeAbsent()
    ensures OptionalNumbers(Line, "200", [None], 87) == Some(SampleTail)
  {
    SampleNumbersAt();
    SampleDigits();
    SampleReceivedTaken();
    SampleBothAbsent();
    var none: Option<string> := None;
    assert [none] + [Some("26841")] == [none, Some("26841")] && [none] + [none] == [none, none];
  }

  lemma SampleOptionalNumbers()
    ensures OptionalNumbers(Line, "200", [], 87) == Some(SampleTail)
  {
    SampleNumbersAt();
    SampleDigits();
    SampleServeTimeTaken();
    SampleServeTimeAbsent();
    var none: Option<string> := None;
    assert [] + [Some("26841")] == [Some("26841")] && [] + [none] == [none];
  }

  lemma SampleTailAt()
    ensures TailAt(Line, 82) == Some(SampleTail)
  {
    var s := Line;
    Layout();
    NumberRuns();
    StatusSlice();
    SampleOptionalNumbers();
    assert TailAt(s, 82) == OptionalNumbers(s, "200", [], 87);
  }

  lemma RequestChars()
    ensures '"' !in Request && '\\' !in Request
  {
  }

  lemma RequestHasNoQuote()
    ensures forall k :: 50 <= k < 82 ==> Line[k] != '"' && Line[k] != '\\'
  {
    RequestSlice();
    RequestChars();
    forall k | 50 <= k < 82 ensures Line[k] != '"' && Line[k] != '\\' {
      assert Line[k] == Request[k - 50];
    }
  }

  const SampleFields := Fields("-", Time, Request, SampleTail)

  lemma SampleMatch()
    ensures MatchLogLine(Line) == Some(SampleFields)
  {
    var s := Line;
    Layout();
    NoNewline();
    OneBracket();
    Slices();
    Runs();
    NumberRuns();
    LongRuns();
    SampleTailAt();
    RequestHasNoQuote();
    RequestLoopSkip(s, 50, 50, 82);
    assert RequestLoop(s, 50, 82) == Some((82, SampleTail));
    assert AfterBracket(s, 21) == Some(Rest(Time, Request, SampleTail));
    GapSearchSkip(s, 2, 121, 19);
    assert GapSearch(s, 2, 19) == Some(Rest(Time, Request, SampleTail));
    assert SourceIpEnd(s, 0) == Some(1);
    assert MatchLogAt(s, 0) == Some(SampleFields);
    SingleLineMatch(s, MatchLogAt);
  }

  lemma SampleNumbers()
    ensures DecimalValue("200") == 200 && DecimalValue("26841") == 26841
  {
    assert "200"[..2] == "20" && "20"[..1] == "2" && "2"[..0] == "";
    assert "26841"[..4] == "2684" && "2684"[..3] == "268" && "268"[..2] == "26" && "26"[..1] == "2";
  }

  /** The time text handed to DateTime.parse. */
  const DateText := "15/May/2013" + " " + "00:00:01 +0200"

  lemma SampleDateText()
    ensures SubFirstColon(Time) == DateText
  {
    SubFirstColonSplits("15/May/2013", "00:00:01 +0200");
  }

  /**
   * The sample line yields source IP `-` (the first token, not the address
   * after `via`), no serve time and no bytes received, 26841 bytes sent.
   */
  lemma SampleEntry(parseTime: string -> Option<Timestamp>)
    ensures ParseLine(Line, parseTime) ==
      match parseTime(DateText)
      case None => Err(InvalidDate(DateText))
      case Some(ts) => Ok(Entry("-", ts, Request, 200, None, None, 26841, "-", Agent))
  {
    SampleMatch();
    SampleNumbers();
    SampleDateText();
    var f := SampleFields;
    assert MatchLogLine(Line) == Some(f);
    assert SubFirstColon(f.time) == DateText;
  }

  // ---------------------------------------------------------------------
  // A request whose URI holds two question marks
  // ---------------------------------------------------------------------

  const TwoMarks := "GET /a?b?c HTTP/1.1"

  /** An entry whose request is TwoMarks; the other fields play no part. */
  const TwoMarksEntry := Entry("-", Timestamp(0, "2013-05-15"), TwoMarks, 200, None, None, 0, "-", "")

  lemma TwoMarksUri()
    ensures RequestUriAt(TwoMarks, 0) == Some("/a?b?c")
  {
    var s := TwoMarks;
    RunEndIs(s, 0, NotSpace, 3);
    assert WordBeforeSpace(s, 0) == Some(3);
    RunEndIs(s, 4, NotSpace, 10);
    assert WordBeforeSpace(s, 4) == Some(10);
    assert s[4..10] == "/a?b?c";
  }

  lemma TwoMarksPath()
    ensures RequestPathAt(TwoMarks, 0) == Some("/a")
  {
    var s := TwoMarks;
    RunEndIs(s, 0, NotSpace, 3);
    assert WordBeforeSpace(s, 0) == Some(3);
    RunEndIs(s, 4, NotSpaceOrQuery, 6);
    assert s[4..6] == "/a";
  }

  lemma TwoMarksQuery()
    ensures QueryStringAt(TwoMarks, 0) == Some("?c")
  {
    var s := TwoMarks;
    RunEndIs(s, 0, NotSpace, 3);
    assert WordBeforeSpace(s, 0) == Some(3);
    RunEndIs(s, 4, NotSpace, 10);
    RunEndIs(s, 9, NotSpace, 10);
    assert WordBeforeSpace(s, 9) == Some(10);
    assert s[8..10] == "?c";
    assert QuerySplit(s, 4, 8) == Some("?c");
    assert QuerySplit(s, 4, 9) == QuerySplit(s, 4, 8);
    assert QuerySplit(s, 4, 10) == QuerySplit(s, 4, 9);
  }

  /** A URI whose last question mark ends it: the greedy word keeps that mark. */
  const TrailingMark := "GET /a?b? HTTP/1.1"

  /** The as-written query starts at the last question mark that has a character after it. */
  lemma TrailingMarkQuery()
    ensures QueryStringAt(TrailingMark, 0) == Some("?b?")
  {
    var s := TrailingMark;
    assert |s| == 18;
    RunEndIs(s, 0, NotSpace, 3);
    assert WordBeforeSpace(s, 0) == Some(3);
    RunEndIs(s, 4, NotSpace, 9);
    RunEndIs(s, 7, NotSpace, 9);
    assert WordBeforeSpace(s, 7) == Some(9);
    RunEndIs(s, 9, NotSpace, 9);
    assert WordBeforeSpace(s, 9).None?;
    assert s[6..9] == "?b?";
    assert QuerySplit(s, 4, 6) == Some("?b?");
    assert QuerySplit(s, 4, 7) == QuerySplit(s, 4, 6);
    assert QuerySplit(s, 4, 8) == QuerySplit(s, 4, 7);
    assert QuerySplit(s, 4, 9) == QuerySplit(s, 4, 8);
  }

  lemma TwoMarksQueryFromFirstMark()
    ensures QueryFromFirstMarkAt(TwoMarks, 0) == Some("?b?c")
  {
    var s := TwoMarks;
    RunEndIs(s, 0, NotSpace, 3);
    assert WordBeforeSpace(s, 0) == Some(3);
    RunEndIs(s, 4, NotSpaceOrQuery, 6);
    RunEndIs(s, 7, NotSpace, 10);
    assert WordBeforeSpace(s, 7) == Some(10);
    assert s[6..10] == "?b?c";
  }

  lemma TwoMarksCaptures()
    ensures TwoMarksEntry.RequestUri() == RequestUriAt(TwoMarks, 0)
    ensures TwoMarksEntry.RequestPath() == RequestPathAt(TwoMarks, 0)
    ensures TwoMarksEntry.QueryString() == QueryStringAt(TwoMarks, 0)
    ensures TwoMarksEntry.QueryStringFromFirstMark() == QueryFromFirstMarkAt(TwoMarks, 0)
  {
    assert '\n' !in TwoMarks;
    SingleLineGetters(TwoMarksEntry);
  }

  /**
   * The as-written query_string on `GET /a?b?c HTTP/1.1`: the greedy URI
   * word keeps the first question mark, so the query starts at the last one
   * that has a character after it, and path and query no longer make up the
   * URI; the query taken from the first mark does.
   */
  lemma QueryStringTakesLastMark()
    ensures TwoMarksEntry.RequestUri() == Some("/a?b?c")
    ensures TwoMarksEntry.RequestPath() == Some("/a")
    ensures TwoMarksEntry.QueryString() == Some("?c")
    ensures TwoMarksEntry.RequestPath().value + TwoMarksEntry.QueryString().value != TwoMarksEntry.RequestUri().value
    ensures TwoMarksEntry.QueryStringFromFirstMark() == Some("?b?c")
  {
    TwoMarksCaptures();
    TwoMarksUri();
    TwoMarksPath();
    TwoMarksQuery();
    TwoMarksQueryFromFirstMark();
    assert |"/a" + "?c"| != |"/a?b?c"|;
  }
}

=== FILE: log_shape.dfy ===
/**
 * The captures of the access-log expression and how they lie in the line
 * (lib/pry-ops/util/access_log.rb, the regular expression in
 * AccessLog#parse). From the start of a match the line reads
 *
 *   sourceIp ' ' gap ' ' '[' time ']' ' ' '"' request '"' ' ' status
 *   (' ' serveTime)? (' ' bytesReceived)? ' ' bytesSent ' ' '"' referer '"' ' ' '"' userAgent '"'
 *
 * for a gap without a newline; the predicates below say so position by
 * position, one part of the expression each, and each one hands the
 * position where it ends to the next.
 */
module LogShapes {
  import opened Wrappers

  /** Groups 4 to 9, everything after the request's closing quote; absent optional groups are None. */
  datatype Tail = Tail(
    status: string,                // $4
    serveTime: Option<string>,     // $5
    bytesReceived: Option<string>, // $6
    bytesSent: string,             // $7
    referer: string,               // $8
    userAgent: string)             // $9

  /** Groups 2 to 9. */
  datatype Rest = Rest(time: string, request: string, tail: Tail)

  /** The nine groups captured from a log line, as text. */
  datatype Fields = Fields(
    sourceIp: string,              // $1
    time: string,                  // $2
    request: string,               // $3
    tail: Tail)

  /** `t` is the text of `s` from `p` on, character by character. */
  ghost predicate TextAt(s: string, p: nat, t: string)
    decreases |t|
  {
    p + |t| <= |s| && (|t| == 0 || (s[p] == t[0] && TextAt(s, p + 1, t[1..])))
  }

  /** A slice of `s` is the text of `s` where it starts. */
  lemma {:induction false} TextAtSlice(s: string, p: nat, q: nat)
    requires p <= q <= |s|
    ensures TextAt(s, p, s[p..q])
    decreases q - p
  {
    if p < q {
      TextAtSlice(s, p + 1, q);
      assert s[p..q][1..] == s[p + 1..q];
    }
  }

  /** Text found at `p` is the slice of `s` there. */
  lemma {:induction false} TextAtIsSlice(s: string, p: nat, t: string)
    requires TextAt(s, p, t)
    ensures p + |t| <= |s| && s[p..p + |t|] == t
    decreases |t|
  {
    if |t| > 0 {
      TextAtIsSlice(s, p + 1, t[1..]);
      assert t == [t[0]] + t[1..];
    }
  }

  /** The length of ` (\d+)` for an optional group: a space and the digits, or nothing. */
  function OptLen(n: Option<string>): nat
  {
    if n.Some? then 1 + |n.value| else 0
  }

  /** ` (\d+)` of an optional group at `p`, when the group is present. */
  ghost predicate OptAt(s: string, p: nat, n: Option<string>)
  {
    match n
    case None => true
    case Some(digits) => p < |s| && s[p] == ' ' && TextAt(s, p + 1, digits)
  }

  /** ` (\d+) "([^"]+)" "([^"]*)"` at `p`: bytes sent, the referer and the user agent. */
  ghost predicate SentAt(s: string, p: nat, t: Tail)
  {
    match t
    case Tail(_, _, _, sent, referer, agent) =>
      var d := p + 1 + |sent|;
      var r1 := d + 2 + |referer|;
      var u1 := r1 + 3 + |agent|;
      && u1 < |s|
      && s[p] == ' ' && TextAt(s, p + 1, sent)
      && s[d] == ' ' && s[d + 1] == '"' && TextAt(s, d + 2, referer)
      && s[r1] == '"' && s[r1 + 1] == ' ' && s[r1 + 2] == '"' && TextAt(s, r1 + 3, agent)
      && s[u1] == '"'
  }

  /** `(?: (\d+))?` for the bytes received and the rest, from `p`. */
  ghost predicate AfterServeAt(s: string, p: nat, t: Tail)
  {
    match t
    case Tail(_, _, received, _, _, _) =>
      OptAt(s, p, received) && SentAt(s, p + OptLen(received), t)
  }

  /** `(?: (\d+))?` twice and the rest, from `d`, right after the status. */
  ghost predicate AfterStatusAt(s: string, d: nat, t: Tail)
  {
    match t
    case Tail(_, serveTime, _, _, _, _) =>
      OptAt(s, d, serveTime) && AfterServeAt(s, d + OptLen(serveTime), t)
  }

  /** `" (\d+)...` from the request's closing quote at `e`. */
  ghost predicate TailLayout(s: string, e: nat, t: Tail)
  {
    match t
    case Tail(status, _, _, _, _, _) =>
      var d := e + 2 + |status|;
      && d <= |s| && s[e] == '"' && s[e + 1] == ' ' && TextAt(s, e + 2, status)
      && AfterStatusAt(s, d, t)
  }

  /** `([^\]]+)\] "((?:\\"|[^"])+)` and the tail, from `a`, the character after `[`. */
  ghost predicate BracketLayout(s: string, a: nat, rest: Rest)
  {
    match rest
    case Rest(time, request, t) =>
      var b := a + |time|;
      var e := b + 3 + |request|;
      && e <= |s| && TextAt(s, a, time)
      && s[b] == ']' && s[b + 1] == ' ' && s[b + 2] == '"' && TextAt(s, b + 3, request)
      && TailLayout(s, e, t)
  }

  /** ` [` at `k` followed by the bracket part. */
  ghost predicate GapEndAt(s: string, k: nat, rest: Rest)
  {
    k + 1 < |s| && s[k] == ' ' && s[k + 1] == '[' && BracketLayout(s, k + 2, rest)
  }

  /** `.*` matches no newline: none strictly between `j` and `k`. */
  ghost predicate NoNewlineBetween(s: string, j: nat, k: nat)
    requires k <= |s|
  {
    forall c :: j < c < k ==> s[c] != '\n'
  }

  /** The whole match at `i`, with the ` [` after the gap at `k`. */
  ghost predicate LogLayout(s: string, i: nat, f: Fields, k: nat)
  {
    match f
    case Fields(ip, time, request, t) =>
      var j := i + |ip|;
      && j < k && TextAt(s, i, ip)
      && GapEndAt(s, k, Rest(time, request, t))
      && s[j] == ' ' && NoNewlineBetween(s, j, k)
  }

  /** At `i` the line is laid out as the expression demands, for some gap. */
  ghost predicate LogShape(s: string, i: nat, f: Fields)
  {
    exists k: nat :: LogLayout(s, i, f, k)
  }
}

=== FILE: log_text.dfy ===
/**
 * The matcher of LogLine against the layout of LogShapes: what the matcher
 * accepts at a position is laid out there as the expression of
 * AccessLog#parse says, with captures that fit their groups, and every such
 * layout is accepted.
 */
module LogText {
  import opened Wrappers
  import opened LogShapes
  import opened LogLine

  /** Groups 2 to 9 fit their groups. */
  ghost predicate RestFits(rest: Rest)
  {
    && |rest.time| > 0 && AllIn(rest.time, NotRBracket)
    && |rest.request| > 0 && QuotesEscaped(rest.request)
    && WellFormedTail(rest.tail)
  }

  /** Each capture fits its group. */
  ghost predicate FieldsFit(f: Fields)
  {
    && (f.sourceIp == "-" || (|f.sourceIp| > 0 && AllIn(f.sourceIp, DigitOrDot)))
    && RestFits(Rest(f.time, f.request, f.tail))
  }

  /** A run of a class laid out at `p` and stopped by a character outside it. */
  lemma {:induction false} RunOfText(s: string, p: nat, t: string, cls: CharClass)
    ensures (TextAt(s, p, t) && AllIn(t, cls) &&
       p + |t| < |s| && !InClass(s[p + |t|], cls)) ==>
      RunEnd(s, p, cls) == p + |t|
  {
    if TextAt(s, p, t) && AllIn(t, cls) &&
       p + |t| < |s| && !InClass(s[p + |t|], cls)
    {
      TextAtIsSlice(s, p, t);
      forall k | p <= k < p + |t| ensures InClass(s[k], cls) {
        assert s[k] == t[k - p];
      }
      RunEndIs(s, p, cls, p + |t|);
    }
  }

  // ---------------------------------------------------------------------
  // What the matcher accepts is laid out as the expression says
  // ---------------------------------------------------------------------

  /** The sent part laid out with its three captures between the given positions. */
  lemma {:induction false} SentIntro(s: string, p: nat, d: nat, r1: nat, u1: nat, t: Tail)
    requires p < d && d + 2 <= r1 && r1 + 3 <= u1 < |s|
    requires s[p] == ' ' && s[d] == ' ' && s[d + 1] == '"'
    requires s[r1] == '"' && s[r1 + 1] == ' ' && s[r1 + 2] == '"' && s[u1] == '"'
    requires t.bytesSent == s[p + 1..d] && t.referer == s[d + 2..r1] && t.userAgent == s[r1 + 3..u1]
    ensures SentAt(s, p, t)
  {
    assert p + 1 + |t.bytesSent| == d && d + 2 + |t.referer| == r1 && r1 + 3 + |t.userAgent| == u1;
    TextAtSlice(s, p + 1, d);
    TextAtSlice(s, d + 2, r1);
    TextAtSlice(s, r1 + 3, u1);
  }

  /** Bytes received, present from `p` to `q` or absent with `q == p`, and the sent part at `q`. */
  lemma {:induction false} ReceivedIntro(s: string, p: nat, q: nat, t: Tail)
    ensures (((t.bytesReceived == None && q == p) || (p < q <= |s| && s[p] == ' ' && t.bytesReceived == Some(s[p + 1..q]))) &&
       SentAt(s, q, t)) ==>
      AfterServeAt(s, p, t)
  {
    if ((t.bytesReceived == None && q == p) || (p < q <= |s| && s[p] == ' ' && t.bytesReceived == Some(s[p + 1..q]))) &&
       SentAt(s, q, t)
    {
      if t.bytesReceived.Some? {
        TextAtSlice(s, p + 1, q);
      }
    }
  }

  /** Serve time, present from `d` to `q` or absent with `q == d`, and the rest at `q`. */
  lemma {:induction false} ServeIntro(s: string, d: nat, q: nat, t: Tail)
    ensures (((t.serveTime == None && q == d) || (d < q <= |s| && s[d] == ' ' && t.serveTime == Some(s[d + 1..q]))) &&
       AfterServeAt(s, q, t)) ==>
      AfterStatusAt(s, d, t)
  {
    if ((t.serveTime == None && q == d) || (d < q <= |s| && s[d] == ' ' && t.serveTime == Some(s[d + 1..q]))) &&
       AfterServeAt(s, q, t)
    {
      if t.serveTime.Some? {
        TextAtSlice(s, d + 1, q);
      }
    }
  }

  /** The closing quote at `e`, the status up to `d` and the rest after it. */
  lemma {:induction false} TailIntro(s: string, e: nat, d: nat, t: Tail)
    ensures (e + 2 <= d <= |s| && s[e] == '"' && s[e + 1] == ' ' && t.status == s[e + 2..d] &&
       AfterStatusAt(s, d, t)) ==>
      TailLayout(s, e, t)
  {
    if e + 2 <= d <= |s| && s[e] == '"' && s[e + 1] == ' ' && t.status == s[e + 2..d] &&
       AfterStatusAt(s, d, t)
    {
      TextAtSlice(s, e + 2, d);
    }
  }

  /** The time up to `b`, `] "`, the request up to `e` and the tail there. */
  lemma {:induction false} BracketIntro(s: string, a: nat, b: nat, e: nat, t: Tail, rest: Rest)
    requires a <= b && b + 3 <= e <= |s| && s[b] == ']' && s[b + 1] == ' ' && s[b + 2] == '"'
    requires rest.time == s[a..b] && rest.request == s[b + 3..e] && rest.tail == t
    requires TailLayout(s, e, t)
    ensures BracketLayout(s, a, rest)
  {
    assert a + |rest.time| == b && b + 3 + |rest.request| == e;
    TextAtSlice(s, a, b);
    TextAtSlice(s, b + 3, e);
  }

  lemma {:induction false} AfterBytesReceivedSound(s: string, status: string, st: Option<string>, br: Option<string>, p: nat, t: Tail)
    requires AfterBytesReceived(s, status, st, br, p) == Some(t)
    ensures SentAt(s, p, t)
  {
    assert NumberAt(s, p).Some?;
    var (sent, d) := NumberAt(s, p).value;
    assert d + 1 < |s| && s[d] == ' ' && s[d + 1] == '"';
    var r1 := RunEnd(s, d + 2, NotQuote);
    assert r1 > d + 2 && r1 + 2 < |s| && s[r1] == '"' && s[r1 + 1] == ' ' && s[r1 + 2] == '"';
    var u1 := RunEnd(s, r1 + 3, NotQuote);
    assert u1 < |s| && s[u1] == '"';
    assert t == Tail(status, st, br, sent, s[d + 2..r1], s[r1 + 3..u1]);
    SentIntro(s, p, d, r1, u1, t);
  }

  /** Group 6, decided at `p` after group 5 was decided as `st`, and the rest. */
  lemma {:induction false} BytesReceivedGroupSound(s: string, status: string, st: Option<string>, p: nat, t: Tail)
    requires IsNumber(status) && (st.Some? ==> IsNumber(st.value))
    requires OptionalNumbers(s, status, [st], p) == Some(t)
    ensures AfterServeAt(s, p, t)
  {
    var n := NumberAt(s, p);
    assert [st] + [None] == [st, None];
    if n.Some? {
      assert [st] + [Some(n.value.0)] == [st, Some(n.value.0)];
    }
    if n.Some? && AfterBytesReceived(s, status, st, Some(n.value.0), n.value.1) == Some(t) {
      AfterBytesReceivedSound(s, status, st, Some(n.value.0), n.value.1, t);
      ReceivedIntro(s, p, n.value.1, t);
    } else {
      AfterBytesReceivedSound(s, status, st, None, p, t);
      ReceivedIntro(s, p, p, t);
    }
  }

  /** Group 5, decided at `d` right after the status, and the rest. */
  lemma {:induction false} ServeTimeGroupSound(s: string, status: string, d: nat, t: Tail)
    requires IsNumber(status) && OptionalNumbers(s, status, [], d) == Some(t)
    ensures AfterStatusAt(s, d, t)
  {
    var n := NumberAt(s, d);
    var none: Option<string> := None;
    assert [] + [none] == [none];
    if n.Some? {
      assert [] + [Some(n.value.0)] == [Some(n.value.0)];
    }
    if n.Some? && OptionalNumbers(s, status, [Some(n.value.0)], n.value.1) == Some(t) {
      BytesReceivedGroupSound(s, status, Some(n.value.0), n.value.1, t);
      ServeIntro(s, d, n.value.1, t);
    } else {
      BytesReceivedGroupSound(s, status, None, d, t);
      ServeIntro(s, d, d, t);
    }
  }

  lemma {:induction false} TailAtSound(s: string, e: nat, t: Tail)
    requires TailAt(s, e) == Some(t)
    ensures TailLayout(s, e, t)
  {
    var d := RunEnd(s, e + 2, Digit);
    ServeTimeGroupSound(s, s[e + 2..d], d, t);
    TailIntro(s, e, d, t);
  }

  lemma {:induction false} AfterBracketSound(s: string, a: nat, rest: Rest)
    requires AfterBracket(s, a) == Some(rest)
    ensures BracketLayout(s, a, rest)
  {
    var b := RunEnd(s, a, NotRBracket);
    assert b > a && b + 2 < |s| && s[b] == ']' && s[b + 1] == ' ' && s[b + 2] == '"';
    var loop := RequestLoop(s, b + 3, b + 3);
    assert loop.Some? && rest == Rest(s[a..b], s[b + 3..loop.value.0], loop.value.1);
    BracketOfLoop(s, a, b, rest);
  }

  /** The time up to `b`, `] "` and what the request loop yields there make the bracket part. */
  lemma BracketOfLoop(s: string, a: nat, b: nat, rest: Rest)
    requires a <= b && b + 2 < |s| && s[b] == ']' && s[b + 1] == ' ' && s[b + 2] == '"'
    requires var loop := RequestLoop(s, b + 3, b + 3);
      loop.Some? && rest == Rest(s[a..b], s[b + 3..loop.value.0], loop.value.1)
    ensures BracketLayout(s, a, rest)
  {
    var loop := RequestLoop(s, b + 3, b + 3);
    RequestLoopTail(s, b + 3, b + 3);
    TailAtSound(s, loop.value.0, loop.value.1);
    BracketIntro(s, a, b, loop.value.0, loop.value.1, rest);
  }

  /** The search for ` [` settles on one position between `p` and `q`. */
  lemma {:induction false} GapSearchSound(s: string, p: nat, q: nat, rest: Rest)
    requires p <= q <= |s| && GapSearch(s, p, q) == Some(rest)
    ensures exists k :: p <= k <= q && GapEndAt(s, k, rest)
    decreases q - p
  {
    if q + 1 < |s| && s[q] == ' ' && s[q + 1] == '[' && AfterBracket(s, q + 2) == Some(rest) {
      AfterBracketSound(s, q + 2, rest);
      assert GapEndAt(s, q, rest);
    } else {
      GapSearchSound(s, p, q - 1, rest);
    }
  }

  /** Soundness: the captures of a match fit their groups and are laid out at `i`. */
  lemma {:induction false} MatchLogAtSound(s: string, i: nat, f: Fields)
    requires MatchLogAt(s, i) == Some(f)
    ensures FieldsFit(f) && LogShape(s, i, f)
  {
    var j := SourceIpEnd(s, i).value;
    var p := j + 1;
    var q := RunEnd(s, p, AnyButNewline);
    var rest := Rest(f.time, f.request, f.tail);
    GapSearchSound(s, p, q, rest);
    var k :| p <= k <= q && GapEndAt(s, k, rest);
    forall c | j < c < k
      ensures s[c] != '\n'
    {
      assert InClass(s[c], AnyButNewline);
    }
    LayoutIntro(s, i, j, k, f);
  }

  /** The source IP up to `j`, a gap without a newline and the ` [` at `k`. */
  lemma {:induction false} LayoutIntro(s: string, i: nat, j: nat, k: nat, f: Fields)
    ensures (i <= j < k < |s| && s[j] == ' ' && f.sourceIp == s[i..j] &&
       NoNewlineBetween(s, j, k) &&
       GapEndAt(s, k, Rest(f.time, f.request, f.tail))) ==>
      LogShape(s, i, f)
  {
    if i <= j < k < |s| && s[j] == ' ' && f.sourceIp == s[i..j] &&
       NoNewlineBetween(s, j, k) &&
       GapEndAt(s, k, Rest(f.time, f.request, f.tail))
    {
      TextAtSlice(s, i, j);
      assert LogLayout(s, i, f, k);
    }
  }

  // ---------------------------------------------------------------------
  // Every layout the expression describes is accepted
  // ---------------------------------------------------------------------

  /** ` (\d+)` laid out at `p` and stopped by a non-digit is what NumberAt finds there. */
  lemma {:induction false} NumberOfText(s: string, p: nat, n: string)
    ensures (p < |s| && s[p] == ' ' && TextAt(s, p + 1, n) && IsNumber(n) &&
       p + 1 + |n| < |s| && !InClass(s[p + 1 + |n|], Digit)) ==>
      NumberAt(s, p) == Some((n, p + 1 + |n|))
  {
    if p < |s| && s[p] == ' ' && TextAt(s, p + 1, n) && IsNumber(n) &&
       p + 1 + |n| < |s| && !InClass(s[p + 1 + |n|], Digit)
    {
      RunOfText(s, p + 1, n, Digit);
      TextAtIsSlice(s, p + 1, n);
    }
  }

  lemma {:induction false} AfterBytesReceivedComplete(s: string, status: string, st: Option<string>, br: Option<string>, p: nat, t: Tail)
    ensures WellFormedTail(t) && SentAt(s, p, t) ==>
      AfterBytesReceived(s, status, st, br, p).Some?
  {
    if WellFormedTail(t) && SentAt(s, p, t) {
      var d := p + 1 + |t.bytesSent|;
      var r1 := d + 2 + |t.referer|;
      NumberOfText(s, p, t.bytesSent);
      RunOfText(s, d + 2, t.referer, NotQuote);
      RunOfText(s, r1 + 3, t.userAgent, NotQuote);
    }
  }

  lemma {:induction false} BytesReceivedGroupComplete(s: string, status: string, st: Option<string>, p: nat, t: Tail)
    ensures IsNumber(status) && (st.Some? ==> IsNumber(st.value)) && WellFormedTail(t) && AfterServeAt(s, p, t) ==>
      OptionalNumbers(s, status, [st], p).Some?
  {
    if IsNumber(status) && (st.Some? ==> IsNumber(st.value)) && WellFormedTail(t) && AfterServeAt(s, p, t) {
      match t.bytesReceived {
        case None =>
          assert SentAt(s, p, t);
          assert [st] + [None] == [st, None];
          AfterBytesReceivedComplete(s, status, st, None, p, t);
        case Some(n) =>
          var d := p + 1 + |n|;
          assert s[p] == ' ' && TextAt(s, p + 1, n) && SentAt(s, d, t);
          assert d < |s| && s[d] == ' ';
          NumberOfText(s, p, n);
          assert NumberAt(s, p) == Some((n, d));
          assert [st] + [Some(n)] == [st, Some(n)];
          AfterBytesReceivedComplete(s, status, st, Some(n), d, t);
      }
    }
  }

  /** What follows serve time starts with a space, whether bytes received is present or not. */
  lemma {:induction false} AfterServeSpace(s: string, p: nat, t: Tail)
    ensures AfterServeAt(s, p, t) ==> p < |s| && s[p] == ' '
  {
  }

  lemma {:induction false} ServeTimeGroupComplete(s: string, status: string, d: nat, t: Tail)
    ensures IsNumber(status) && WellFormedTail(t) && AfterStatusAt(s, d, t) ==>
      OptionalNumbers(s, status, [], d).Some?
  {
    if IsNumber(status) && WellFormedTail(t) && AfterStatusAt(s, d, t) {
      match t.serveTime {
        case None =>
          var none: Option<string> := None;
          assert [] + [none] == [none];
          BytesReceivedGroupComplete(s, status, None, d, t);
        case Some(n) =>
          var d6 := d + 1 + |n|;
          AfterServeSpace(s, d6, t);
          NumberOfText(s, d, n);
          assert [] + [Some(n)] == [Some(n)];
          BytesReceivedGroupComplete(s, status, Some(n), d6, t);
      }
    }
  }

  lemma {:induction false} TailAtComplete(s: string, e: nat, t: Tail)
    ensures WellFormedTail(t) && TailLayout(s, e, t) ==>
      TailAt(s, e).Some?
  {
    if WellFormedTail(t) && TailLayout(s, e, t) {
      var d := e + 2 + |t.status|;
      assert s[d] == ' ';
      RunOfText(s, e + 2, t.status, Digit);
      TextAtIsSlice(s, e + 2, t.status);
      ServeTimeGroupComplete(s, t.status, d, t);
    }
  }

  /** Dropping a prefix that does not end just before a quote keeps the quotes escaped. */
  lemma {:induction false} EscapedSuffix(s: string, lo: nat, m: nat, e: nat)
    requires lo <= m <= e <= |s|
    requires EscapedFrom(s, lo, e)
    requires m < e ==> s[m] != '"'
    ensures EscapedFrom(s, m, e)
  {
    forall k | m <= k < e ensures EscapedAt(s, m, k) {
      assert EscapedAt(s, lo, k);
    }
  }

  /** The repetition `(?:\\"|[^"])+` reaches the closing quote at `e` whenever the quotes before it are escaped. */
  lemma {:induction false} RequestLoopComplete(s: string, c: nat, j: nat, e: nat)
    ensures (c <= j <= e < |s| && c < e &&
       EscapedFrom(s, j, e) && TailAt(s, e).Some?) ==>
      RequestLoop(s, c, j).Some?
    decreases e - j
  {
    if c <= j <= e < |s| && c < e &&
       EscapedFrom(s, j, e) && TailAt(s, e).Some?
    {
      if j < e {
        assert EscapedAt(s, j, j);
        if j + 1 < e && s[j + 1] == '"' {
          assert EscapedAt(s, j, j + 1);
          if j + 2 < e {
            assert EscapedAt(s, j, j + 2);
          }
          EscapedSuffix(s, j, j + 2, e);
          RequestLoopComplete(s, c, j + 2, e);
        } else {
          EscapedSuffix(s, j, j + 1, e);
          RequestLoopComplete(s, c, j + 1, e);
        }
      }
    }
  }

  /** The quotes of a request laid out from `c` are escaped in the line. */
  lemma {:induction false} EscapedInLine(s: string, c: nat, request: string)
    ensures (TextAt(s, c, request) && QuotesEscaped(request)) ==>
      c + |request| <= |s| && EscapedFrom(s, c, c + |request|)
  {
    if TextAt(s, c, request) && QuotesEscaped(request)
    {
      TextAtIsSlice(s, c, request);
      forall k | c <= k < c + |request| ensures EscapedAt(s, c, k) {
        assert EscapedAt(request, 0, k - c);
        assert s[k] == request[k - c];
        if k > c {
          assert s[k - 1] == request[k - c - 1];
        }
      }
    }
  }

  lemma {:induction false} AfterBracketComplete(s: string, a: nat, rest: Rest)
    ensures RestFits(rest) && BracketLayout(s, a, rest) ==>
      AfterBracket(s, a).Some?
  {
    if RestFits(rest) && BracketLayout(s, a, rest) {
      var b := a + |rest.time|;
      var c := b + 3;
      var e := c + |rest.request|;
      assert TextAt(s, a, rest.time) && s[b] == ']' && s[b + 1] == ' ' && s[b + 2] == '"';
      assert TextAt(s, c, rest.request) && TailLayout(s, e, rest.tail);
      RunOfText(s, a, rest.time, NotRBracket);
      assert RunEnd(s, a, NotRBracket) == b;
      TailAtComplete(s, e, rest.tail);
      assert TailAt(s, e).Some?;
      EscapedInLine(s, c, rest.request);
      RequestLoopComplete(s, c, c, e);
      AfterBracketAccepts(s, a, b);
    }
  }

  /** The time run stops at `b` on `] "`, and the request loop from there succeeds. */
  lemma AfterBracketAccepts(s: string, a: nat, b: nat)
    requires a < b && b + 2 < |s| && RunEnd(s, a, NotRBracket) == b
    requires s[b] == ']' && s[b + 1] == ' ' && s[b + 2] == '"'
    requires RequestLoop(s, b + 3, b + 3).Some?
    ensures AfterBracket(s, a).Some?
  {
  }

  lemma {:induction false} GapSearchComplete(s: string, p: nat, q: nat, k: nat)
    requires p <= k <= q <= |s|
    requires k + 1 < |s| && s[k] == ' ' && s[k + 1] == '[' && AfterBracket(s, k + 2).Some?
    ensures GapSearch(s, p, q).Some?
    decreases q - k
  {
    if q > k {
      GapSearchComplete(s, p, q - 1, k);
    }
  }

  /** `.*` runs at least up to a position it reaches without a newline. */
  lemma {:induction false} NoNewlineRun(s: string, j: nat, k: nat)
    requires j < k < |s| && s[k] != '\n' && NoNewlineBetween(s, j, k)
    ensures RunEnd(s, j + 1, AnyButNewline) > k
  {
  }

  /** `([\d.]+|-)` takes a source IP laid out at `i` and followed by a space. */
  lemma {:induction false} SourceIpComplete(s: string, i: nat, ip: string)
    requires ip == "-" || (|ip| > 0 && AllIn(ip, DigitOrDot))
    requires TextAt(s, i, ip) && i + |ip| < |s| && s[i + |ip|] == ' '
    ensures SourceIpEnd(s, i) == Some(i + |ip|)
  {
    TextAtIsSlice(s, i, ip);
    if ip == "-" {
      assert s[i] == '-';
      RunEndIs(s, i, DigitOrDot, i);
    } else {
      RunOfText(s, i, ip, DigitOrDot);
    }
  }

  /** Completeness: a layout with fitting captures at `i` is accepted there. */
  lemma {:induction false} MatchLogAtComplete(s: string, i: nat, f: Fields)
    requires FieldsFit(f) && LogShape(s, i, f)
    ensures MatchLogAt(s, i).Some?
  {
    var k: nat :| LogLayout(s, i, f, k);
    var j := i + |f.sourceIp|;
    GapComplete(s, i, f, k);
    SourceIpComplete(s, i, f.sourceIp);
    MatchFromGap(s, i, j);
  }

  /** The gap search from after the source IP finds the ` [` at `k`, or one further right. */
  lemma {:induction false} GapComplete(s: string, i: nat, f: Fields, k: nat)
    requires FieldsFit(f) && LogLayout(s, i, f, k)
    ensures var j := i + |f.sourceIp|;
      j < |s| && GapSearch(s, j + 1, RunEnd(s, j + 1, AnyButNewline)).Some?
  {
    var j := i + |f.sourceIp|;
    LayoutParts(s, i, f, k);
    AfterBracketComplete(s, k + 2, Rest(f.time, f.request, f.tail));
    GapFrom(s, j, k);
  }

  /** The parts of a layout at `i` with the ` [` at `k`, one fact each. */
  lemma {:induction false} LayoutParts(s: string, i: nat, f: Fields, k: nat)
    ensures LogLayout(s, i, f, k) ==>
      var j := i + |f.sourceIp|;
      && j < k && k + 1 < |s| && s[k] == ' ' && s[k + 1] == '[' && NoNewlineBetween(s, j, k)
      && TextAt(s, i, f.sourceIp) && s[j] == ' ' && BracketLayout(s, k + 2, Rest(f.time, f.request, f.tail))
  {
  }

  /** A ` [` at `k` that the bracket part follows, with no newline after `j`, is found by the gap search. */
  lemma {:induction false} GapFrom(s: string, j: nat, k: nat)
    ensures (j < k && k + 1 < |s| && s[k] == ' ' && s[k + 1] == '[' && AfterBracket(s, k + 2).Some?
             && NoNewlineBetween(s, j, k)) ==>
      j < |s| && GapSearch(s, j + 1, RunEnd(s, j + 1, AnyButNewline)).Some?
  {
    if j < k && k + 1 < |s| && s[k] == ' ' && s[k + 1] == '[' && AfterBracket(s, k + 2).Some?
       && NoNewlineBetween(s, j, k)
    {
      NoNewlineRun(s, j, k);
      GapSearchComplete(s, j + 1, RunEnd(s, j + 1, AnyButNewline), k);
    }
  }

  /** A source IP ending at `j`, a space, and a ` [` the gap search finds: a match. */
  lemma {:induction false} MatchFromGap(s: string, i: nat, j: nat)
    requires i <= |s| && SourceIpEnd(s, i) == Some(j) && j < |s| && s[j] == ' '
    requires GapSearch(s, j + 1, RunEnd(s, j + 1, AnyButNewline)).Some?
    ensures MatchLogAt(s, i).Some?
  {
  }

  // ---------------------------------------------------------------------
  // `line =~ LOG_LINE`
  // ---------------------------------------------------------------------

  /**
   * A line is recognised exactly when, at some line start, it is laid out
   * as the expression says with captures that fit their groups; and the
   * captures returned are laid out at such a line start.
   */
  lemma {:induction false} LineRecognized(line: string)
    ensures MatchLogLine(line).Some? <==>
      exists i: nat, f :: i <= |line| && AtLineStart(line, i) && FieldsFit(f) && LogShape(line, i, f)
    ensures MatchLogLine(line).Some? ==>
      exists i: nat :: i <= |line| && AtLineStart(line, i) && FieldsFit(MatchLogLine(line).value)
                  && LogShape(line, i, MatchLogLine(line).value)
  {
    var m := FirstLineMatch(line, 0, MatchLogAt);
    if m.Some? {
      MatchLogAtSound(line, m.value.0, m.value.1);
    }
    if exists i: nat, f :: i <= |line| && AtLineStart(line, i) && FieldsFit(f) && LogShape(line, i, f) {
      var i: nat, f :| i <= |line| && AtLineStart(line, i) && FieldsFit(f) && LogShape(line, i, f);
      MatchLogAtComplete(line, i, f);
    }
  }
}

=== FILE: ruby_strings.dfy ===
/**
 * The String and Array operations the DSL and autoloader rely on:
 * `Array#join(sep)` and `String#split(str)`.
 */
module RubyStrings {
  import opened Wrappers

  /** `sep` occurs in `s` at position `k`. */
  ghost predicate OccursAt(s: string, sep: string, k: int)
  {
    0 <= k && k + |sep| <= |s| && s[k..k + |sep|] == sep
  }

  /** The first position at or after `i` where `sep` occurs in `s`. */
  function FindFrom(s: string, sep: string, i: nat): (r: Option<nat>)
    decreases |s| - i
    ensures r.Some? ==> i <= r.value && OccursAt(s, sep, r.value)
  {
    if i + |sep| > |s| then None
    else if s[i..i + |sep|] == sep then Some(i)
    else FindFrom(s, sep, i + 1)
  }

  /** No occurrence comes before the one found, and none at all when none is found. */
  lemma {:induction false} FindFromIsFirst(s: string, sep: string, i: nat)
    ensures var r := FindFrom(s, sep, i);
      forall k :: i <= k && (r.None? || k < r.value) ==> !OccursAt(s, sep, k)
    decreases |s| - i
  {
    if i + |sep| <= |s| && s[i..i + |sep|] != sep {
      FindFromIsFirst(s, sep, i + 1);
    }
  }

  /** `parts.join(sep)`: the parts with `sep` between neighbours. */
  function Join(parts: seq<string>, sep: string): string
  {
    if |parts| == 0 then ""
    else if |parts| == 1 then parts[0]
    else parts[0] + sep + Join(parts[1..], sep)
  }

  /**
   * Cutting `s` at every occurrence of `sep`, scanning left to right with
   * no overlap, keeping empty pieces.
   */
  function Split(s: string, sep: string): (parts: seq<string>)
    requires |sep| > 0
    decreases |s|
    ensures |parts| >= 1
  {
    var f := FindFrom(s, sep, 0);
    if f.None? then [s] else [s[..f.value]] + Split(s[f.value + |sep|..], sep)
  }

  /** Ruby drops the empty strings at the end of a split's result. */
  function DropTrailingEmpty(parts: seq<string>): (r: seq<string>)
    ensures |r| <= |parts| && r == parts[..|r|]
    ensures |r| > 0 ==> r[|r| - 1] != ""
    ensures forall i :: |r| <= i < |parts| ==> parts[i] == ""
  {
    if |parts| == 0 then []
    else if parts[|parts| - 1] == "" then DropTrailingEmpty(parts[..|parts| - 1])
    else parts
  }

  /** `s.split(sep)` for a string separator of at least one character. */
  function RubySplit(s: string, sep: string): (r: seq<string>)
    requires |sep| > 0
    ensures |r| <= |Split(s, sep)| && r == Split(s, sep)[..|r|]
    ensures |r| > 0 ==> r[|r| - 1] != ""
    ensures forall i :: |r| <= i < |Split(s, sep)| ==> Split(s, sep)[i] == ""
  {
    DropTrailingEmpty(Split(s, sep))
  }

  /** Joining the pieces of a split with the same separator gives back the string. */
  lemma {:induction false} JoinSplit(s: string, sep: string)
    requires |sep| > 0
    ensures Join(Split(s, sep), sep) == s
    decreases |s|
  {
    match FindFrom(s, sep, 0)
    case None =>
    case Some(k) =>
      var a, rest := s[..k], s[k + |sep|..];
      var ps := Split(rest, sep);
      assert Split(s, sep) == [a] + ps;
      assert ([a] + ps)[1..] == ps;
      JoinSplit(rest, sep);
      assert Join([a] + ps, sep) == a + sep + Join(ps, sep);
      assert s[k..k + |sep|] == sep;
      assert s == a + s[k..k + |sep|] + rest;
  }

  /** A character that does not occur is not found. */
  lemma {:induction false} CharNotFound(s: string, c: char, i: nat)
    requires c !in s
    ensures FindFrom(s, [c], i) == None
    decreases |s| - i
  {
    if i + 1 <= |s| {
      assert s[i..i + 1] == [s[i]];
      CharNotFound(s, c, i + 1);
    }
  }

  /** The first occurrence of a character at or after `i` is found. */
  lemma {:induction false} CharFoundAt(s: string, c: char, i: nat, k: nat)
    requires i <= k < |s| && s[k] == c
    requires forall j :: i <= j < k ==> s[j] != c
    ensures FindFrom(s, [c], i) == Some(k)
    decreases k - i
  {
    assert s[i..i + 1] == [s[i]];
    if i < k {
      CharFoundAt(s, c, i + 1, k);
    }
  }

  /**
   * Splitting a join at a one-character separator that no part contains
   * gives back the parts.
   */
  lemma {:induction false} SplitJoin(parts: seq<string>, c: char)
    requires |parts| > 0
    requires forall i :: 0 <= i < |parts| ==> c !in parts[i]
    ensures Split(Join(parts, [c]), [c]) == parts
  {
    var s := Join(parts, [c]);
    var p := parts[0];
    if |parts| == 1 {
      CharNotFound(s, c, 0);
    } else {
      var rest := Join(parts[1..], [c]);
      assert s == p + [c] + rest;
      forall j | 0 <= j < |p|
        ensures s[j] != c
      {
        assert s[j] == p[j];
      }
      CharFoundAt(s, c, 0, |p|);
      assert s[|p| + 1..] == rest;
      assert s[..|p|] == p;
      SplitJoin(parts[1..], c);
      assert parts == [p] + parts[1..];
    }
  }

  /** An occurrence inside a slice is an occurrence in the whole string. */
  lemma OccursInSlice(s: string, sep: string, a: nat, b: nat, k: nat)
    requires a <= b <= |s| && OccursAt(s[a..b], sep, k)
    ensures OccursAt(s, sep, a + k)
  {
    var w := s[a..b][k..k + |sep|];
    assert |w| == |s[a + k..a + k + |sep|]|;
    forall j | 0 <= j < |sep|
      ensures w[j] == s[a + k..a + k + |sep|][j]
    {
      assert w[j] == s[a..b][k + j] == s[a + k + j];
    }
    assert w == s[a + k..a + k + |sep|];
  }

  /** No piece of a split holds the separator. */
  lemma {:induction false} SplitPiecesFree(s: string, sep: string)
    requires |sep| > 0
    ensures forall i, k :: 0 <= i < |Split(s, sep)| ==> !OccursAt(Split(s, sep)[i], sep, k)
    decreases |s|
  {
    FindFromIsFirst(s, sep, 0);
    match FindFrom(s, sep, 0)
    case None =>
    case Some(f) =>
      var rest := s[f + |sep|..];
      SplitPiecesFree(rest, sep);
      assert Split(s, sep) == [s[..f]] + Split(rest, sep);
      forall k | OccursAt(s[..f], sep, k)
        ensures false
      {
        OccursInSlice(s, sep, 0, f, k);
      }
  }

  /** A join of several parts ends with the separator and the last part. */
  lemma {:induction false} JoinLast(parts: seq<string>, sep: string)
    requires |parts| > 1
    ensures Join(parts, sep) == Join(parts[..|parts| - 1], sep) + sep + parts[|parts| - 1]
  {
    var n := |parts|;
    if n > 2 {
      JoinLast(parts[1..], sep);
      assert parts[1..][..n - 2] == parts[..n - 1][1..];
      assert parts[1..][n - 2] == parts[n - 1];
    } else {
      assert parts[1..] == [parts[1]];
    }
  }
}

=== FILE: wrappers.dfy ===
/** Option and Result, used for Ruby's nil and for raised exceptions. */
module Wrappers {

  /** A value that may be nil. */
  datatype Option<T> = None | Some(value: T)

  /** The outcome of a Ruby call that either returns a value or raises. */
  datatype Result<T, E> = Ok(value: T) | Err(error: E)
}
